=== FILE: README.md ===
# STAG game engine, modelled in Dafny

This project models the in-memory engine of a text adventure (STAG, Java). The engine takes one line of the form `player: command` and returns the reply string. Along the way it updates a world of locations, entities and players.

The model has one Dafny module per source class:

- `Text`: the string operations the engine relies on.
  - ASCII case folding, `trim`, `contains` and `startsWith`.
  - Whitespace collapsing, and whole-word deletion with `\b`.
  - `%d` formatting, and `split("->")`.
- `Entities` (`Location.java`):
  - entities as objects with a name, a description and a kind (artefact, furniture, character);
  - the location class, with its path set, typed entity sets and player set.
- `Players` (`PlayerState.java`): the player record, with location, insertion-ordered inventory and health.
- `Registry` (`GameState.java`): the registry of player states.
- `World` (`GameWorld.java`): locations by name, the custom actions, and the template search.
- `Actions` (`CustomAction.java`): the append-only action record, and the `SRC->DST` path form of a produced name.
- `BasicActions` (`BasicAction.java`): the built-in verbs.
  - look, inventory, get, drop, goto, health, fight/attack and drink;
  - death and resurrection.
- `Executor` (`CustomActionExecutor.java`): the custom-action resolver.
  - Command normalisation and trigger matching.
  - The door, chest, vine and tree narrowing rules, and the ambiguity replies.
  - The subject, tree-count and torch checks.
  - The consume and produce effects, including the forced cellar→cave and cave→treasure paths.
- `Controller` (`GameController.java`): parsing, name validation, command normalisation and routing in `handleCommand`.

Classes whose fields the source updates in place are Dafny classes with `modifies` frames:

- `Location`, `PlayerState`, `GameState`, `GameWorld`, `CustomAction`, `GameController`.
- A Java `HashSet` is a Dafny `set`.
- The `LinkedHashSet` inventory is a duplicate-free `seq`.
- The location map is a `map`.
- Java object identity is Dafny reference identity.
- Wherever the source takes "the first" member of a hash set, the model makes an unspecified choice (`:|`). Contracts then hold for every iteration order.

`GameWorld.Valid()` is the world invariant. It states that:

- every location is filed under its own name;
- "cabin" exists;
- every path leads to a known location;
- the cellar→cave and cave→treasure paths, when forced, lead to known locations;
- every `SRC->DST` an action produces from a known SRC names a known DST.

The source dereferences `getLocation` results without checking for null in goto and on death; the produced and forced paths are null-checked. Goto follows any path, so a path to a missing location fails on the next goto. The invariant rules out such paths, and the worlds that would create them. `GameController.Valid()` adds that every registered player carries only artefacts and stands at a location of the world. Every command preserves this.

`GameController.java:43` calls `getOrCreatePlayerState`, which `GameState.java` does not declare. The model reads the call as `currentStates` (`GameState.java:19-24`), the get-or-create method the class does declare.

## Model

Source paths are relative to the root of the repository.

| member | source | states |
|---|---|---|
| Text.Lower | resources/cw-stag/src/main/java/edu/uob/games/GameController.java:30-31 | toLowerCase on ASCII: same length, each character lowered, and no capital left |
| Text.LowerOfNoUpper | resources/cw-stag/src/main/java/edu/uob/games/GameController.java:30-31 | lower-casing text without capitals returns it unchanged |
| Text.Trim | resources/cw-stag/src/main/java/edu/uob/games/GameController.java:30-31 | trim's result is no longer than the input and has no character up to U+0020 at either end (which slice it keeps: Text.TrimExact) |
| Text.TrimExact | resources/cw-stag/src/main/java/edu/uob/games/GameController.java:30-31 | trim keeps exactly the slice between the leading and the trailing characters up to U+0020: everything cut is such a character and the slice neither starts nor ends with one |
| Text.TrimIdempotent | resources/cw-stag/src/main/java/edu/uob/games/GameController.java:30-31 | trimming twice is trimming once |
| Text.NormalizeSpacesNormal | resources/cw-stag/src/main/java/edu/uob/games/GameController.java:98 | replaceAll("\\s+", " ").trim() yields collapsed, trimmed text with the same words as the input when every character of it up to U+0020 is whitespace; applying it again changes nothing |
| Text.NormalizeSpacesKeepsWords | resources/cw-stag/src/main/java/edu/uob/games/GameController.java:98 | collapsing whitespace runs and trimming keep the words, in order, when every character up to U+0020 is whitespace |
| Text.ContainsHasOccurrence | resources/cw-stag/src/main/java/edu/uob/actions/CustomActionExecutor.java:455 | contains holds only when the substring occurs at some position |
| Text.RemoveWord | resources/cw-stag/src/main/java/edu/uob/actions/CustomActionExecutor.java:173 | deleting a word of word characters keeps exactly the characters that no \b-bounded occurrence covers, in order; for any word the text never grows and gains no capitals |
| Text.RemoveWordBounded | resources/cw-stag/src/main/java/edu/uob/actions/CustomActionExecutor.java:173 | a \b-bounded word of word characters in the result was \b-bounded in the input and is not the deleted word |
| Text.RemoveWordLeavesNone | resources/cw-stag/src/main/java/edu/uob/actions/CustomActionExecutor.java:173 | no \b-bounded occurrence of the deleted word is left |
| Text.RemoveWordFromUnmatched | resources/cw-stag/src/main/java/edu/uob/actions/CustomActionExecutor.java:173 | without a word-bounded occurrence, the deletion leaves the text as it is |
| Text.JoinTrailingIsJoin | resources/cw-stag/src/main/java/edu/uob/actions/BasicAction.java:61-68 | appending each name plus ", " and then deleting the last two characters is the ", "-join of the names |
| Text.IntToStringRoundTrip | resources/cw-stag/src/main/java/edu/uob/actions/BasicAction.java:135-137 | every integer written with %d reads back as itself |
| Text.SplitArrowRoundTrip | resources/cw-stag/src/main/java/edu/uob/actions/CustomActionExecutor.java:89-93 | split("->") of "a->b" gives exactly [a, b] when neither holds '-' and b is not empty |
| Text.SplitArrowDanglingArrow | resources/cw-stag/src/main/java/edu/uob/actions/CustomActionExecutor.java:89-90 | "a->" splits into one piece (trailing empty strings are dropped), so it is not a path |
| Entities.AfterRemoveIgnoresCase | resources/cw-stag/src/main/java/edu/uob/entities/Location.java:96-173 | removal depends on the entity's name only up to case |
| Entities.AfterRemoveClearsName | resources/cw-stag/src/main/java/edu/uob/entities/Location.java:119-172 | outside the furniture-tree case, nothing with the removed name (ignoring case) is left in any of the three sets |
| Entities.AfterRemoveTree | resources/cw-stag/src/main/java/edu/uob/entities/Location.java:99-114 | removing "tree" while some furniture is called tree removes every furniture tree and leaves artefacts and characters untouched |
| Entities.AfterRemoveKeepsOthers | resources/cw-stag/src/main/java/edu/uob/entities/Location.java:96-173 | removal never changes paths or players and never removes an entity with a different name |
| Entities.Location.constructor | resources/cw-stag/src/main/java/edu/uob/entities/Location.java:16-26 | a new location has the given name and description and five empty sets |
| Entities.Location.AddPath | resources/cw-stag/src/main/java/edu/uob/entities/Location.java:30-32 | the destination joins the path set and nothing else changes; re-adding a known destination changes nothing |
| Entities.Location.AddArtefact | resources/cw-stag/src/main/java/edu/uob/entities/Location.java:40-42 | the artefact joins the artefact set only |
| Entities.Location.AddFurniture | resources/cw-stag/src/main/java/edu/uob/entities/Location.java:49-51 | the furniture joins the furniture set only |
| Entities.Location.AddCharacter | resources/cw-stag/src/main/java/edu/uob/entities/Location.java:57-59 | the character joins the character set only |
| Entities.Location.AddPlayer | resources/cw-stag/src/main/java/edu/uob/entities/Location.java:65-67 | the player joins the player set only |
| Entities.Location.AddEntity | resources/cw-stag/src/main/java/edu/uob/entities/Location.java:81-94 | the entity joins exactly the typed set for its kind, and getEntities then holds it |
| Entities.Location.HasEntity | resources/cw-stag/src/main/java/edu/uob/entities/Location.java:189-196 | true exactly when some artefact, furniture or character is called the name, ignoring case |
| Entities.Location.CollectNamed | resources/cw-stag/src/main/java/edu/uob/entities/Location.java:139-155 | the collect loop finds exactly the members called the name, ignoring case |
| Entities.Location.RemoveByName | resources/cw-stag/src/main/java/edu/uob/entities/Location.java:178-186 | the collection keeps exactly its members not called the name |
| Entities.Location.RemoveDirectOrByName | resources/cw-stag/src/main/java/edu/uob/entities/Location.java:119-161 | removal by identity, else of every same-named entity, keeps paths and players and removes only same-named entities |
| Entities.Location.Swept | resources/cw-stag/src/main/java/edu/uob/entities/Location.java:163-170 | once no same-named entity is left, each set is exactly its old contents without the same-named entities |
| Entities.Location.RemoveEntity | resources/cw-stag/src/main/java/edu/uob/entities/Location.java:96-173 | the new contents are AfterRemove of the old: the furniture-tree rule, else every entity of that name gone from all three sets |
| Players.Added | resources/cw-stag/src/main/java/edu/uob/games/PlayerState.java:47-49 | adding to an insertion-ordered set: an item already there changes nothing, a new item goes last, and no duplicates appear |
| Players.Without | resources/cw-stag/src/main/java/edu/uob/games/PlayerState.java:52-54 | removing from it: the item is gone, every other item stays, no duplicates appear, and an absent item changes nothing |
| Players.WithoutRemovesOne | resources/cw-stag/src/main/java/edu/uob/games/PlayerState.java:52-54 | removing an item held at position k cuts out exactly that position; the other items keep their order |
| Players.PlayerState.constructor | resources/cw-stag/src/main/java/edu/uob/games/PlayerState.java:19-26 | a new player has the given name and location, an empty inventory and health 3 |
| Players.PlayerState.SetLocation | resources/cw-stag/src/main/java/edu/uob/games/PlayerState.java:37-39 | only the location changes |
| Players.PlayerState.AddToInventory | resources/cw-stag/src/main/java/edu/uob/games/PlayerState.java:47-49 | the inventory becomes Added(old, item); location and health stay |
| Players.PlayerState.RemoveFromInventory | resources/cw-stag/src/main/java/edu/uob/games/PlayerState.java:52-54 | the inventory becomes Without(old, item); location and health stay |
| Players.PlayerState.SetHealth | resources/cw-stag/src/main/java/edu/uob/games/PlayerState.java:62-64 | health is stored unclamped and nothing else changes |
| Registry.GameState.constructor | resources/cw-stag/src/main/java/edu/uob/games/GameState.java:14-17 | an empty registry and an empty players-here set |
| Registry.GameState.CurrentStates | resources/cw-stag/src/main/java/edu/uob/games/GameState.java:19-24 | get-or-create: a known name returns its record and changes nothing; an unknown one files a fresh record at the start location with full health and nothing carried |
| Registry.GameState.AddPlayer | resources/cw-stag/src/main/java/edu/uob/games/GameState.java:35-37 | the record is filed under its name, replacing any earlier one |
| Registry.GameState.GetAllPlayerStatesAt | resources/cw-stag/src/main/java/edu/uob/games/GameState.java:26-33 | as written: the persistent field grows by the players at loc and is returned whole |
| Registry.GameState.PlayerStatesAt | resources/cw-stag/src/main/java/edu/uob/games/GameState.java:26-33 | as intended: exactly the registered players whose location is loc |
| Registry.StalePlayerScenario | resources/cw-stag/src/main/java/edu/uob/games/GameState.java:26-33 | after a query in the cabin, a query in the forest still reports the player who is in the cabin |
| Registry.CorrectedPlayerScenario | resources/cw-stag/src/main/java/edu/uob/games/GameState.java:26-33 | with the corrected lookup, the same calls report nobody in the forest |
| World.GameWorld.constructor | resources/cw-stag/src/main/java/edu/uob/games/GameWorld.java:19-22 | no locations and no actions |
| World.GameWorld.AddLocation | resources/cw-stag/src/main/java/edu/uob/games/GameWorld.java:24-26 | the location is filed under its own name, replacing any earlier one; the actions stay |
| World.GameWorld.GetLocation | resources/cw-stag/src/main/java/edu/uob/games/GameWorld.java:28-30 | exact, case-sensitive lookup; null exactly when the key is absent |
| World.GameWorld.GetLocations | resources/cw-stag/src/main/java/edu/uob/games/GameWorld.java:36-38 | exactly the stored locations |
| World.GameWorld.AddAction | resources/cw-stag/src/main/java/edu/uob/games/GameWorld.java:40-42 | the action joins the action set; the locations stay |
| World.GameWorld.FindEntityByName | resources/cw-stag/src/main/java/edu/uob/games/GameWorld.java:49-70 | null exactly when no location holds the name; otherwise one of the candidates: an entity of that name from a location other than the storeroom when there is one, else one from the storeroom |
| World.GameWorld.FindNothingMeansNowhere | resources/cw-stag/src/main/java/edu/uob/games/GameWorld.java:49-70 | in a valid world, finding nothing outside and in the storeroom means no location at all holds the name |
| Actions.CustomAction.constructor | resources/cw-stag/src/main/java/edu/uob/actions/CustomAction.java:13-20 | four empty lists and narration " " |
| Actions.CustomAction.AddTriggers | resources/cw-stag/src/main/java/edu/uob/actions/CustomAction.java:22-24 | the keyword is appended to the triggers; the other lists and the narration stay |
| Actions.CustomAction.AddSubjects | resources/cw-stag/src/main/java/edu/uob/actions/CustomAction.java:26-28 | the name is appended to the subjects; the rest stays |
| Actions.CustomAction.AddConsumed | resources/cw-stag/src/main/java/edu/uob/actions/CustomAction.java:30-32 | the name is appended to the consumed list; the rest stays |
| Actions.CustomAction.AddProduced | resources/cw-stag/src/main/java/edu/uob/actions/CustomAction.java:34-36 | the name is appended to the produced list; the rest stays |
| Actions.CustomAction.AddNarration | resources/cw-stag/src/main/java/edu/uob/actions/CustomAction.java:38-40 | the narration is replaced; the lists stay |
| Actions.PathSpecTrimmed | resources/cw-stag/src/main/java/edu/uob/actions/CustomActionExecutor.java:89-93 | a path production contains "->" and yields trimmed source and destination names |
| Actions.PathSpecOfArrow | resources/cw-stag/src/main/java/edu/uob/actions/CustomActionExecutor.java:89-93 | "A->B" asks for the path from trim(A) to trim(B) |
| BasicActions.ListEntities | resources/cw-stag/src/main/java/edu/uob/actions/BasicAction.java:28-32 | one "There is a … here - …" line per entity at the location, each entity once |
| BasicActions.ListExits | resources/cw-stag/src/main/java/edu/uob/actions/BasicAction.java:34-42 | no exits line without paths; otherwise "Exits: " and every path once, joined by ", " |
| BasicActions.ListOthers | resources/cw-stag/src/main/java/edu/uob/actions/BasicAction.java:44-50 | one "Player … is here as well." per present player other than the one looking |
| BasicActions.HandleLook | resources/cw-stag/src/main/java/edu/uob/actions/BasicAction.java:18-52 | the reply is the location line, the description, every entity, the exits and the other players at the location, in some iteration order |
| BasicActions.InventoryTextNothing | resources/cw-stag/src/main/java/edu/uob/actions/BasicAction.java:54-71 | "You are carrying nothing." exactly when the inventory is empty |
| BasicActions.HandleInventory | resources/cw-stag/src/main/java/edu/uob/actions/BasicAction.java:54-71 | the reply lists the carried names in pick-up order, joined by ", " |
| BasicActions.HandleGet | resources/cw-stag/src/main/java/edu/uob/actions/BasicAction.java:73-92 | a matching artefact (whole name ignoring case, or containment for requests of 3+ characters) moves into the inventory and the location loses it by the removeEntity rule; without one, the fixed refusal and no change |
| BasicActions.FirstMatch | resources/cw-stag/src/main/java/edu/uob/actions/BasicAction.java:191-193 | the first inventory position whose item matches, or none exactly when no item matches |
| BasicActions.HandleDrop | resources/cw-stag/src/main/java/edu/uob/actions/BasicAction.java:94-112 | the first carried item of that name (ignoring case) leaves the inventory and joins the location's artefacts; without one, the refusal and no change |
| BasicActions.HandleGoto | resources/cw-stag/src/main/java/edu/uob/actions/BasicAction.java:114-129 | the player moves only along a path matching the destination ignoring case, to the location of that name; otherwise "You can't go there from here." and no move |
| BasicActions.HandleHealth | resources/cw-stag/src/main/java/edu/uob/actions/BasicAction.java:135-137 | the reply is "Your health is ", the health in decimal and a full stop, and it reads back as the player's health |
| BasicActions.HealthStaysInRange | resources/cw-stag/src/main/java/edu/uob/actions/BasicAction.java:154-197 | from health in [1,3], any sequence of fights and potions keeps health in [1,3] |
| BasicActions.HandleDeath | resources/cw-stag/src/main/java/edu/uob/actions/BasicAction.java:209-230 | health 3, every carried artefact added to the location of death, an empty inventory, and the player at "cabin" |
| BasicActions.DropCarried | resources/cw-stag/src/main/java/edu/uob/actions/BasicAction.java:215-220 | one inventory item on death: an artefact leaves the inventory and joins the location's artefacts, anything else stays carried; location and health are kept |
| BasicActions.HasCharacter | resources/cw-stag/src/main/java/edu/uob/actions/BasicAction.java:146-147 | true exactly when a character of that name, ignoring case, is here |
| BasicActions.TakeDamage | resources/cw-stag/src/main/java/edu/uob/actions/BasicAction.java:151-166 | health drops by one with the "now %d" reply; at zero the player dies, is resurrected at the cabin and drops their artefacts |
| BasicActions.HandleFight | resources/cw-stag/src/main/java/edu/uob/actions/BasicAction.java:140-187 | with a character of that name here, or the target "elf", the blow is taken; otherwise "There is no … here to fight." and nothing changes |
| BasicActions.HandleDrink | resources/cw-stag/src/main/java/edu/uob/actions/BasicAction.java:190-207 | the first matching item: a potion raises health to min(h+1, 3) and is used up; anything else is refused; no match gives "You don't have … to drink." |
| Executor.RemoveFillers | resources/cw-stag/src/main/java/edu/uob/actions/CustomActionExecutor.java:171-174 | deleting the filler words in turn never lengthens the command and keeps it free of capitals (which words go: RemoveFillersBounded, RemoveFillersLeavesNone) |
| Executor.RemoveFillersBounded | resources/cw-stag/src/main/java/edu/uob/actions/CustomActionExecutor.java:171-174 | a \b-bounded word of word characters in the result was \b-bounded in the input and is none of the fillers |
| Executor.RemoveFillersLeavesNone | resources/cw-stag/src/main/java/edu/uob/actions/CustomActionExecutor.java:171-174 | no filler made of word characters is left \b-bounded |
| Executor.Stripped | resources/cw-stag/src/main/java/edu/uob/actions/CustomActionExecutor.java:169-174 | the lower-cased command without fillers has no capitals and is no longer than the input (which words go: StrippedLeavesNoFiller, StrippedBounded) |
| Executor.StrippedLeavesNoFiller | resources/cw-stag/src/main/java/edu/uob/actions/CustomActionExecutor.java:168-174 | no filler is left \b-bounded in the lower-cased command |
| Executor.StrippedBounded | resources/cw-stag/src/main/java/edu/uob/actions/CustomActionExecutor.java:168-174 | a \b-bounded word in the stripped command is no filler and was \b-bounded in the lower-cased command |
| Executor.NormalizeCommand | resources/cw-stag/src/main/java/edu/uob/actions/CustomActionExecutor.java:168-178 | the normalised command is in lower case, collapsed and trimmed, and has the words of the stripped command when every character of the input up to U+0020 is whitespace |
| Executor.NormalizeCommandNoFiller | resources/cw-stag/src/main/java/edu/uob/actions/CustomActionExecutor.java:168-177 | no word of the normalised command is a filler |
| Executor.AnyFoundSome | resources/cw-stag/src/main/java/edu/uob/actions/CustomActionExecutor.java:451-475 | the in-order scan succeeds exactly when some trigger passes the direct or the word-by-word test |
| Executor.FindTrigger | resources/cw-stag/src/main/java/edu/uob/actions/CustomActionExecutor.java:452-474 | one trigger, lowered and trimmed, is in the command, or has several words that all are |
| Executor.AllWordsIn | resources/cw-stag/src/main/java/edu/uob/actions/CustomActionExecutor.java:461-469 | true exactly when every word is in the command |
| Executor.AnyTriggerFound | resources/cw-stag/src/main/java/edu/uob/actions/CustomActionExecutor.java:451-475 | true exactly when some trigger passes |
| Executor.EitherIn | resources/cw-stag/src/main/java/edu/uob/actions/CustomActionExecutor.java:432-437 | true exactly when one of the two exact words is a trigger |
| Executor.MatchTrigger | resources/cw-stag/src/main/java/edu/uob/actions/CustomActionExecutor.java:427-478 | true exactly for the door/unlock/open case, the tree/chop/cut case, or some trigger found directly or word by word |
| Executor.ToMatchTrigger | resources/cw-stag/src/main/java/edu/uob/actions/CustomActionExecutor.java:23-30 | true exactly when some trigger, ignoring case, is part of the command |
| Executor.CollectCandidates | resources/cw-stag/src/main/java/edu/uob/actions/CustomActionExecutor.java:219-227 | exactly the actions whose triggers match |
| Executor.DoorStep | resources/cw-stag/src/main/java/edu/uob/actions/CustomActionExecutor.java:235-250 | on a door command, the candidates become one with door and key subjects, if there is one |
| Executor.ChestStep | resources/cw-stag/src/main/java/edu/uob/actions/CustomActionExecutor.java:253-268 | on a chest command, the candidates become one with a chest subject, if there is one |
| Executor.CutStep | resources/cw-stag/src/main/java/edu/uob/actions/CustomActionExecutor.java:271-302 | on a cut or chop command about vines (or else a tree), the candidates become one about it, if there is one |
| Executor.FinalStep | resources/cw-stag/src/main/java/edu/uob/actions/CustomActionExecutor.java:305-333 | several candidates and no door or chest in the command give the ambiguity reply; otherwise one candidate is chosen, by door or chest subject when the command names one |
| Executor.Narrow | resources/cw-stag/src/main/java/edu/uob/actions/CustomActionExecutor.java:230-333 | the narrowing steps in order meet the selection rules |
| Executor.SelectAction | resources/cw-stag/src/main/java/edu/uob/actions/CustomActionExecutor.java:219-333 | no candidate, ambiguity, or a chosen candidate, by the door, chest, cutting and final rules in that order |
| Executor.IsEntityInCollection | resources/cw-stag/src/main/java/edu/uob/actions/CustomActionExecutor.java:197-204 | true exactly when some member is called the name, ignoring case |
| Executor.Carried | resources/cw-stag/src/main/java/edu/uob/actions/CustomActionExecutor.java:186 | the inventory as a set holds every carried item |
| Executor.ToCheckSubjects | resources/cw-stag/src/main/java/edu/uob/actions/CustomActionExecutor.java:184-192 | true exactly when the subject is carried or at the location |
| Executor.ToSubjectsAvailable | resources/cw-stag/src/main/java/edu/uob/actions/CustomActionExecutor.java:33-48 | the same test as toCheckSubjects |
| Executor.CountNamed | resources/cw-stag/src/main/java/edu/uob/actions/CustomActionExecutor.java:338-343 | the number of entities here with the name |
| Executor.CheckChosen | resources/cw-stag/src/main/java/edu/uob/actions/CustomActionExecutor.java:336-365 | the refusal is "Which tree do you mean?" for a chop-tree command with more than one tree, else the missing-subject reply, else the torch reply, else none |
| Executor.ToApplyConsumed | resources/cw-stag/src/main/java/edu/uob/actions/CustomActionExecutor.java:51-83 | "tree" goes through the location's tree rule; a carried item of the name leaves the inventory with the location untouched; otherwise the location loses everything of that name (nothing, if nothing matches) |
| Executor.ToApplyProduced | resources/cw-stag/src/main/java/edu/uob/actions/CustomActionExecutor.java:87-163 | a path from a known source is added and no entity is produced; a shovel goes into the inventory; anything else is produced as Produced describes |
| Executor.ProduceShovelOrEntity | resources/cw-stag/src/main/java/edu/uob/actions/CustomActionExecutor.java:126-162 | a shovel is a fresh "A sturdy shovel for digging" artefact appended to the inventory with the location unchanged; any other name is produced as Produced describes |
| Executor.ProducePath | resources/cw-stag/src/main/java/edu/uob/actions/CustomActionExecutor.java:89-123 | the location filed as the source gains the destination path and no other location changes; an unknown source changes nothing |
| Executor.AddPathAgain | resources/cw-stag/src/main/java/edu/uob/actions/CustomActionExecutor.java:103-118 | the special cellar and cave cases add a path that is already there and change nothing |
| Executor.AgainIfSpecial | resources/cw-stag/src/main/java/edu/uob/actions/CustomActionExecutor.java:103-118 | once the path is there, the cellar-to-cave and cave-to-treasure special cases change no location |
| Executor.ProduceEntity | resources/cw-stag/src/main/java/edu/uob/actions/CustomActionExecutor.java:135-162 | no template: a new artefact "A "+name at the location; with a template, one of the entities findEntityByName may return (outside the storeroom when any exists): a copy (or the character itself), into the inventory for potions and to the location otherwise |
| Executor.ProduceFromNothing | resources/cw-stag/src/main/java/edu/uob/actions/CustomActionExecutor.java:137-141 | with no template, a fresh artefact called the name, described as "A " and the name, joins this location |
| Executor.ProduceFromTemplate | resources/cw-stag/src/main/java/edu/uob/actions/CustomActionExecutor.java:144-162 | with a template, the production is the copy (or the character itself), placed as Produced describes |
| Executor.ProduceFrom | resources/cw-stag/src/main/java/edu/uob/actions/CustomActionExecutor.java:144-162 | artefacts and furniture are fresh copies, a character is the template itself; only an artefact whose produced name contains "potion" goes to the inventory |
| Executor.ConsumeAll | resources/cw-stag/src/main/java/edu/uob/actions/CustomActionExecutor.java:368-371 | the inventory and the location become AfterConsumeAll of the old ones: each name in turn, taken from the inventory when carried, else by the location's removal rule; health, location and paths are kept |
| Executor.ConsumeOne | resources/cw-stag/src/main/java/edu/uob/actions/CustomActionExecutor.java:368-371 | one consumed name: the inventory and the location become AfterConsume of the old ones |
| Executor.ConsumeHere | resources/cw-stag/src/main/java/edu/uob/actions/CustomActionExecutor.java:51-83 | toApplyConsumed as AfterConsume, with the index of the carried item it takes |
| Executor.AfterConsumeRemoves | resources/cw-stag/src/main/java/edu/uob/actions/CustomActionExecutor.java:51-83 | consuming a name only takes away: nothing joins the inventory, the location loses entities at most, its paths and players stay |
| Executor.AfterConsumeAllRemoves | resources/cw-stag/src/main/java/edu/uob/actions/CustomActionExecutor.java:368-371 | the same for the whole consumed list |
| Executor.ConsumeTree | resources/cw-stag/src/main/java/edu/uob/actions/CustomActionExecutor.java:51-83 | consuming "tree" where furniture trees stand removes every one of them and leaves the inventory, artefacts and characters as they were |
| Executor.ProduceAll | resources/cw-stag/src/main/java/edu/uob/actions/CustomActionExecutor.java:374-402 | after the loop, every produced path with a known source is there, and paths only grew |
| Executor.Produce | resources/cw-stag/src/main/java/edu/uob/actions/CustomActionExecutor.java:375-401 | one production with its double-check: for "SRC->DST" every location gains exactly the double-check's paths and nothing else changes; otherwise only the player's location changes, by the shovel rule or as Produced describes; the requested path is there |
| Executor.ProduceSteps | resources/cw-stag/src/main/java/edu/uob/actions/CustomActionExecutor.java:375-401 | toApplyProduced, then the double-check for a name containing "->": the same effects as Produce |
| Executor.ProducePathSteps | resources/cw-stag/src/main/java/edu/uob/actions/CustomActionExecutor.java:375-401 | for "SRC->DST", no entity is made, the inventory stays, and every location gains exactly the double-check's paths |
| Executor.EnsurePath | resources/cw-stag/src/main/java/edu/uob/actions/CustomActionExecutor.java:379-401 | the double-check adds exactly the requested path and, for cellar to cave, the cellar's path to the cave; nothing else changes, and the requested path is there |
| Executor.EnsureSpecPath | resources/cw-stag/src/main/java/edu/uob/actions/CustomActionExecutor.java:385-398 | the same for a source and destination: exactly those paths are added, and the path is there when the source is known |
| Executor.SpecPathFrame | resources/cw-stag/src/main/java/edu/uob/actions/CustomActionExecutor.java:385-398 | an unknown source changes nothing; a known one gains the path, and the cellar its path to the cave in the cellar case |
| Executor.SpecPathAt | resources/cw-stag/src/main/java/edu/uob/actions/CustomActionExecutor.java:389-397 | from a found source: its path, then the forced cellar-to-cave path when asked, and nothing else |
| Executor.SpecPathsOfKnown | resources/cw-stag/src/main/java/edu/uob/actions/CustomActionExecutor.java:389-397 | from a known source, the double-check's paths are the path itself plus, in the cellar case, the cellar's path to the cave |
| Executor.ForcePaths | resources/cw-stag/src/main/java/edu/uob/actions/CustomActionExecutor.java:405-422 | a door command adds cellar→cave and a vine command cave→treasure, each when its source location exists; nothing else changes |
| Executor.ForceBoth | resources/cw-stag/src/main/java/edu/uob/actions/CustomActionExecutor.java:405-422 | the door path, then the vine path: every location gains exactly the forced paths |
| Executor.ForceOne | resources/cw-stag/src/main/java/edu/uob/actions/CustomActionExecutor.java:405-411 | one forced path: when asked, the location filed as the source, if any, gains the path, and nothing else changes |
| Executor.AddPathAt | resources/cw-stag/src/main/java/edu/uob/actions/CustomActionExecutor.java:389 | adding a path to a known location changes that location's paths only and keeps the world valid |
| Executor.ApplyEffects | resources/cw-stag/src/main/java/edu/uob/actions/CustomActionExecutor.java:368-422 | after the effects, every produced path and every forced path is there, and health and location are kept |
| Executor.ProduceAndForce | resources/cw-stag/src/main/java/edu/uob/actions/CustomActionExecutor.java:374-422 | after the production loop and the forced paths, every produced path and every forced path is there, and paths only grew |
| Executor.RunChosen | resources/cw-stag/src/main/java/edu/uob/actions/CustomActionExecutor.java:336-424 | a refusal is returned with nothing changed; otherwise the narration, with the effects applied |
| Executor.ExecuteCustomAction | resources/cw-stag/src/main/java/edu/uob/actions/CustomActionExecutor.java:207-425 | "I don't understand your command." without a candidate, the ambiguity reply, a refusal, or the narration; every reply other than the narration leaves players and locations unchanged |
| Executor.Respond | resources/cw-stag/src/main/java/edu/uob/actions/CustomActionExecutor.java:218-425 | for the normalised command: the selection follows SelectionRules; no candidate gives "I don't understand your command.", several the ambiguity reply, and a chosen action its refusal or its narration; every reply but the narration leaves players and locations unchanged |
| Controller.IndexOf | resources/cw-stag/src/main/java/edu/uob/games/GameController.java:24 | the first position of the character, or -1 exactly when it is absent |
| Controller.NormalizeCommand | resources/cw-stag/src/main/java/edu/uob/games/GameController.java:96-109 | text whose normal form starts with "inv" (ignoring case) gives "inventory", else one starting with "health" or "hp" gives "health", else exactly the collapsed, trimmed command, which keeps the words |
| Controller.LookNormalized | resources/cw-stag/src/main/java/edu/uob/games/GameController.java:96-109 | "look" is none of the shortcuts and normalises to itself |
| Controller.LookIsNormal | resources/cw-stag/src/main/java/edu/uob/games/GameController.java:98 | whitespace normalisation keeps "look" |
| Controller.LookIsNoShortcut | resources/cw-stag/src/main/java/edu/uob/games/GameController.java:101-106 | "look" matches none of the "inv", "health" and "hp" shortcuts |
| Controller.NormalizeCommandNeverInv | resources/cw-stag/src/main/java/edu/uob/games/GameController.java:50 | the result is never "inv", so the equals("inv") test can never be the one that matches |
| Controller.InvMatchesInv | resources/cw-stag/src/main/java/edu/uob/games/GameController.java:101 | "inv" matches the "inv" shortcut |
| Controller.NormalizeCommandIdempotent | resources/cw-stag/src/main/java/edu/uob/games/GameController.java:96-109 | normalising a normalised command changes nothing |
| Controller.InventoryNormalized | resources/cw-stag/src/main/java/edu/uob/games/GameController.java:101-103 | "inventory" normalises to itself |
| Controller.HealthNormalized | resources/cw-stag/src/main/java/edu/uob/games/GameController.java:104-106 | "health" normalises to itself |
| Controller.InventoryIsNormal | resources/cw-stag/src/main/java/edu/uob/games/GameController.java:98 | whitespace normalisation keeps "inventory" |
| Controller.HealthIsNormal | resources/cw-stag/src/main/java/edu/uob/games/GameController.java:98 | whitespace normalisation keeps "health" |
| Controller.InventoryMatchesInv | resources/cw-stag/src/main/java/edu/uob/games/GameController.java:101 | "inventory" matches the "inv" shortcut |
| Controller.HealthMatchesHealthOnly | resources/cw-stag/src/main/java/edu/uob/games/GameController.java:101-106 | "health" matches the health shortcut and not the "inv" one |
| Controller.NormalTextIsItsNormalForm | resources/cw-stag/src/main/java/edu/uob/games/GameController.java:98 | text without whitespace is left unchanged by the whitespace normalisation |
| Controller.ParseLine | resources/cw-stag/src/main/java/edu/uob/games/GameController.java:24-39 | no colon exactly when the line has none; otherwise split at the first colon, with the name trimmed and lower-cased and refused unless it is ASCII letters and digits, and the command trimmed, lower-cased and normalised |
| Controller.ParseLineRoundTrip | resources/cw-stag/src/main/java/edu/uob/games/GameController.java:24-39 | a valid lower-case name and a normalised command, written as "name: command", parse back to exactly that name and command |
| Controller.RouteOf | resources/cw-stag/src/main/java/edu/uob/games/GameController.java:46-90 | a command goes to the custom actions exactly when it is none of the built-in commands, and then unchanged |
| Controller.RouteRoundTrip | resources/cw-stag/src/main/java/edu/uob/games/GameController.java:46-90 | routing the command typed for a route gives the route back |
| Controller.RoutedGet | resources/cw-stag/src/main/java/edu/uob/games/GameController.java:57-60 | "get " plus a trimmed item routes to get with that item |
| Controller.RoutedDrop | resources/cw-stag/src/main/java/edu/uob/games/GameController.java:62-65 | "drop " plus a trimmed item routes to drop with that item |
| Controller.RoutedGoto | resources/cw-stag/src/main/java/edu/uob/games/GameController.java:67-70 | "goto " plus a trimmed name routes to goto with that name |
| Controller.RoutedDrink | resources/cw-stag/src/main/java/edu/uob/games/GameController.java:73-76 | "drink " plus a trimmed item routes to drink with that item |
| Controller.RoutedFight | resources/cw-stag/src/main/java/edu/uob/games/GameController.java:79-86 | "fight " plus a trimmed target routes to fight with that target |
| Controller.AttackIsFight | resources/cw-stag/src/main/java/edu/uob/games/GameController.java:79-86 | "attack " plus a trimmed target routes to fight with the same target |
| Controller.GameController.constructor | resources/cw-stag/src/main/java/edu/uob/games/GameController.java:14-17 | the controller holds the given world and registry |
| Controller.GameController.HandleCommand | resources/cw-stag/src/main/java/edu/uob/games/GameController.java:19-91 | no colon or a bad name: the fixed message and nothing changes; otherwise only that player's entry is created or kept, the route recorded is RouteOf of the parsed command, a new player answered by look, inventory or health is at the cabin with health 3 and nothing carried, and every player stays placed in a valid world |
| Controller.GameController.Register | resources/cw-stag/src/main/java/edu/uob/games/GameController.java:42-43 | get-or-create at the cabin: an existing record is kept; a new one is fresh, at the cabin with health 3 and nothing carried; no other entry changes |
| Controller.GameController.Serve | resources/cw-stag/src/main/java/edu/uob/games/GameController.java:42-90 | the player is registered (a new one at the cabin with health 3 and nothing carried) and only that entry can be new; look, inventory and health leave the player as registered, the inventory and health replies report the registered inventory and health, look lists the location's entities, exits and players, and goto moves the player along a path of the registered location matching the destination (else the refusal and no move), keeping inventory and health |
| Controller.GameController.Play | resources/cw-stag/src/main/java/edu/uob/games/GameController.java:45-90 | the route's outcome for the registered player, as Dispatch states it, and every registered player stays placed in a valid world |
| Controller.GameController.Dispatch | resources/cw-stag/src/main/java/edu/uob/games/GameController.java:45-90 | look, inventory and health leave the player unchanged and reply with the look text, the inventory list and the health; goto moves the player as handleGoto does; every route keeps the world valid and the player placed |
| Controller.GameController.Observe | resources/cw-stag/src/main/java/edu/uob/games/GameController.java:46-56 | look, inventory and health leave the player and the locations unchanged; the replies are the look text (players from the corrected lookup), the inventory list and the health of the player |
| Controller.GameController.Act | resources/cw-stag/src/main/java/edu/uob/games/GameController.java:57-90 | get, drop, drink, fight and the custom actions keep the world valid and the player placed |
| Controller.GameController.LookIn | resources/cw-stag/src/main/java/edu/uob/games/GameController.java:46-48 | the reply is the look text of the player's location, listing every entity, every exit and every other player there, each once |
| Controller.GameController.GotoIn | resources/cw-stag/src/main/java/edu/uob/games/GameController.java:67-70 | the player moves to the location a matching path of its location names, or stays with the refusal; inventory and health are kept and the player stays placed |
| Controller.GameController.GetIn | resources/cw-stag/src/main/java/edu/uob/games/GameController.java:57-60 | get keeps the player's inventory all artefacts and the player at a location of the world |
| Controller.GameController.DropIn | resources/cw-stag/src/main/java/edu/uob/games/GameController.java:62-65 | drop keeps the player's inventory all artefacts and the player at a location of the world |
| Controller.GameController.DrinkIn | resources/cw-stag/src/main/java/edu/uob/games/GameController.java:73-76 | drink keeps the player's inventory all artefacts and the player at a location of the world |
| Controller.GameController.FightIn | resources/cw-stag/src/main/java/edu/uob/games/GameController.java:79-86 | fight, with death and resurrection, keeps the player at a location of the world with only artefacts carried |
| Controller.GameController.CustomIn | resources/cw-stag/src/main/java/edu/uob/games/GameController.java:90 | the custom actions keep the world valid and the player placed |

## Left out

- Input and output: the socket server and client, the entity and action file parsers, and every debug print. The engine is given an already-built world. `GameServer.java`, `GameClient.java`, `EntityParser.java` and `ActionParser.java` are not part of this model.
- Line separators: the `%n` in the format strings is written as "\n".
- Case folding: it covers ASCII letters only. Java's full Unicode case mapping is not modelled.
- BasicActions.GetMatches: the `>= 3` length test of a partial get counts characters (Unicode scalar values), while Java's `length()` counts UTF-16 code units. A request holding a character outside the Basic Multilingual Plane, such as "😀a" (Java length 3, model length 2), is matched by part of a name in the source and not in the model. BasicActions.HandleGet inherits this. All other string lengths and indices in the model count characters in the same way.
- Word boundaries: `\b` in the filler-word deletion is taken as a boundary between word characters (ASCII letters, digits, `_`) and the rest.
- Iteration order: hash-set order is not fixed. Every "first found" choice is an arbitrary member, so contracts hold for any order.
- The `Player` class is not part of this model. A location's player set holds player names only.
- Unused parameters: `handleLook`'s world parameter and `executeCustomAction`'s state parameter are dropped, because the source never reads them.
- The controller's player creation is `currentStates`, because `GameController.java:43` calls a method `GameState.java` does not declare.
- Controller.GameController.HandleCommand: for a request, the reply is not stated; the handler contracts state it.
- Controller.GameController.Dispatch: the reply and effect are stated for look, inventory, health and goto; look lists the players from the corrected lookup, as Controller.GameController.Observe does. For get, drop, drink, fight and custom commands it keeps the invariant only. Each of those replies is stated by the handler's own contract (BasicActions.HandleGet and the others, Executor.ExecuteCustomAction).
- Controller.GameController.Serve: for get, drop, drink, fight and custom commands it states the registration and the invariant only, not the reply or the effect; those are stated by the handler each route calls. Its look lists the players from the corrected lookup, as Controller.GameController.Observe does.
- Controller.GameController.Play: for get, drop, drink, fight and custom commands, the invariant only, as for Serve; its look lists the players from the corrected lookup, as Controller.GameController.Observe does.
- Controller.GameController.Observe: look lists the players from the corrected lookup (Registry.GameState.PlayerStatesAt). The source's look goes through `getAllPlayerStatesAt`, which also adds those players to the registry's `playersHere` set and lists everyone that set has ever held. That growth of `playersHere` is not modelled here, so look changes nothing in this model; see Findings.
- Controller.GameController.Act: the invariant only; the reply and effect of each route are stated by the handler it calls.
- Controller.GameController.GetIn, DropIn, DrinkIn, FightIn, CustomIn: these wrappers state only the controller invariant. The effect is stated by the handler each one calls.
- Executor.ExecuteCustomAction: for an action carried out, it states the reply, the paths, health and location. It does not compose what the consume and produce loops do to entities and inventories. That is stated one name at a time by Executor.ToApplyConsumed and Executor.ToApplyProduced.
- Executor.Respond: the same gap as Executor.ExecuteCustomAction. For an action carried out it states the selection, the reply, the paths, health and location, but not the composed effect of consuming and producing on entities and inventories.
- Worlds the invariant excludes: a cellar without a cave, a cave without a treasure location, and an action producing "SRC->DST" for a known SRC and an unknown DST. The source runs such worlds: the forced or produced path is added, and a later goto along it fails with a NullPointerException at `BasicAction.java:124`. That failure is not modelled.
- Trim: its own ensures state only the shape of the result. Text.TrimExact states which slice it keeps.
- RemoveFillers: its own ensures state length and case only. Which words go is stated by Executor.RemoveFillersBounded and Executor.RemoveFillersLeavesNone.
- Stripped: its own ensures state length and case only. Which words go is stated by Executor.StrippedLeavesNoFiller and Executor.StrippedBounded.
- ProduceAll: states the paths each production makes and that paths only grow. It does not fold Executor.Produce's entity and inventory effects over the list.
- ProduceAndForce: states paths only, as ProduceAll does.
- ApplyEffects: states paths, health and location. It does not compose Executor.ConsumeAll's fold with the productions' entity effects.
- RunChosen: for an action carried out, states what ApplyEffects states.
- BasicActions.HandleLook: the players listed come from the corrected lookup (Registry.GameState.PlayerStatesAt), not the stale one; see Findings.
- Controller.GameController.LookIn: lists the players from the corrected lookup, like BasicActions.HandleLook, not from the stale set the source's look reads; see Findings.

## Findings

| source | as written | input that shows it | evidently intended | confidence | as-written member | corrected member |
|---|---|---|---|---|---|---|
| resources/cw-stag/src/main/java/edu/uob/games/GameState.java:26-33 | `getAllPlayerStatesAt` adds the players at the location to the field `playersHere` (line 12) and returns that field. The field is never cleared, so players from earlier queries stay in it. | Register a player in the cabin, query the cabin, then query the forest: the forest answer still holds the cabin player, and `look` in the forest reports them (`BasicAction.java:44-50`) | a fresh set of exactly the registered players at the location | high, not executed | Registry.StalePlayerScenario | Registry.CorrectedPlayerScenario |

=== FILE: basic_action.dfy ===
/**
 * The built-in commands: look, inventory, get, drop, goto, health, fight (or attack)
 * and drink, with what dying does. Each reply is built as the engine builds it; the
 * platform line separator of the format strings is written as "\n".
 */
module BasicActions {

  import opened Wrappers
  import opened Text
  import opened Entities
  import opened Players
  import opened Registry
  import opened World

  const NoSuchItem := "There is no such item to pick up."
  const NotCarried := "You don't have that item to drop."
  const CannotGo := "You can't go there from here."
  const CarryingNothing := "You are carrying nothing."
  const Resurrected := "You died! You have been resurrected at the starting location."
  const MaxHealth := 3
  /** Every fight costs this much health. */
  const Damage := 1

  /** xs lists the members of s, each once, in some order (a hash set's iteration order). */
  ghost predicate Enumerates<T>(xs: seq<T>, s: set<T>) {
    multiset(xs) == multiset(s)
  }

  /** Listing one more member of s keeps an enumeration of the part listed so far. */
  lemma EnumeratesStep<T>(xs: seq<T>, s: set<T>, done: set<T>, x: T)
    requires Enumerates(xs, done) && done <= s && x in s && x !in done
    ensures Enumerates(xs + [x], done + {x})
  {
    assert multiset(done + {x}) == multiset(done) + multiset{x};
  }

  // ---------------------------------------------------------------------------
  // look
  // ---------------------------------------------------------------------------

  function EntityLine(e: Entity): string {
    "There is a " + e.name + " here - " + e.description + "\n"
  }

  function EntityLines(es: seq<Entity>): string {
    if es == [] then "" else EntityLines(es[..|es| - 1]) + EntityLine(es[|es| - 1])
  }

  function ExitsLine(exits: seq<string>): string {
    if exits == [] then "" else "Exits: " + Join(exits, ", ") + "\n"
  }

  /** The sentence about player q: none about the player looking. */
  function OtherLine(q: PlayerState, self: string): string {
    if q.name == self then "" else "Player " + q.name + " is here as well."
  }

  /** One "is here as well" sentence per other player, with no line break between them. */
  function OthersLines(ps: seq<PlayerState>, self: string): string {
    if ps == [] then "" else OthersLines(ps[..|ps| - 1], self) + OtherLine(ps[|ps| - 1], self)
  }

  function LookText(here: Location, es: seq<Entity>, exits: seq<string>, ps: seq<PlayerState>, self: string): string {
    "You are at " + here.name + " now.\n" + here.description + "\n"
    + EntityLines(es) + ExitsLine(exits) + OthersLines(ps, self)
  }

  /** The entity lines of look, one per entity here, in the set's iteration order. */
  method ListEntities(here: Location) returns (text: string, ghost es: seq<Entity>)
    ensures Enumerates(es, here.Entities())
    ensures text == EntityLines(es)
  {
    text := "";
    var all := here.Entities();
    var rest := all;
    es := [];
    while rest != {}
      invariant rest <= all
      invariant Enumerates(es, all - rest)
      invariant text == EntityLines(es)
      decreases rest
    {
      var e :| e in rest;
      assert Enumerates(es + [e], all - (rest - {e})) by {
        EnumeratesStep(es, all, all - rest, e);
        assert (all - rest) + {e} == all - (rest - {e});
      }
      text := text + EntityLine(e);
      assert EntityLines(es + [e]) == EntityLines(es) + EntityLine(e) by {
        assert (es + [e])[..|es|] == es;
      }
      es := es + [e];
      rest := rest - {e};
    }
    assert all - rest == all;
  }

  /** The exits line of look: absent without paths, else the paths joined by ", ". */
  method ListExits(here: Location) returns (text: string, ghost exits: seq<string>)
    ensures Enumerates(exits, here.paths)
    ensures text == ExitsLine(exits)
  {
    text := "";
    exits := [];
    if here.paths == {} {
      return;
    }
    text := text + "Exits: ";
    var paths := here.paths;
    var left := paths;
    while left != {}
      invariant left <= paths
      invariant Enumerates(exits, paths - left)
      invariant text == "Exits: " + JoinTrailing(exits, ", ")
      decreases left
    {
      var q :| q in left;
      assert Enumerates(exits + [q], paths - (left - {q})) by {
        EnumeratesStep(exits, paths, paths - left, q);
        assert (paths - left) + {q} == paths - (left - {q});
      }
      text := text + q + ", ";
      assert JoinTrailing(exits + [q], ", ") == JoinTrailing(exits, ", ") + q + ", " by {
        assert (exits + [q])[..|exits|] == exits;
      }
      exits := exits + [q];
      left := left - {q};
    }
    assert paths - left == paths;
    assert exits != [] by {
      var q :| q in paths;
      assert q in multiset(exits);
    }
    JoinTrailingIsJoin(exits, ", ");
    text := text[..|text| - 2];
    text := text + "\n";
  }

  /** The player lines of look: one sentence for each player in present other than self. */
  method ListOthers(present: set<PlayerState>, self: string) returns (text: string, ghost ps: seq<PlayerState>)
    ensures Enumerates(ps, present)
    ensures text == OthersLines(ps, self)
  {
    text := "";
    var others := present;
    ps := [];
    while others != {}
      invariant others <= present
      invariant Enumerates(ps, present - others)
      invariant text == OthersLines(ps, self)
      decreases others
    {
      var q :| q in others;
      assert Enumerates(ps + [q], present - (others - {q})) by {
        EnumeratesStep(ps, present, present - others, q);
        assert (present - others) + {q} == present - (others - {q});
      }
      if q.name != self {
        text := text + ("Player " + q.name + " is here as well.");
      }
      assert OthersLines(ps + [q], self) == OthersLines(ps, self) + OtherLine(q, self) by {
        assert (ps + [q])[..|ps|] == ps;
      }
      ps := ps + [q];
      others := others - {q};
    }
    assert present - others == present;
  }

  /**
   * look: where the player is, each entity there, the exits, and the other players at
   * the same location (found with the corrected player lookup).
   */
  method HandleLook(p: PlayerState, g: GameState) returns (r: string, ghost es: seq<Entity>, ghost exits: seq<string>, ghost ps: seq<PlayerState>)
    ensures Enumerates(es, p.location.Entities())
    ensures Enumerates(exits, p.location.paths)
    ensures Enumerates(ps, g.PlayersAt(p.location))
    ensures r == LookText(p.location, es, exits, ps, p.name)
  {
    var here := p.location;
    var sb := "You are at " + here.name + " now.\n" + here.description + "\n";
    var entityLines, exitsLine, othersLines;
    entityLines, es := ListEntities(here);
    exitsLine, exits := ListExits(here);
    var present := g.PlayerStatesAt(here);
    othersLines, ps := ListOthers(present, p.name);
    r := sb + entityLines + exitsLine + othersLines;
  }

  // ---------------------------------------------------------------------------
  // inventory
  // ---------------------------------------------------------------------------

  function Names(es: seq<Entity>): (r: seq<string>)
    ensures |r| == |es| && forall i :: 0 <= i < |es| ==> r[i] == es[i].name
  {
    if es == [] then [] else Names(es[..|es| - 1]) + [es[|es| - 1].name]
  }

  function InventoryText(inventory: seq<Entity>): string {
    if inventory == [] then CarryingNothing
    else "You are carrying: " + Join(Names(inventory), ", ")
  }

  /** The "nothing" reply is given exactly when the inventory is empty. */
  lemma InventoryTextNothing(inventory: seq<Entity>)
    ensures InventoryText(inventory) == CarryingNothing <==> inventory == []
  {
    if inventory != [] {
      var t := InventoryText(inventory);
      assert t[16] == ':';
      assert CarryingNothing[16] == ' ';
    }
  }

  /** inventory: the names of the carried items, in the order they were picked up. */
  method HandleInventory(p: PlayerState) returns (r: string)
    ensures r == InventoryText(p.inventory)
  {
    var items := p.inventory;
    if items == [] {
      return CarryingNothing;
    }
    var sb := "You are carrying: ";
    for i := 0 to |items|
      invariant sb == "You are carrying: " + JoinTrailing(Names(items[..i]), ", ")
    {
      assert Names(items[..i + 1])[..i] == Names(items[..i]);
      sb := sb + items[i].name + ", ";
    }
    assert items[..|items|] == items;
    JoinTrailingIsJoin(Names(items), ", ");
    r := sb[..|sb| - 2];
  }

  // ---------------------------------------------------------------------------
  // get, drop
  // ---------------------------------------------------------------------------

  /** get matches an artefact by its whole name, or by a part of at least three characters. */
  predicate GetMatches(name: string, request: string) {
    EqualsIgnoreCase(name, request) || (Contains(Lower(name), Lower(request)) && |request| >= 3)
  }

  /** get: some matching artefact here moves into the inventory, and everything of its name leaves the location. */
  method HandleGet(p: PlayerState, request: string) returns (r: string, ghost picked: Option<Entity>)
    requires p.Valid() && p.location.Valid() && OnlyArtefacts(p.inventory)
    modifies p, p.location
    ensures p.Valid() && p.location.Valid() && OnlyArtefacts(p.inventory)
    ensures p.location == old(p.location) && p.health == old(p.health)
    ensures picked.None? <==> forall a :: a in old(p.location.artefacts) ==> !GetMatches(a.name, request)
    ensures picked.None? ==>
      r == NoSuchItem && p.inventory == old(p.inventory) && p.location.State() == old(p.location.State())
    ensures picked.Some? ==>
      && picked.value in old(p.location.artefacts) && GetMatches(picked.value.name, request)
      && p.inventory == Added(old(p.inventory), picked.value)
      && p.location.State() == AfterRemove(old(p.location.State()), picked.value.name)
      && r == "You picked up the " + picked.value.name + "."
  {
    var here := p.location;
    if exists a :: a in here.artefacts && GetMatches(a.name, request) {
      var item :| item in here.artefacts && GetMatches(item.name, request);
      p.AddToInventory(item);
      here.RemoveEntity(item);
      return "You picked up the " + item.name + ".", Some(item);
    }
    return NoSuchItem, None;
  }

  /** drop and drink match items by whole name, ignoring case; drink also by a part of the name. */
  predicate Matches(name: string, request: string, partial: bool) {
    EqualsIgnoreCase(name, request) || (partial && Contains(Lower(name), Lower(request)))
  }

  /** The position of the first item that matches, in inventory order. */
  function FirstMatch(inventory: seq<Entity>, request: string, partial: bool): (r: Option<nat>)
    ensures r.Some? ==> r.value < |inventory| && Matches(inventory[r.value].name, request, partial)
    ensures r.Some? ==> forall j :: 0 <= j < r.value ==> !Matches(inventory[j].name, request, partial)
    ensures r.None? <==> forall j :: 0 <= j < |inventory| ==> !Matches(inventory[j].name, request, partial)
  {
    if inventory == [] then None
    else if Matches(inventory[0].name, request, partial) then Some(0)
    else
      match FirstMatch(inventory[1..], request, partial)
      case None => None
      case Some(k) => Some(k + 1)
  }

  /** drop: the first carried item of that name leaves the inventory and joins the location's artefacts. */
  method HandleDrop(p: PlayerState, request: string, here: Location) returns (r: string)
    requires p.Valid() && here.Valid() && OnlyArtefacts(p.inventory)
    modifies p, here
    ensures p.Valid() && here.Valid() && OnlyArtefacts(p.inventory)
    ensures p.location == old(p.location) && p.health == old(p.health)
    ensures FirstMatch(old(p.inventory), request, false).None? ==>
      r == NotCarried && p.inventory == old(p.inventory) && here.State() == old(here.State())
    ensures FirstMatch(old(p.inventory), request, false).Some? ==>
      var item := old(p.inventory)[FirstMatch(old(p.inventory), request, false).value];
      && r == "You dropped the " + item.name + "."
      && p.inventory == Without(old(p.inventory), item)
      && here.State() == old(here.State()).(artefacts := old(here.artefacts) + {item})
  {
    var items := p.inventory;
    for i := 0 to |items|
      invariant forall j :: 0 <= j < i ==> !Matches(items[j].name, request, false)
    {
      var item := items[i];
      if EqualsIgnoreCase(item.name, request) {
        p.RemoveFromInventory(item);
        here.AddArtefact(item);
        return "You dropped the " + item.name + ".";
      }
    }
    return NotCarried;
  }

  // ---------------------------------------------------------------------------
  // goto
  // ---------------------------------------------------------------------------

  /** goto: along some path whose name matches, ignoring case, to the location of that name. */
  method HandleGoto(w: GameWorld, p: PlayerState, destination: string) returns (r: string)
    requires w.Valid() && p.location in w.locations.Values
    modifies p
    ensures p.inventory == old(p.inventory) && p.health == old(p.health)
    ensures p.location in w.locations.Values
    ensures (forall q :: q in old(p.location).paths ==> !EqualsIgnoreCase(q, destination)) ==>
      r == CannotGo && p.location == old(p.location)
    ensures (exists q :: q in old(p.location).paths && EqualsIgnoreCase(q, destination)) ==>
      exists q :: q in old(p.location).paths && EqualsIgnoreCase(q, destination)
        && q in w.locations && p.location == w.locations[q] && r == "You moved to " + q + "."
  {
    var here := p.location;
    if exists q :: q in here.paths && EqualsIgnoreCase(q, destination) {
      var q :| q in here.paths && EqualsIgnoreCase(q, destination);
      ghost var k :| k in w.locations && w.locations[k] == here;
      var target := w.GetLocation(q);
      p.SetLocation(target);
      return "You moved to " + target.name + ".";
    }
    return CannotGo;
  }

  // ---------------------------------------------------------------------------
  // health
  // ---------------------------------------------------------------------------

  /** The number a health reply reports, when the text has that shape. */
  function ReadHealth(reply: string): Option<int> {
    if |reply| >= 16 && reply[..15] == "Your health is " && reply[|reply| - 1] == '.' then
      ParseInt(reply[15..|reply| - 1])
    else
      None
  }

  /** health: the reply reads back as the player's health. */
  function HandleHealth(p: PlayerState): (r: string)
    reads p
    ensures r == "Your health is " + IntToString(p.health) + "."
    ensures ReadHealth(r) == Some(p.health)
  {
    var digits := IntToString(p.health);
    IntToStringRoundTrip(p.health);
    var r := "Your health is " + digits + ".";
    assert r[..15] == "Your health is " && r[15..|r| - 1] == digits;
    r
  }

  // ---------------------------------------------------------------------------
  // fight, drink, death
  // ---------------------------------------------------------------------------

  /** Health after a fight: one less, or back to full when that reaches zero (death). */
  function FightHealth(h: int): int {
    if h - Damage <= 0 then StartHealth else h - Damage
  }

  /** Health after a potion: one more, capped at the maximum. */
  function DrinkHealth(h: int): int {
    if h + 1 < MaxHealth then h + 1 else MaxHealth
  }

  datatype HealthEvent = Fought | DrankPotion

  function HealthAfter(h: int, events: seq<HealthEvent>): int
    decreases events
  {
    if events == [] then h
    else HealthAfter(if events[0] == Fought then FightHealth(h) else DrinkHealth(h), events[1..])
  }

  /** However fights and potions interleave, health stays between one and the maximum. */
  lemma {:induction false} HealthStaysInRange(h: int, events: seq<HealthEvent>)
    requires 1 <= h <= MaxHealth
    ensures 1 <= HealthAfter(h, events) <= MaxHealth
    decreases events
  {
    if events != [] {
      var next := if events[0] == Fought then FightHealth(h) else DrinkHealth(h);
      HealthStaysInRange(next, events[1..]);
    }
  }

  /** The artefacts among the carried items. */
  function ArtefactsIn(inventory: seq<Entity>): set<Entity> {
    set e | e in inventory && e.kind == Artefact
  }

  /** The artefacts among the first i + 1 items add item i exactly when it is an artefact. */
  lemma ArtefactsInPrefix(items: seq<Entity>, i: int)
    requires 0 <= i < |items|
    ensures ArtefactsIn(items[..i + 1]) == ArtefactsIn(items[..i]) + (if items[i].kind == Artefact then {items[i]} else {})
  {
    assert items[..i + 1] == items[..i] + [items[i]];
  }

  /**
   * Death: full health, every carried artefact dropped where the player died, the
   * inventory emptied, and the player back at the start location.
   */
  method HandleDeath(p: PlayerState, here: Location, w: GameWorld)
    requires w.Valid() && here.Valid() && p.Valid()
    modifies p, here
    ensures here.Valid() && p.Valid()
    ensures p.health == StartHealth && p.inventory == [] && p.location == w.locations[Spawn]
    ensures here.State() == old(here.State()).(artefacts := old(here.artefacts) + ArtefactsIn(old(p.inventory)))
  {
    p.SetHealth(StartHealth);
    var items := p.inventory;
    for i := 0 to |items|
      invariant here.Valid() && p.Valid()
      invariant p.health == StartHealth
      invariant here.State() == old(here.State()).(artefacts := old(here.artefacts) + ArtefactsIn(items[..i]))
    {
      var item := items[i];
      DropCarried(p, here, item);
      ArtefactsInPrefix(items, i);
    }
    assert items[..|items|] == items;
    if p.inventory != [] {
      // The engine clears the set getInventory returns.
      p.inventory := [];
    }
    var start := w.GetLocation(Spawn);
    p.SetLocation(start);
  }

  /** One carried item on death: an artefact moves from the inventory to the location. */
  method DropCarried(p: PlayerState, here: Location, item: Entity)
    requires here.Valid() && p.Valid()
    modifies p, here
    ensures here.Valid() && p.Valid()
    ensures p.health == old(p.health) && p.location == old(p.location)
    ensures p.inventory == if item.kind == Artefact then Without(old(p.inventory), item) else old(p.inventory)
    ensures here.State() == old(here.State()).(artefacts := old(here.artefacts) + (if item.kind == Artefact then {item} else {}))
  {
    if item.kind == Artefact {
      here.AddEntity(item);
      p.RemoveFromInventory(item);
    }
  }

  /** A fight happens with a character of that name here, or with an "elf" anywhere. */
  ghost predicate Hit(here: Location, target: string)
    reads here
  {
    (exists e :: e in here.Entities() && e.kind == Character && NameIs(e, target))
    || EqualsIgnoreCase(target, "elf")
  }

  /** The character search of fight. */
  method HasCharacter(here: Location, target: string) returns (found: bool)
    ensures found <==> exists e :: e in here.Entities() && e.kind == Character && NameIs(e, target)
  {
    var all := here.Entities();
    var rest := all;
    while rest != {}
      invariant rest <= all
      invariant forall e :: e in all - rest ==> !(e.kind == Character && NameIs(e, target))
      decreases rest
    {
      var e :| e in rest;
      if e.kind == Character && NameIs(e, target) {
        return true;
      }
      rest := rest - {e};
    }
    assert all - rest == all;
    return false;
  }

  /** fight (or attack): one damage per fight; at zero the player dies and is resurrected. */
  method HandleFight(p: PlayerState, target: string, w: GameWorld) returns (r: string)
    requires w.Valid() && p.Valid() && p.location.Valid()
    modifies p, p.location
    ensures p.Valid() && old(p.location).Valid()
    ensures !old(Hit(p.location, target)) ==>
      r == "There is no " + target + " here to fight." && unchanged(p) && unchanged(old(p.location))
    ensures old(Hit(p.location, target)) ==> p.health == FightHealth(old(p.health))
    ensures old(Hit(p.location, target)) && old(p.health) > Damage ==>
      && r == "You fought the " + target + " and took 1 damage. Your health is now " + IntToString(old(p.health) - Damage) + "."
      && p.location == old(p.location) && p.inventory == old(p.inventory) && unchanged(old(p.location))
    ensures old(Hit(p.location, target)) && old(p.health) <= Damage ==>
      && r == "You fought the " + target + " and took 1 damage. " + Resurrected
      && p.inventory == [] && p.location == w.locations[Spawn]
      && old(p.location).State() == old(p.location.State()).(artefacts := old(p.location.artefacts) + ArtefactsIn(old(p.inventory)))
  {
    var here := p.location;
    var found := HasCharacter(here, target);
    assert found || EqualsIgnoreCase(target, "elf") <==> Hit(here, target);
    if found || EqualsIgnoreCase(target, "elf") {
      r := TakeDamage(p, target, w);
      return;
    }
    return "There is no " + target + " here to fight.";
  }

  /** The blow a fight deals: one damage, and death at zero. */
  method TakeDamage(p: PlayerState, target: string, w: GameWorld) returns (r: string)
    requires w.Valid() && p.Valid() && p.location.Valid()
    modifies p, p.location
    ensures p.Valid() && old(p.location).Valid()
    ensures p.health == FightHealth(old(p.health))
    ensures old(p.health) > Damage ==>
      && r == "You fought the " + target + " and took 1 damage. Your health is now " + IntToString(old(p.health) - Damage) + "."
      && p.location == old(p.location) && p.inventory == old(p.inventory) && unchanged(old(p.location))
    ensures old(p.health) <= Damage ==>
      && r == "You fought the " + target + " and took 1 damage. " + Resurrected
      && p.inventory == [] && p.location == w.locations[Spawn]
      && old(p.location).State() == old(p.location.State()).(artefacts := old(p.location.artefacts) + ArtefactsIn(old(p.inventory)))
  {
    var here := p.location;
    var newHealth := p.health - Damage;
    p.SetHealth(newHealth);
    if newHealth <= 0 {
      HandleDeath(p, here, w);
      return "You fought the " + target + " and took 1 damage. " + Resurrected;
    }
    return "You fought the " + target + " and took 1 damage. Your health is now " + IntToString(newHealth) + ".";
  }

  /** drink: a carried potion restores one health and is used up; anything else cannot be drunk. */
  method HandleDrink(p: PlayerState, request: string) returns (r: string)
    requires p.Valid()
    modifies p
    ensures p.Valid() && p.location == old(p.location)
    ensures FirstMatch(old(p.inventory), request, true).None? ==>
      r == "You don't have " + request + " to drink." && unchanged(p)
    ensures FirstMatch(old(p.inventory), request, true).Some? ==>
      var item := old(p.inventory)[FirstMatch(old(p.inventory), request, true).value];
      && (!Contains(item.name, "potion") ==> r == "You can't drink " + request + "." && unchanged(p))
      && (Contains(item.name, "potion") ==>
            && p.health == DrinkHealth(old(p.health))
            && p.inventory == Without(old(p.inventory), item)
            && r == "You drank the " + request + " and feel better. Your health is now "
                    + IntToString(DrinkHealth(old(p.health))) + ".")
  {
    var items := p.inventory;
    for i := 0 to |items|
      invariant forall j :: 0 <= j < i ==> !Matches(items[j].name, request, true)
    {
      var item := items[i];
      if EqualsIgnoreCase(item.name, request) || Contains(Lower(item.name), Lower(request)) {
        if Contains(item.name, "potion") {
          var newHealth := if p.health + 1 < MaxHealth then p.health + 1 else MaxHealth;
          p.SetHealth(newHealth);
          p.RemoveFromInventory(item);
          return "You drank the " + request + " and feel better. Your health is now " + IntToString(newHealth) + ".";
        } else {
          return "You can't drink " + request + ".";
        }
      }
    }
    return "You don't have " + request + " to drink.";
  }
}

=== FILE: custom_action.dfy ===
/** Custom actions as read from the actions file: trigger words, subjects, consumed and produced names, narration. */
module Actions {

  import opened Wrappers
  import opened Text

  class CustomAction {
    var triggers: seq<string>
    var subjects: seq<string>
    var consumed: seq<string>
    var produced: seq<string>
    var narration: string

    /** A new action has empty lists and a single space as its narration. */
    constructor ()
      ensures triggers == [] && subjects == [] && consumed == [] && produced == []
      ensures narration == " "
    {
      triggers := [];
      subjects := [];
      consumed := [];
      produced := [];
      narration := " ";
    }

    method AddTriggers(keyword: string)
      modifies this
      ensures triggers == old(triggers) + [keyword]
      ensures subjects == old(subjects) && consumed == old(consumed) && produced == old(produced)
      ensures narration == old(narration)
    {
      triggers := triggers + [keyword];
    }

    method AddSubjects(entity: string)
      modifies this
      ensures subjects == old(subjects) + [entity]
      ensures triggers == old(triggers) && consumed == old(consumed) && produced == old(produced)
      ensures narration == old(narration)
    {
      subjects := subjects + [entity];
    }

    method AddConsumed(entity: string)
      modifies this
      ensures consumed == old(consumed) + [entity]
      ensures triggers == old(triggers) && subjects == old(subjects) && produced == old(produced)
      ensures narration == old(narration)
    {
      consumed := consumed + [entity];
    }

    method AddProduced(entity: string)
      modifies this
      ensures produced == old(produced) + [entity]
      ensures triggers == old(triggers) && subjects == old(subjects) && consumed == old(consumed)
      ensures narration == old(narration)
    {
      produced := produced + [entity];
    }

    /** The narration is replaced, not appended to. */
    method AddNarration(text: string)
      modifies this
      ensures narration == text
      ensures triggers == old(triggers) && subjects == old(subjects)
      ensures consumed == old(consumed) && produced == old(produced)
    {
      narration := text;
    }
  }

  /**
   * A produced name of the form "SRC->DST" asks for a new path: it is one exactly when
   * it contains "->" and splits into two pieces, and then the pieces are trimmed.
   */
  function PathSpec(produced: string): Option<(string, string)> {
    var parts := SplitArrow(produced);
    if Contains(produced, "->") && |parts| == 2 then Some((Trim(parts[0]), Trim(parts[1]))) else None
  }

  /** A path production names a source and a destination without surrounding whitespace. */
  lemma PathSpecTrimmed(produced: string)
    requires PathSpec(produced).Some?
    ensures Contains(produced, "->")
    ensures Trim(PathSpec(produced).value.0) == PathSpec(produced).value.0
    ensures Trim(PathSpec(produced).value.1) == PathSpec(produced).value.1
  {
    var parts := SplitArrow(produced);
    TrimIdempotent(parts[0]);
    TrimIdempotent(parts[1]);
  }

  /** "A -> B" with names free of '-' and a non-empty destination asks for the path from A to B. */
  lemma PathSpecOfArrow(a: string, b: string)
    requires '-' !in a && '-' !in b && b != []
    ensures PathSpec(a + "->" + b) == Some((Trim(a), Trim(b)))
  {
    SplitArrowRoundTrip(a, b);
    ContainsAt(a + "->" + b, "->", |a|);
  }
}

=== FILE: custom_action_executor.dfy ===
/**
 * Custom actions: the command is normalised, every action whose triggers match it is a
 * candidate, special rules for doors, chests, vines and trees narrow the candidates to
 * one, and the chosen action's subjects are checked before what it consumes is removed
 * and what it produces is created.
 */
module Executor {

  import opened Wrappers
  import opened Text
  import opened Entities
  import opened Actions
  import opened Players
  import opened World

  const NotUnderstood := "I don't understand your command."
  const BeMoreSpecific := "Your command is ambiguous. Please be more specific."
  const WhichTree := "Your command is ambiguous. Which tree do you mean?"
  const MissingSubject := "You're missing something required to perform this action."
  const Unnecessary := "Invalid command: contains unnecessary entities."
  /** Words deleted from a command before matching, in the order they are deleted. */
  const Fillers := ["please", "could", "you", "the", "with", "using", "by", "down"]

  // ---------------------------------------------------------------------------
  // Normalising a command
  // ---------------------------------------------------------------------------

  /** Deletes each word of the list in turn, wherever it stands between word boundaries. */
  function RemoveFillers(s: string, fillers: seq<string>): (r: string)
    requires forall i :: 0 <= i < |fillers| ==> |fillers[i]| > 0
    ensures |r| <= |s|
    ensures NoUpper(s) ==> NoUpper(r)
    decreases |fillers|
  {
    if fillers == [] then s else RemoveFillers(RemoveWord(s, fillers[0]), fillers[1..])
  }

  /**
   * A bounded word of word characters in the result was already bounded in s, and is none
   * of the fillers.
   */
  lemma {:induction false} RemoveFillersBounded(s: string, fillers: seq<string>, u: string, p: int) returns (q: int)
    requires forall i :: 0 <= i < |fillers| ==> |fillers[i]| > 0
    requires |u| > 0 && WordOnly(u) && BoundedAt(RemoveFillers(s, fillers), u, p)
    ensures u !in fillers && BoundedAt(s, u, q)
    decreases |fillers|
  {
    if fillers == [] {
      q := p;
    } else {
      var q1 := RemoveFillersBounded(RemoveWord(s, fillers[0]), fillers[1..], u, p);
      q := RemoveWordBounded(s, fillers[0], u, q1);
      assert fillers == [fillers[0]] + fillers[1..];
    }
  }

  /** No filler of word characters is left with a word boundary on either side. */
  lemma {:induction false} RemoveFillersLeavesNone(s: string, fillers: seq<string>, k: nat, p: int)
    requires forall i :: 0 <= i < |fillers| ==> |fillers[i]| > 0
    requires k < |fillers| && WordOnly(fillers[k])
    ensures !BoundedAt(RemoveFillers(s, fillers), fillers[k], p)
    decreases |fillers|
  {
    var t := RemoveWord(s, fillers[0]);
    if k == 0 {
      if BoundedAt(RemoveFillers(s, fillers), fillers[0], p) {
        var q := RemoveFillersBounded(t, fillers[1..], fillers[0], p);
        RemoveWordLeavesNone(s, fillers[0], q);
      }
    } else {
      RemoveFillersLeavesNone(t, fillers[1..], k - 1, p);
    }
  }

  /** Deleting the fillers brings in no blank that is not whitespace. */
  lemma {:induction false} RemoveFillersBlanks(s: string, fillers: seq<string>)
    requires forall i :: 0 <= i < |fillers| ==> |fillers[i]| > 0
    requires BlanksAreSpaces(s)
    ensures BlanksAreSpaces(RemoveFillers(s, fillers))
    decreases |fillers|
  {
    if fillers != [] {
      RemoveWordFromBlanks(s, fillers[0], 0);
      RemoveFillersBlanks(RemoveWord(s, fillers[0]), fillers[1..]);
    }
  }

  /** Every filler is a word of letters. */
  lemma FillersAreWords()
    ensures forall i :: 0 <= i < |Fillers| ==> |Fillers[i]| > 0 && WordOnly(Fillers[i])
  {
  }

  /** The command in lower case with the filler words deleted. */
  function Stripped(command: string): (r: string)
    ensures NoUpper(r) && |r| <= |command|
  {
    FillersAreWords();
    RemoveFillers(Lower(command), Fillers)
  }

  /** No filler is left in a stripped command with a word boundary on either side. */
  lemma StrippedLeavesNoFiller(command: string, k: nat, p: int)
    requires k < |Fillers|
    ensures !BoundedAt(Stripped(command), Fillers[k], p)
  {
    FillersAreWords();
    RemoveFillersLeavesNone(Lower(command), Fillers, k, p);
  }

  /**
   * A bounded word of word characters in a stripped command is no filler and was bounded
   * in the lower-cased command.
   */
  lemma StrippedBounded(command: string, u: string, p: int) returns (q: int)
    requires |u| > 0 && WordOnly(u) && BoundedAt(Stripped(command), u, p)
    ensures u !in Fillers && BoundedAt(Lower(command), u, q)
  {
    FillersAreWords();
    q := RemoveFillersBounded(Lower(command), Fillers, u, p);
  }

  /** Stripping brings in no blank that is not whitespace. */
  lemma StrippedBlanks(command: string)
    requires BlanksAreSpaces(command)
    ensures BlanksAreSpaces(Stripped(command))
  {
    LowerBlanks(command);
    RemoveFillersBlanks(Lower(command), Fillers);
  }

  /**
   * normalizeCommand: lower-cased, filler words deleted, whitespace runs made single
   * spaces and the ends trimmed. The result is in lower case and normal form, and has
   * the words of the stripped command when every blank of the command is whitespace.
   */
  function NormalizeCommand(command: string): (r: string)
    ensures Normal(r)
    ensures Lower(r) == r
    ensures BlanksAreSpaces(command) ==> Words(r) == Words(Stripped(command))
  {
    var stripped := Stripped(command);
    assert BlanksAreSpaces(command) ==> BlanksAreSpaces(stripped) by {
      if BlanksAreSpaces(command) {
        StrippedBlanks(command);
      }
    }
    NormalizeSpacesNormal(stripped);
    LowerOfNoUpper(NormalizeSpaces(stripped));
    NormalizeSpaces(stripped)
  }

  /** No word of a normalised command is a filler, when every blank of it is whitespace. */
  lemma NormalizeCommandNoFiller(command: string, k: nat)
    requires BlanksAreSpaces(command) && k < |Words(NormalizeCommand(command))|
    ensures Words(NormalizeCommand(command))[k] !in Fillers
  {
    var s := Stripped(command);
    var w := Words(s)[k];
    var p := WordBounded(s, k);
    if w in Fillers {
      var i :| 0 <= i < |Fillers| && Fillers[i] == w;
      StrippedLeavesNoFiller(command, i, p);
    }
  }

  // ---------------------------------------------------------------------------
  // Trigger matching
  // ---------------------------------------------------------------------------

  predicate DoorCommand(c: string) {
    Contains(c, "door") && (Contains(c, "unlock") || Contains(c, "open"))
  }

  predicate TreeCommand(c: string) {
    Contains(c, "tree") && (Contains(c, "chop") || Contains(c, "cut"))
  }

  predicate ChestCommand(c: string) {
    Contains(c, "chest") && (Contains(c, "open") || Contains(c, "unlock"))
  }

  /** A trigger, lower-cased and trimmed, is in the command, or has several words that all are. */
  predicate TriggerFound(trigger: string, c: string) {
    var t := Lower(Trim(trigger));
    Contains(c, t) || (Contains(t, " ") && forall k :: 0 <= k < |Words(t)| ==> Contains(c, Words(t)[k]))
  }

  /**
   * When matchTrigger accepts: a door command and an "unlock" or "open" trigger, a tree
   * command and a "chop" or "cut" trigger, or any trigger found in the command.
   */
  predicate TriggersMatch(triggers: seq<string>, command: string) {
    var c := Lower(Trim(command));
    || (DoorCommand(c) && ("unlock" in triggers || "open" in triggers))
    || (TreeCommand(c) && ("chop" in triggers || "cut" in triggers))
    || AnyFound(triggers, c)
  }

  /** Some trigger of the list, taken in order, passes the direct or the word-by-word test. */
  predicate AnyFound(triggers: seq<string>, c: string)
    decreases |triggers|
  {
    triggers != [] && (TriggerFound(triggers[0], c) || AnyFound(triggers[1..], c))
  }

  /** The scan in order finds a trigger exactly when some trigger of the list passes. */
  lemma {:induction false} AnyFoundSome(triggers: seq<string>, c: string)
    ensures AnyFound(triggers, c) <==> exists i :: 0 <= i < |triggers| && TriggerFound(triggers[i], c)
    decreases |triggers|
  {
    if triggers != [] {
      AnyFoundSome(triggers[1..], c);
      if exists i :: 0 <= i < |triggers| && TriggerFound(triggers[i], c) {
        var i :| 0 <= i < |triggers| && TriggerFound(triggers[i], c);
        if i > 0 {
          assert triggers[1..][i - 1] == triggers[i];
        }
      }
      if exists i :: 0 <= i < |triggers[1..]| && TriggerFound(triggers[1..][i], c) {
        var i :| 0 <= i < |triggers[1..]| && TriggerFound(triggers[1..][i], c);
        assert triggers[i + 1] == triggers[1..][i];
      }
    }
  }

  /** matchTrigger: the door and tree shortcuts, then every trigger in turn. */
  method MatchTrigger(triggers: seq<string>, command: string) returns (b: bool)
    ensures b <==> TriggersMatch(triggers, command)
  {
    var c := Lower(Trim(command));
    if DoorCommand(c) {
      var door := EitherIn(triggers, "unlock", "open");
      if door {
        return true;
      }
    }
    if TreeCommand(c) {
      var tree := EitherIn(triggers, "chop", "cut");
      if tree {
        return true;
      }
    }
    b := AnyTriggerFound(triggers, c);
  }

  /** Some trigger passes the direct or the word-by-word test. */
  method AnyTriggerFound(triggers: seq<string>, c: string) returns (b: bool)
    ensures b <==> AnyFound(triggers, c)
  {
    for i := 0 to |triggers|
      invariant AnyFound(triggers, c) <==> AnyFound(triggers[i..], c)
    {
      var found := FindTrigger(triggers[i], c);
      if found {
        return true;
      }
      assert triggers[i..][1..] == triggers[i + 1..];
    }
    return false;
  }

  /** One of two exact trigger words is in the list. */
  method EitherIn(triggers: seq<string>, first: string, second: string) returns (b: bool)
    ensures b <==> first in triggers || second in triggers
  {
    for i := 0 to |triggers|
      invariant forall j :: 0 <= j < i ==> triggers[j] != first && triggers[j] != second
    {
      if triggers[i] == first || triggers[i] == second {
        return true;
      }
    }
    return false;
  }

  /** The direct and the word-by-word test for one trigger. */
  method FindTrigger(trigger: string, c: string) returns (b: bool)
    ensures b <==> TriggerFound(trigger, c)
  {
    var t := Lower(Trim(trigger));
    if Contains(c, t) {
      return true;
    }
    if Contains(t, " ") {
      b := AllWordsIn(Words(t), c);
    } else {
      b := false;
    }
  }

  /** Every word is part of the command. */
  method AllWordsIn(words: seq<string>, c: string) returns (b: bool)
    ensures b <==> forall k :: 0 <= k < |words| ==> Contains(c, words[k])
  {
    for k := 0 to |words|
      invariant forall m :: 0 <= m < k ==> Contains(c, words[m])
    {
      if !Contains(c, words[k]) {
        return false;
      }
    }
    return true;
  }

  /** toMatchTrigger: some trigger, ignoring case, is part of the command. */
  method ToMatchTrigger(triggers: set<string>, command: string) returns (b: bool)
    ensures b <==> exists t :: t in triggers && Contains(Lower(command), Lower(t))
  {
    var rest := triggers;
    while rest != {}
      invariant rest <= triggers
      invariant forall t :: t in triggers - rest ==> !Contains(Lower(command), Lower(t))
      decreases rest
    {
      var t :| t in rest;
      if Contains(Lower(command), Lower(t)) {
        return true;
      }
      rest := rest - {t};
    }
    assert triggers - rest == triggers;
    return false;
  }

  // ---------------------------------------------------------------------------
  // Choosing the action
  // ---------------------------------------------------------------------------

  /** The actions whose triggers match the command. */
  ghost function Candidates(actions: set<CustomAction>, c: string): set<CustomAction>
    reads actions
  {
    set a | a in actions && TriggersMatch(a.triggers, c)
  }

  /** The door rule applies: a door command and a candidate about a door and a key. */
  ghost predicate DoorNarrows(m: set<CustomAction>, c: string)
    reads m
  {
    DoorCommand(c) && exists a :: a in m && "door" in a.subjects && "key" in a.subjects
  }

  /** The chest rule applies: a chest command and a candidate about a chest. */
  ghost predicate ChestNarrows(m: set<CustomAction>, c: string)
    reads m
  {
    ChestCommand(c) && exists a :: a in m && "chest" in a.subjects
  }

  /** What the cutting rule looks for in an action's subjects. */
  predicate CutSubject(subjects: seq<string>, c: string) {
    if Contains(c, "vine") then "vines" in subjects || "vine" in subjects else "tree" in subjects
  }

  /** The cutting rule applies: a cut or chop command about vines or a tree, and a candidate about it. */
  ghost predicate CutNarrows(m: set<CustomAction>, c: string)
    reads m
  {
    && (Contains(c, "cut") || Contains(c, "chop"))
    && (Contains(c, "vine") || Contains(c, "tree"))
    && exists a :: a in m && CutSubject(a.subjects, c)
  }

  /** Several candidates that no rule narrows, and no door or chest in the command. */
  ghost predicate Ambiguous(m: set<CustomAction>, c: string)
    reads m
  {
    |m| > 1 && !Contains(c, "door") && !Contains(c, "chest") && !CutNarrows(m, c)
  }

  datatype Selection = NoMatch | TooMany | Chosen(action: CustomAction)

  /**
   * The rules of the choice among the candidates m: none means no match; ambiguity is
   * reported exactly when several remain that no rule narrows; otherwise the choice is
   * a candidate, and the first rule that applies, in the order door, chest, cutting,
   * then door or chest in the command, decides what its subjects hold.
   */
  ghost predicate NarrowRules(m: set<CustomAction>, c: string, s: Selection)
    reads m
  {
    && (s.NoMatch? <==> m == {})
    && (s.TooMany? <==> m != {} && Ambiguous(m, c))
    && (s.Chosen? ==> s.action in m)
    && (|m| == 1 ==> s.Chosen? && m == {s.action})
    && (s.Chosen? && DoorNarrows(m, c) ==> "door" in s.action.subjects && "key" in s.action.subjects)
    && (s.Chosen? && !DoorNarrows(m, c) && ChestNarrows(m, c) ==> "chest" in s.action.subjects)
    && (s.Chosen? && !DoorNarrows(m, c) && !ChestNarrows(m, c) && CutNarrows(m, c) ==>
          CutSubject(s.action.subjects, c))
    && (s.Chosen? && !DoorNarrows(m, c) && !ChestNarrows(m, c) && !CutNarrows(m, c)
          && Contains(c, "door") && (exists a :: a in m && "door" in a.subjects) ==>
          "door" in s.action.subjects)
    && (s.Chosen? && !DoorNarrows(m, c) && !ChestNarrows(m, c) && !CutNarrows(m, c)
          && !Contains(c, "door") && Contains(c, "chest") && (exists a :: a in m && "chest" in a.subjects) ==>
          "chest" in s.action.subjects)
  }

  /** The rules of the choice among the actions whose triggers match the command. */
  ghost predicate SelectionRules(actions: set<CustomAction>, c: string, s: Selection)
    reads actions
  {
    NarrowRules(Candidates(actions, c), c, s)
  }

  /** The candidate search: every action whose triggers match. */
  method CollectCandidates(actions: set<CustomAction>, c: string) returns (matching: set<CustomAction>)
    ensures matching == Candidates(actions, c)
  {
    matching := {};
    var rest := actions;
    while rest != {}
      invariant rest <= actions
      invariant matching == Candidates(actions - rest, c)
      decreases rest
    {
      var a :| a in rest;
      var hit := MatchTrigger(a.triggers, c);
      if hit {
        matching := matching + {a};
      }
      CandidatesInsert(actions - rest, a, c);
      assert actions - (rest - {a}) == (actions - rest) + {a};
      rest := rest - {a};
    }
    assert actions - rest == actions;
  }

  /** One more action examined adds it to the candidates exactly when its triggers match. */
  lemma CandidatesInsert(done: set<CustomAction>, a: CustomAction, c: string)
    ensures Candidates(done + {a}, c) == Candidates(done, c) + (if TriggersMatch(a.triggers, c) then {a} else {})
  {
  }

  /** The door rule: a door command keeps only a candidate about a door and a key, if any. */
  method DoorStep(m: set<CustomAction>, c: string) returns (n: set<CustomAction>)
    ensures DoorNarrows(m, c) ==> exists a :: a in m && n == {a} && "door" in a.subjects && "key" in a.subjects
    ensures !DoorNarrows(m, c) ==> n == m
  {
    n := m;
    if DoorCommand(c) && exists a :: a in m && "door" in a.subjects && "key" in a.subjects {
      var a :| a in m && "door" in a.subjects && "key" in a.subjects;
      n := {a};
    }
  }

  /** The chest rule: a chest command keeps only a candidate about a chest, if any. */
  method ChestStep(m: set<CustomAction>, c: string) returns (n: set<CustomAction>)
    ensures ChestNarrows(m, c) ==> exists a :: a in m && n == {a} && "chest" in a.subjects
    ensures !ChestNarrows(m, c) ==> n == m
  {
    n := m;
    if ChestCommand(c) && exists a :: a in m && "chest" in a.subjects {
      var a :| a in m && "chest" in a.subjects;
      n := {a};
    }
  }

  /** The cutting rule: a cut or chop command keeps only a candidate about the vines or the tree, if any. */
  method CutStep(m: set<CustomAction>, c: string) returns (n: set<CustomAction>)
    ensures CutNarrows(m, c) ==> exists a :: a in m && n == {a} && CutSubject(a.subjects, c)
    ensures !CutNarrows(m, c) ==> n == m
  {
    n := m;
    if (Contains(c, "cut") || Contains(c, "chop")) && (Contains(c, "vine") || Contains(c, "tree")) {
      if exists a :: a in m && CutSubject(a.subjects, c) {
        var a :| a in m && CutSubject(a.subjects, c);
        n := {a};
      }
    }
  }

  /** The last rule: several candidates left are settled by a door, else a chest, in the command. */
  method FinalStep(m: set<CustomAction>, c: string) returns (s: Selection)
    requires m != {}
    ensures s.TooMany? <==> |m| > 1 && !Contains(c, "door") && !Contains(c, "chest")
    ensures s.Chosen? ==> s.action in m
    ensures !s.NoMatch?
    ensures |m| == 1 ==> s.Chosen? && m == {s.action}
    ensures |m| > 1 && Contains(c, "door") && (exists a :: a in m && "door" in a.subjects) ==>
      s.Chosen? && "door" in s.action.subjects
    ensures |m| > 1 && !Contains(c, "door") && Contains(c, "chest") && (exists a :: a in m && "chest" in a.subjects) ==>
      s.Chosen? && "chest" in s.action.subjects
  {
    if |m| > 1 {
      if Contains(c, "door") {
        if exists a :: a in m && "door" in a.subjects {
          var a :| a in m && "door" in a.subjects;
          return Chosen(a);
        }
      } else if Contains(c, "chest") {
        if exists a :: a in m && "chest" in a.subjects {
          var a :| a in m && "chest" in a.subjects;
          return Chosen(a);
        }
      } else {
        return TooMany;
      }
    }
    var chosen :| chosen in m;
    if |m| == 1 {
      assert |m - {chosen}| == 0;
    }
    return Chosen(chosen);
  }

  /** The narrowing steps of executeCustomAction, in their order. */
  method Narrow(m: set<CustomAction>, c: string) returns (s: Selection)
    ensures NarrowRules(m, c, s)
  {
    if m == {} {
      return NoMatch;
    }
    var afterDoor := DoorStep(m, c);
    var afterChest := ChestStep(afterDoor, c);
    var afterCut := CutStep(afterChest, c);
    if DoorNarrows(m, c) || ChestNarrows(m, c) || CutNarrows(m, c) {
      var a :| a in m && afterCut == {a};
      if |m| == 1 {
        assert |m - {a}| == 0;
        assert m == afterCut;
      }
    } else {
      assert afterCut == m;
    }
    s := FinalStep(afterCut, c);
  }

  /** The candidate search and the narrowing steps of executeCustomAction. */
  method SelectAction(actions: set<CustomAction>, c: string) returns (s: Selection)
    ensures SelectionRules(actions, c, s)
    ensures s.Chosen? ==> s.action in actions
  {
    var m := CollectCandidates(actions, c);
    s := Narrow(m, c);
  }

  // ---------------------------------------------------------------------------
  // Checking the chosen action
  // ---------------------------------------------------------------------------

  /** An entity called the subject is carried or is at the location. */
  ghost predicate Available(inventory: seq<Entity>, here: set<Entity>, subject: string) {
    (exists i :: 0 <= i < |inventory| && NameIs(inventory[i], subject)) || Named(here, subject) != {}
  }

  /**
   * Why the chosen action is refused, if it is: a chop command for a tree when more
   * than one tree is here, a subject neither carried nor here, or a torch in the command.
   */
  ghost function Rejection(inventory: seq<Entity>, here: set<Entity>, subjects: seq<string>, c: string): Option<string> {
    if Contains(Lower(c), "tree") && Contains(Lower(c), "chop") && |Named(here, "tree")| > 1 then Some(WhichTree)
    else if exists i :: 0 <= i < |subjects| && !Available(inventory, here, subjects[i]) then Some(MissingSubject)
    else if Contains(Lower(c), "torch") then Some(Unnecessary)
    else None
  }

  /** isEntityInCollection: some member is called the name, ignoring case. */
  method IsEntityInCollection(entities: set<Entity>, n: string) returns (b: bool)
    ensures b <==> Named(entities, n) != {}
  {
    var rest := entities;
    while rest != {}
      invariant rest <= entities
      invariant Named(entities - rest, n) == {}
      decreases rest
    {
      var e :| e in rest;
      if NameIs(e, n) {
        assert e in Named(entities, n);
        return true;
      }
      rest := rest - {e};
    }
    assert entities - rest == entities;
    return false;
  }

  /** The items carried, as the set the engine hands over. */
  function Carried(inventory: seq<Entity>): (r: set<Entity>)
    ensures forall i :: 0 <= i < |inventory| ==> inventory[i] in r
    ensures |r| <= |inventory|
  {
    if inventory == [] then {}
    else
      var rest := Carried(inventory[..|inventory| - 1]);
      assert |rest + {inventory[|inventory| - 1]}| <= |rest| + 1;
      rest + {inventory[|inventory| - 1]}
  }

  /** toCheckSubjects: the subject is carried, or else at the location. */
  method ToCheckSubjects(p: PlayerState, here: Location, subject: string) returns (b: bool)
    ensures b <==> Available(p.inventory, here.Entities(), subject)
  {
    var carried := IsEntityInCollection(Carried(p.inventory), subject);
    if carried {
      ghost var e :| e in Named(Carried(p.inventory), subject);
      CarriedMember(p.inventory, e);
      ghost var i :| 0 <= i < |p.inventory| && p.inventory[i] == e;
      assert NameIs(p.inventory[i], subject);
      return true;
    }
    assert !exists i :: 0 <= i < |p.inventory| && NameIs(p.inventory[i], subject) by {
      forall i | 0 <= i < |p.inventory|
        ensures !NameIs(p.inventory[i], subject)
      {
        assert p.inventory[i] in Carried(p.inventory);
        assert p.inventory[i] !in Named(Carried(p.inventory), subject);
      }
    }
    b := IsEntityInCollection(here.Entities(), subject);
  }

  /** Every member of Carried(inventory) is one of its items. */
  lemma {:induction false} CarriedMember(inventory: seq<Entity>, e: Entity)
    requires e in Carried(inventory)
    ensures exists i :: 0 <= i < |inventory| && inventory[i] == e
  {
    if inventory[|inventory| - 1] != e {
      CarriedMember(inventory[..|inventory| - 1], e);
      var i :| 0 <= i < |inventory| - 1 && inventory[..|inventory| - 1][i] == e;
      assert inventory[i] == e;
    }
  }

  /** toSubjectsAvailable: the same test as toCheckSubjects, searching the inventory in order. */
  method ToSubjectsAvailable(p: PlayerState, here: Location, subject: string) returns (b: bool)
    ensures b <==> Available(p.inventory, here.Entities(), subject)
  {
    var items := p.inventory;
    for i := 0 to |items|
      invariant forall j :: 0 <= j < i ==> !NameIs(items[j], subject)
    {
      if NameIs(items[i], subject) {
        return true;
      }
    }
    b := IsEntityInCollection(here.Entities(), subject);
  }

  /** The number of entities here called n. */
  method CountNamed(entities: set<Entity>, n: string) returns (count: nat)
    ensures count == |Named(entities, n)|
  {
    count := 0;
    var rest := entities;
    while rest != {}
      invariant rest <= entities
      invariant count == |Named(entities - rest, n)|
      decreases rest
    {
      var e :| e in rest;
      ghost var done := entities - rest;
      if NameIs(e, n) {
        assert Named(done + {e}, n) == Named(done, n) + {e};
        count := count + 1;
      } else {
        assert Named(done + {e}, n) == Named(done, n);
      }
      rest := rest - {e};
      assert entities - rest == done + {e};
    }
    assert entities - rest == entities;
  }

  /** The tree-count, subject and torch checks, in that order. */
  method CheckChosen(p: PlayerState, here: Location, a: CustomAction, c: string) returns (refusal: Option<string>)
    ensures refusal == Rejection(p.inventory, here.Entities(), a.subjects, c)
  {
    if Contains(Lower(c), "tree") && Contains(Lower(c), "chop") {
      var trees := CountNamed(here.Entities(), "tree");
      if trees > 1 {
        return Some(WhichTree);
      }
    }
    var subjects := a.subjects;
    for i := 0 to |subjects|
      invariant forall j :: 0 <= j < i ==> Available(p.inventory, here.Entities(), subjects[j])
    {
      var ok := ToCheckSubjects(p, here, subjects[i]);
      if !ok {
        return Some(MissingSubject);
      }
    }
    if Contains(Lower(c), "torch") {
      return Some(Unnecessary);
    }
    return None;
  }

  // ---------------------------------------------------------------------------
  // Consuming and producing
  // ---------------------------------------------------------------------------

  /**
   * toApplyConsumed: a tree is removed through the location's tree rule; anything else
   * is taken from the inventory when carried, else removed from the location.
   */
  method ToApplyConsumed(p: PlayerState, here: Location, consumed: string) returns (ghost taken: Option<Entity>)
    requires p.Valid() && here.Valid()
    modifies p, here
    ensures p.Valid() && here.Valid()
    ensures p.location == old(p.location) && p.health == old(p.health)
    ensures EqualsIgnoreCase(consumed, "tree") ==>
      taken.None? && p.inventory == old(p.inventory) && here.State() == AfterRemove(old(here.State()), "tree")
    ensures (!EqualsIgnoreCase(consumed, "tree")
      && exists i :: 0 <= i < |old(p.inventory)| && NameIs(old(p.inventory)[i], consumed)) ==>
      && taken.Some? && taken.value in old(p.inventory) && NameIs(taken.value, consumed)
      && p.inventory == Without(old(p.inventory), taken.value) && here.State() == old(here.State())
    ensures (!EqualsIgnoreCase(consumed, "tree")
      && !exists i :: 0 <= i < |old(p.inventory)| && NameIs(old(p.inventory)[i], consumed)) ==>
      && taken.None? && p.inventory == old(p.inventory)
      && here.State() == AfterRemove(old(here.State()), consumed)
  {
    if EqualsIgnoreCase(consumed, "tree") {
      var tree := new Entity("tree", "A tree to be consumed", Furniture);
      here.RemoveEntity(tree);
      return None;
    }
    if exists i :: 0 <= i < |p.inventory| && NameIs(p.inventory[i], consumed) {
      var i :| 0 <= i < |p.inventory| && NameIs(p.inventory[i], consumed);
      var item := p.inventory[i];
      p.RemoveFromInventory(item);
      return Some(item);
    }
    if exists e :: e in here.Entities() && NameIs(e, consumed) {
      var e :| e in here.Entities() && NameIs(e, consumed);
      AfterRemoveIgnoresCase(here.State(), e.name, consumed);
      here.RemoveEntity(e);
    } else {
      assert Named(here.artefacts, consumed) == {} && Named(here.furniture, consumed) == {};
      assert Named(here.characters, consumed) == {};
    }
    return None;
  }

  /** The paths a "SRC->DST" production gives location l: DST, when SRC is filed as l. */
  ghost function NewPaths(w: GameWorld, l: Location, produced: string): set<string>
    reads w
  {
    if PathSpec(produced).Some? then PathsFrom(w, l, PathSpec(produced).value.0, PathSpec(produced).value.1) else {}
  }

  /** The paths a new path from the location filed as src to dst gives location l. */
  ghost function PathsFrom(w: GameWorld, l: Location, src: string, dst: string): set<string>
    reads w
  {
    if src in w.locations && w.locations[src] == l then {dst} else {}
  }

  /** A path production from a known source names a known destination. */
  ghost predicate KnownPath(w: GameWorld, produced: string)
    reads w
  {
    PathSpec(produced).Some? && PathSpec(produced).value.0 in w.locations ==> PathSpec(produced).value.1 in w.locations
  }

  /** Adds an entity to a location of a valid world. */
  method AddEntityInWorld(w: GameWorld, l: Location, e: Entity)
    requires w.Valid() && l in w.locations.Values
    modifies l
    ensures w.Valid()
    ensures l.State() == AfterAdd(old(l.State()), e)
  {
    ghost var k :| k in w.locations && w.locations[k] == l;
    l.AddEntity(e);
  }

  /** Puts an artefact into an inventory of artefacts. */
  method GiveArtefact(p: PlayerState, item: Entity)
    requires p.Valid() && OnlyArtefacts(p.inventory) && item.kind == Artefact
    modifies p
    ensures p.Valid() && OnlyArtefacts(p.inventory)
    ensures p.inventory == Added(old(p.inventory), item)
    ensures p.location == old(p.location) && p.health == old(p.health)
  {
    p.AddToInventory(item);
    forall e | e in p.inventory
      ensures e.kind == Artefact
    {
      var i :| 0 <= i < |p.inventory| && p.inventory[i] == e;
    }
  }

  /**
   * toApplyProduced: "SRC->DST" opens a path from a known SRC; a shovel goes straight
   * into the inventory; anything else is produced from a template, or from nothing.
   */
  method ToApplyProduced(p: PlayerState, here: Location, produced: string, w: GameWorld)
    returns (ghost made: Option<Entity>, ghost template: Option<Entity>)
    requires w.Valid() && p.Valid() && OnlyArtefacts(p.inventory) && here in w.locations.Values
    requires KnownPath(w, produced)
    modifies p, w.locations.Values
    ensures w.Valid() && p.Valid() && OnlyArtefacts(p.inventory)
    ensures p.location == old(p.location) && p.health == old(p.health)
    ensures forall l :: l in w.locations.Values ==> old(l.paths) <= l.paths
    ensures PathSpec(produced).Some? ==>
      && made.None? && p.inventory == old(p.inventory)
      && forall l :: l in w.locations.Values ==> l.State() == old(l.State()).(paths := old(l.paths) + NewPaths(w, l, produced))
    ensures PathSpec(produced).None? ==>
      && made.Some?
      && (forall l :: l in w.locations.Values && l != here ==> l.State() == old(l.State()))
    ensures PathSpec(produced).None? && EqualsIgnoreCase("shovel", produced) ==>
      && fresh(made.value) && made.value.kind == Artefact
      && made.value.name == "shovel" && made.value.description == "A sturdy shovel for digging"
      && p.inventory == old(p.inventory) + [made.value] && here.State() == old(here.State())
    ensures PathSpec(produced).None? && !EqualsIgnoreCase("shovel", produced) ==>
      Produced(old(w.Candidates(produced)), old(p.inventory), old(here.State()), produced, made.value, template,
               p.inventory, here.State())
  {
    var spec := PathSpec(produced);
    if spec.Some? {
      ProducePath(w, spec.value.0, spec.value.1);
      return None, None;
    }
    var m, t := ProduceShovelOrEntity(p, here, produced, w);
    return Some(m), t;
  }

  /** toApplyProduced for a name that is not a path: the shovel, else an entity. */
  method ProduceShovelOrEntity(p: PlayerState, here: Location, produced: string, w: GameWorld)
    returns (made: Entity, ghost template: Option<Entity>)
    requires w.Valid() && p.Valid() && OnlyArtefacts(p.inventory) && here in w.locations.Values
    modifies p, here
    ensures w.Valid() && p.Valid() && OnlyArtefacts(p.inventory)
    ensures p.location == old(p.location) && p.health == old(p.health) && here.paths == old(here.paths)
    ensures EqualsIgnoreCase("shovel", produced) ==>
      && fresh(made) && made.kind == Artefact
      && made.name == "shovel" && made.description == "A sturdy shovel for digging"
      && p.inventory == old(p.inventory) + [made] && here.State() == old(here.State())
    ensures !EqualsIgnoreCase("shovel", produced) ==>
      Produced(old(w.Candidates(produced)), old(p.inventory), old(here.State()), produced, made, template,
               p.inventory, here.State())
  {
    if EqualsIgnoreCase("shovel", produced) {
      made := new Entity("shovel", "A sturdy shovel for digging", Artefact);
      GiveArtefact(p, made);
      return made, None;
    }
    made, template := ProduceEntity(p, here, produced, w);
  }

  /**
   * The path case of toApplyProduced: DST becomes a path of the location filed as SRC,
   * if there is one; the special cases for the cellar and the cave add the same path again.
   */
  method ProducePath(w: GameWorld, sourceName: string, destName: string)
    requires w.Valid()
    requires sourceName in w.locations ==> destName in w.locations
    modifies w.locations.Values
    ensures w.Valid()
    ensures forall l :: l in w.locations.Values ==>
      l.State() == old(l.State()).(paths := old(l.paths) + PathsFrom(w, l, sourceName, destName))
  {
    ghost var s0 := StatesOf(w);
    var source := w.GetLocation(sourceName);
    if source == null {
      forall l | l in w.locations.Values
        ensures l.State() == s0[l].(paths := s0[l].paths + PathsFrom(w, l, sourceName, destName))
      {
        assert s0[l].(paths := s0[l].paths + {}) == s0[l];
      }
    } else {
      AddPathAt(w, source, destName);
      ghost var added := StatesOf(w);
      assert source == w.locations[sourceName];
      AgainIfSpecial(w, sourceName, destName);
      forall l | l in w.locations.Values
        ensures l.State() == s0[l].(paths := s0[l].paths + PathsFrom(w, l, sourceName, destName))
      {
        assert l.State() == added[l];
      }
    }
  }

  /** The special cases of the path production: cellar to cave and cave to treasure are added a second time. */
  method AgainIfSpecial(w: GameWorld, sourceName: string, destName: string)
    requires w.Valid() && HasPath(w, sourceName, destName)
    modifies w.locations.Values
    ensures w.Valid()
    ensures forall l :: l in w.locations.Values ==> l.State() == old(l.State())
  {
    if sourceName == "cellar" && destName == "cave" {
      AddPathAgain(w, "cellar", "cave");
    } else if sourceName == "cave" && destName == "treasure" {
      AddPathAgain(w, "cave", "treasure");
    }
  }

  /** Adding a path the location filed under the name already has changes nothing. */
  method AddPathAgain(w: GameWorld, name: string, destination: string)
    requires w.Valid() && (name in w.locations ==> destination in w.locations[name].paths)
    modifies w.locations.Values
    ensures w.Valid()
    ensures forall l :: l in w.locations.Values ==> l.State() == old(l.State())
  {
    var l := w.GetLocation(name);
    if l != null {
      assert destination in w.locations;
      AddPathAt(w, l, destination);
      assert l.paths == old(l.paths);
    }
  }

  /**
   * What producing a name gives when no special case applies. With no template, a new
   * artefact called the name, described as "A " and the name, goes to this location.
   * With a template, an artefact or a piece of furniture is a new copy of it and a
   * character is the template itself; an artefact whose produced name mentions a potion
   * goes into the inventory, anything else to this location. The template is one of the
   * candidates findEntityByName may return, and there is one exactly when some exist.
   */
  ghost predicate Produced(candidates: set<Entity>, inventory: seq<Entity>, here: Contents, produced: string,
                           made: Entity, template: Option<Entity>, inventory': seq<Entity>, here': Contents)
    reads made, if template.Some? then {template.value} else {}
  {
    && (template.None? <==> candidates == {})
    && (template.Some? ==> template.value in candidates)
    && (template.None? ==>
          made.kind == Artefact && made.name == produced && made.description == "A " + produced)
    && (template.Some? ==>
          && NameIs(template.value, produced)
          && made.name == template.value.name && made.description == template.value.description
          && made.kind == template.value.kind
          && (made.kind == Character ==> made == template.value))
    && (template.Some? && made.kind == Artefact && Contains(produced, "potion") ==>
          inventory' == inventory + [made] && here' == here)
    && (!(template.Some? && made.kind == Artefact && Contains(produced, "potion")) ==>
          inventory' == inventory && here' == AfterAdd(here, made))
  }

  /** The general case of toApplyProduced: production from a template found in the world, or from nothing. */
  method ProduceEntity(p: PlayerState, here: Location, produced: string, w: GameWorld)
    returns (made: Entity, ghost template: Option<Entity>)
    requires w.Valid() && p.Valid() && OnlyArtefacts(p.inventory) && here in w.locations.Values
    modifies p, here
    ensures w.Valid() && p.Valid() && OnlyArtefacts(p.inventory)
    ensures p.location == old(p.location) && p.health == old(p.health) && here.paths == old(here.paths)
    ensures Produced(old(w.Candidates(produced)), old(p.inventory), old(here.State()), produced, made, template,
                     p.inventory, here.State())
    ensures template.Some? ==> exists l :: l in w.locations.Values && template.value in old(l.Entities())
    ensures made.kind != Character || template.None? ==> fresh(made)
  {
    var found := w.FindEntityByName(produced);
    ghost var candidates := w.Candidates(produced);
    if found == null {
      made := ProduceFromNothing(p, here, produced, w, candidates);
      return made, None;
    }
    if !w.OutsideStoreroom(produced) {
      assert w.locations[Storeroom] in w.locations.Values;
    }
    made := ProduceFromTemplate(p, here, produced, w, found, candidates);
    template := Some(found);
  }

  /** toApplyProduced when no location holds a template: a new artefact goes to this location. */
  method ProduceFromNothing(p: PlayerState, here: Location, produced: string, w: GameWorld, ghost candidates: set<Entity>)
    returns (made: Entity)
    requires w.Valid() && p.Valid() && here in w.locations.Values && candidates == {}
    modifies here
    ensures w.Valid() && p.Valid() && here.paths == old(here.paths)
    ensures fresh(made)
    ensures Produced(candidates, p.inventory, old(here.State()), produced, made, None, p.inventory, here.State())
  {
    made := new Entity(produced, "A " + produced, Artefact);
    AddEntityInWorld(w, here, made);
  }

  /** ProduceFrom, stated as a production from the template. */
  method ProduceFromTemplate(p: PlayerState, here: Location, produced: string, w: GameWorld, template: Entity,
                              ghost candidates: set<Entity>)
    returns (made: Entity)
    requires w.Valid() && p.Valid() && OnlyArtefacts(p.inventory) && here in w.locations.Values
    requires NameIs(template, produced) && template in candidates
    modifies p, here
    ensures w.Valid() && p.Valid() && OnlyArtefacts(p.inventory)
    ensures p.location == old(p.location) && p.health == old(p.health) && here.paths == old(here.paths)
    ensures made.kind != Character ==> fresh(made)
    ensures Produced(candidates, old(p.inventory), old(here.State()), produced, made, Some(template),
                     p.inventory, here.State())
  {
    made := ProduceFrom(p, here, produced, w, template);
  }

  /** toApplyProduced with a template: the copy (or, for a character, the template itself), and where it goes. */
  method ProduceFrom(p: PlayerState, here: Location, produced: string, w: GameWorld, template: Entity)
    returns (made: Entity)
    requires w.Valid() && p.Valid() && OnlyArtefacts(p.inventory) && here in w.locations.Values
    modifies p, here
    ensures w.Valid() && p.Valid() && OnlyArtefacts(p.inventory)
    ensures p.location == old(p.location) && p.health == old(p.health) && here.paths == old(here.paths)
    ensures made.name == template.name && made.description == template.description && made.kind == template.kind
    ensures made.kind == Character ==> made == template
    ensures made.kind != Character ==> fresh(made)
    ensures made.kind == Artefact && Contains(produced, "potion") ==>
      p.inventory == old(p.inventory) + [made] && here.State() == old(here.State())
    ensures !(made.kind == Artefact && Contains(produced, "potion")) ==>
      p.inventory == old(p.inventory) && here.State() == AfterAdd(old(here.State()), made)
  {
    match template.kind {
      case Artefact =>
        made := new Entity(template.name, template.description, Artefact);
        if Contains(produced, "potion") {
          GiveArtefact(p, made);
          return;
        }
      case Furniture =>
        made := new Entity(template.name, template.description, Furniture);
      case Character =>
        made := template;
    }
    AddEntityInWorld(w, here, made);
  }

  /** The path a production asks for is there: DST is a path of a known SRC. */
  ghost predicate PathMade(w: GameWorld, produced: string)
    reads w, w.locations.Values
  {
    PathIn(PathsOf(w), produced)
  }

  /** The paths of every location, by the name it is filed under. */
  ghost function PathsOf(w: GameWorld): map<string, set<string>>
    reads w, w.locations.Values
  {
    map k | k in w.locations :: w.locations[k].paths
  }

  /** In the paths by name, the source a production names, if known, has a path to its destination. */
  ghost predicate PathIn(paths: map<string, set<string>>, produced: string) {
    PathSpec(produced).Some? && PathSpec(produced).value.0 in paths ==>
      PathSpec(produced).value.1 in paths[PathSpec(produced).value.0]
  }

  /** The same locations, each with at least the paths it had. */
  ghost predicate Grows(before: map<string, set<string>>, after: map<string, set<string>>) {
    before.Keys == after.Keys && forall k :: k in before ==> before[k] <= after[k]
  }

  /** The first n produced names all have their paths in the paths by name. */
  ghost predicate AllMade(paths: map<string, set<string>>, produced: seq<string>, n: nat)
    requires n <= |produced|
    decreases n
  {
    n == 0 || (AllMade(paths, produced, n - 1) && PathIn(paths, produced[n - 1]))
  }

  lemma {:induction false} AllMadeEach(paths: map<string, set<string>>, produced: seq<string>, n: nat)
    requires n <= |produced|
    ensures AllMade(paths, produced, n) <==> forall j :: 0 <= j < n ==> PathIn(paths, produced[j])
    decreases n
  {
    if n > 0 {
      AllMadeEach(paths, produced, n - 1);
      if AllMade(paths, produced, n) {
        forall j | 0 <= j < n
          ensures PathIn(paths, produced[j])
        {
          if j < n - 1 {
            assert AllMade(paths, produced, n - 1);
          }
        }
      }
      if forall j :: 0 <= j < n ==> PathIn(paths, produced[j]) {
        assert PathIn(paths, produced[n - 1]);
        assert AllMade(paths, produced, n - 1);
      }
    }
  }

  /** Paths that were there stay there while the paths only grow. */
  lemma {:induction false} AllMadeGrows(before: map<string, set<string>>, after: map<string, set<string>>, produced: seq<string>, n: nat)
    requires n <= |produced| && Grows(before, after) && AllMade(before, produced, n)
    ensures AllMade(after, produced, n)
    decreases n
  {
    if n > 0 {
      AllMadeGrows(before, after, produced, n - 1);
      assert PathIn(before, produced[n - 1]);
    }
  }

  /** The location filed as src, if there is one, has a path to dst. */
  ghost predicate HasPath(w: GameWorld, src: string, dst: string)
    reads w, w.locations.Values
  {
    src in w.locations ==> dst in w.locations[src].paths
  }

  /** The vine command that forces the path from the cave to the treasure. */
  predicate VinesCommand(c: string) {
    Contains(c, "vines") && (Contains(c, "cut") || Contains(c, "slash"))
  }

  /**
   * The effects of the chosen action: each consumed name in turn, each produced name in
   * turn (with the path double-check), then the forced door and vine paths.
   */
  method ApplyEffects(w: GameWorld, p: PlayerState, a: CustomAction, c: string)
    requires w.Valid() && p.Valid() && OnlyArtefacts(p.inventory)
    requires p.location in w.locations.Values && a in w.actions
    modifies p, w.locations.Values
    ensures w.Valid() && p.Valid() && OnlyArtefacts(p.inventory)
    ensures p.location == old(p.location) && p.health == old(p.health)
    ensures forall l :: l in w.locations.Values ==> old(l.paths) <= l.paths
    ensures forall i :: 0 <= i < |a.produced| ==> PathMade(w, a.produced[i])
    ensures DoorCommand(c) && "cellar" in w.locations ==> "cave" in w.locations["cellar"].paths
    ensures VinesCommand(c) && "cave" in w.locations ==> "treasure" in w.locations["cave"].paths
  {
    ghost var picks := ConsumeAll(w, p, a.consumed);
    assert w.ProducesKnownPaths(a);
    ProduceAndForce(w, p, a.produced, c);
  }

  /** The production loop, then the forced door and vine paths. */
  method ProduceAndForce(w: GameWorld, p: PlayerState, produced: seq<string>, c: string)
    requires w.Valid() && p.Valid() && OnlyArtefacts(p.inventory) && p.location in w.locations.Values
    requires forall i :: 0 <= i < |produced| ==> KnownPath(w, produced[i])
    modifies p, w.locations.Values
    ensures w.Valid() && p.Valid() && OnlyArtefacts(p.inventory)
    ensures p.location == old(p.location) && p.health == old(p.health)
    ensures forall l :: l in w.locations.Values ==> old(l.paths) <= l.paths
    ensures forall i :: 0 <= i < |produced| ==> PathMade(w, produced[i])
    ensures DoorCommand(c) && "cellar" in w.locations ==> "cave" in w.locations["cellar"].paths
    ensures VinesCommand(c) && "cave" in w.locations ==> "treasure" in w.locations["cave"].paths
  {
    ProduceAll(w, p, produced);
    ghost var made := PathsOf(w);
    ForcePaths(w, c);
    assert forall i :: 0 <= i < |produced| ==> PathMade(w, produced[i]) by {
      AllMadeGrows(made, PathsOf(w), produced, |produced|);
      AllMadeEach(PathsOf(w), produced, |produced|);
    }
  }

  /** Some carried item is called n. */
  predicate CarriesNamed(inventory: seq<Entity>, n: string) {
    exists i :: 0 <= i < |inventory| && NameIs(inventory[i], n)
  }

  /**
   * What consuming one name does to the inventory and the location, when the carried
   * item taken is the one at index pick: a tree goes through the location's tree rule; a
   * carried item of that name leaves the inventory; otherwise what is called so leaves
   * the location.
   */
  function AfterConsume(inventory: seq<Entity>, here: Contents, consumed: string, pick: int): (seq<Entity>, Contents) {
    if EqualsIgnoreCase(consumed, "tree") then (inventory, AfterRemove(here, "tree"))
    else if CarriesNamed(inventory, consumed) then
      (if 0 <= pick < |inventory| then Without(inventory, inventory[pick]) else inventory, here)
    else (inventory, AfterRemove(here, consumed))
  }

  /** When consuming takes from the inventory, pick is the index of an item of that name. */
  predicate GoodPick(inventory: seq<Entity>, consumed: string, pick: int) {
    !EqualsIgnoreCase(consumed, "tree") && CarriesNamed(inventory, consumed) ==>
      0 <= pick < |inventory| && NameIs(inventory[pick], consumed)
  }

  /** Consuming every name of the list in turn, taking the carried items the picks name. */
  function AfterConsumeAll(inventory: seq<Entity>, here: Contents, consumed: seq<string>, picks: seq<int>): (seq<Entity>, Contents)
    requires |picks| == |consumed|
    decreases |consumed|
  {
    if consumed == [] then (inventory, here)
    else
      var before := AfterConsumeAll(inventory, here, consumed[..|consumed| - 1], picks[..|picks| - 1]);
      AfterConsume(before.0, before.1, consumed[|consumed| - 1], picks[|picks| - 1])
  }

  /** Every pick of the list is good for the inventory it is made from. */
  predicate GoodPicks(inventory: seq<Entity>, here: Contents, consumed: seq<string>, picks: seq<int>)
    requires |picks| == |consumed|
    decreases |consumed|
  {
    consumed == [] ||
      (&& GoodPicks(inventory, here, consumed[..|consumed| - 1], picks[..|picks| - 1])
       && GoodPick(AfterConsumeAll(inventory, here, consumed[..|consumed| - 1], picks[..|picks| - 1]).0,
                   consumed[|consumed| - 1], picks[|picks| - 1]))
  }

  /**
   * Consuming one name only takes away: the inventory keeps nothing new, the location
   * loses entities at most, and its paths and players stay.
   */
  lemma AfterConsumeRemoves(inventory: seq<Entity>, here: Contents, consumed: string, pick: int)
    ensures var r := AfterConsume(inventory, here, consumed, pick);
      && r.1.paths == here.paths && r.1.players == here.players
      && r.1.artefacts <= here.artefacts && r.1.furniture <= here.furniture && r.1.characters <= here.characters
      && (forall e :: e in r.0 ==> e in inventory)
  {
    var r := AfterConsume(inventory, here, consumed, pick);
    forall e | e in r.0
      ensures e in inventory
    {
      var i :| 0 <= i < |r.0| && r.0[i] == e;
    }
  }

  /** The same holds for a whole list of consumed names. */
  lemma {:induction false} AfterConsumeAllRemoves(inventory: seq<Entity>, here: Contents, consumed: seq<string>, picks: seq<int>)
    requires |picks| == |consumed|
    ensures var r := AfterConsumeAll(inventory, here, consumed, picks);
      && r.1.paths == here.paths && r.1.players == here.players
      && r.1.artefacts <= here.artefacts && r.1.furniture <= here.furniture && r.1.characters <= here.characters
      && (forall e :: e in r.0 ==> e in inventory)
    decreases |consumed|
  {
    if consumed != [] {
      var n := |consumed| - 1;
      AfterConsumeAllRemoves(inventory, here, consumed[..n], picks[..n]);
      var before := AfterConsumeAll(inventory, here, consumed[..n], picks[..n]);
      AfterConsumeRemoves(before.0, before.1, consumed[n], picks[n]);
    }
  }

  /** Consuming "tree" where furniture trees stand removes every one of them and nothing else. */
  lemma ConsumeTree(inventory: seq<Entity>, here: Contents, consumed: string, pick: int)
    requires EqualsIgnoreCase(consumed, "tree") && Named(here.furniture, "tree") != {}
    ensures var r := AfterConsume(inventory, here, consumed, pick);
      && r.0 == inventory && Named(r.1.furniture, "tree") == {}
      && r.1.artefacts == here.artefacts && r.1.characters == here.characters
  {
    assert Lower("tree") == "tree";
    AfterRemoveTree(here, "tree");
  }

  /** The consumption loop: every consumed name in turn, at the player's location. */
  method ConsumeAll(w: GameWorld, p: PlayerState, consumed: seq<string>) returns (ghost picks: seq<int>)
    requires w.Valid() && p.Valid() && OnlyArtefacts(p.inventory) && p.location in w.locations.Values
    modifies p, p.location
    ensures w.Valid() && p.Valid() && OnlyArtefacts(p.inventory)
    ensures p.location == old(p.location) && p.health == old(p.health)
    ensures |picks| == |consumed| && GoodPicks(old(p.inventory), old(p.location.State()), consumed, picks)
    ensures (p.inventory, p.location.State()) == AfterConsumeAll(old(p.inventory), old(p.location.State()), consumed, picks)
    ensures p.location.paths == old(p.location.paths)
  {
    var here := p.location;
    picks := [];
    for i := 0 to |consumed|
      invariant w.Valid() && p.Valid() && OnlyArtefacts(p.inventory)
      invariant p.location == here && p.health == old(p.health)
      invariant |picks| == i && GoodPicks(old(p.inventory), old(here.State()), consumed[..i], picks)
      invariant (p.inventory, here.State()) == AfterConsumeAll(old(p.inventory), old(here.State()), consumed[..i], picks)
    {
      ghost var before := picks;
      ghost var pick := ConsumeOne(w, p, consumed[i]);
      picks := picks + [pick];
      assert consumed[..i + 1][..i] == consumed[..i] && picks[..i] == before;
    }
    assert consumed[..|consumed|] == consumed;
    AfterConsumeAllRemoves(old(p.inventory), old(here.State()), consumed, picks);
  }

  /** One consumed name: toApplyConsumed at the player's location. */
  method ConsumeOne(w: GameWorld, p: PlayerState, consumed: string) returns (ghost pick: int)
    requires w.Valid() && p.Valid() && OnlyArtefacts(p.inventory) && p.location in w.locations.Values
    modifies p, p.location
    ensures w.Valid() && p.Valid() && OnlyArtefacts(p.inventory)
    ensures p.location == old(p.location) && p.health == old(p.health)
    ensures GoodPick(old(p.inventory), consumed, pick)
    ensures (p.inventory, p.location.State()) == AfterConsume(old(p.inventory), old(p.location.State()), consumed, pick)
  {
    var here := p.location;
    ghost var k :| k in w.locations && w.locations[k] == here;
    pick := ConsumeHere(p, here, consumed);
    forall e | e in p.inventory
      ensures e.kind == Artefact
    {
      var j :| 0 <= j < |p.inventory| && p.inventory[j] == e;
    }
  }

  /** toApplyConsumed, with the carried item it takes given as its index. */
  method ConsumeHere(p: PlayerState, here: Location, consumed: string) returns (ghost pick: int)
    requires p.Valid() && here.Valid()
    modifies p, here
    ensures p.Valid() && here.Valid()
    ensures p.location == old(p.location) && p.health == old(p.health) && here.paths == old(here.paths)
    ensures GoodPick(old(p.inventory), consumed, pick)
    ensures (p.inventory, here.State()) == AfterConsume(old(p.inventory), old(here.State()), consumed, pick)
  {
    ghost var taken := ToApplyConsumed(p, here, consumed);
    pick := -1;
    if !EqualsIgnoreCase(consumed, "tree") && CarriesNamed(old(p.inventory), consumed) {
      pick :| 0 <= pick < |old(p.inventory)| && old(p.inventory)[pick] == taken.value;
    }
  }

  /** The production loop: every produced name in turn, each path made sure of. */
  method ProduceAll(w: GameWorld, p: PlayerState, produced: seq<string>)
    requires w.Valid() && p.Valid() && OnlyArtefacts(p.inventory) && p.location in w.locations.Values
    requires forall i :: 0 <= i < |produced| ==> KnownPath(w, produced[i])
    modifies p, w.locations.Values
    ensures w.Valid() && p.Valid() && OnlyArtefacts(p.inventory)
    ensures p.location == old(p.location) && p.health == old(p.health)
    ensures forall l :: l in w.locations.Values ==> old(l.paths) <= l.paths
    ensures AllMade(PathsOf(w), produced, |produced|)
  {
    for i := 0 to |produced|
      invariant w.Valid() && p.Valid() && OnlyArtefacts(p.inventory)
      invariant p.location == old(p.location) && p.health == old(p.health)
      invariant forall l :: l in w.locations.Values ==> old(l.paths) <= l.paths
      invariant AllMade(PathsOf(w), produced, i)
    {
      ProduceOne(w, p, produced, i);
    }
  }

  /**
   * The produced name at index i: toApplyProduced, then the double-check of a path.
   * The paths made for the names before it stay made.
   */
  method ProduceOne(w: GameWorld, p: PlayerState, produced: seq<string>, i: nat)
    requires w.Valid() && p.Valid() && OnlyArtefacts(p.inventory) && p.location in w.locations.Values
    requires i < |produced| && KnownPath(w, produced[i])
    requires AllMade(PathsOf(w), produced, i)
    modifies p, w.locations.Values
    ensures w.Valid() && p.Valid() && OnlyArtefacts(p.inventory)
    ensures p.location == old(p.location) && p.health == old(p.health)
    ensures forall l :: l in w.locations.Values ==> old(l.paths) <= l.paths
    ensures AllMade(PathsOf(w), produced, i + 1)
  {
    ghost var before := PathsOf(w);
    ghost var made, template := Produce(w, p, produced[i]);
    AllMadeGrows(before, PathsOf(w), produced, i);
  }

  /**
   * toApplyProduced, then the double-check of a path: a path production gives each
   * location the paths of the double-check (which include the path itself), and any other
   * production does what toApplyProduced does at the player's location.
   */
  method Produce(w: GameWorld, p: PlayerState, produced: string)
    returns (ghost made: Option<Entity>, ghost template: Option<Entity>)
    requires w.Valid() && p.Valid() && OnlyArtefacts(p.inventory) && p.location in w.locations.Values
    requires KnownPath(w, produced)
    modifies p, w.locations.Values
    ensures w.Valid() && p.Valid() && OnlyArtefacts(p.inventory)
    ensures p.location == old(p.location) && p.health == old(p.health)
    ensures forall l :: l in w.locations.Values ==> old(l.paths) <= l.paths
    ensures Grows(old(PathsOf(w)), PathsOf(w))
    ensures PathMade(w, produced)
    ensures PathSpec(produced).Some? ==>
      && made.None? && p.inventory == old(p.inventory)
      && forall l :: l in w.locations.Values ==> l.State() == old(l.State()).(paths := old(l.paths) + EnsuredPaths(w, l, produced))
    ensures PathSpec(produced).None? ==>
      && made.Some?
      && (forall l :: l in w.locations.Values && l != p.location ==> l.State() == old(l.State()))
    ensures PathSpec(produced).None? && EqualsIgnoreCase("shovel", produced) ==>
      && fresh(made.value) && made.value.kind == Artefact && made.value.name == "shovel"
      && p.inventory == old(p.inventory) + [made.value] && p.location.State() == old(p.location.State())
    ensures PathSpec(produced).None? && !EqualsIgnoreCase("shovel", produced) ==>
      Produced(old(w.Candidates(produced)), old(p.inventory), old(p.location.State()), produced, made.value, template,
               p.inventory, p.location.State())
  {
    made, template := ProduceSteps(w, p, produced);
    assert Grows(old(PathsOf(w)), PathsOf(w)) by {
      forall k | k in old(PathsOf(w))
        ensures old(PathsOf(w))[k] <= PathsOf(w)[k]
      {
        assert w.locations[k] in w.locations.Values;
      }
    }
  }

  /** toApplyProduced, then, for a name with "->" in it, the double-check of the path. */
  method ProduceSteps(w: GameWorld, p: PlayerState, produced: string)
    returns (ghost made: Option<Entity>, ghost template: Option<Entity>)
    requires w.Valid() && p.Valid() && OnlyArtefacts(p.inventory) && p.location in w.locations.Values
    requires KnownPath(w, produced)
    modifies p, w.locations.Values
    ensures w.Valid() && p.Valid() && OnlyArtefacts(p.inventory)
    ensures p.location == old(p.location) && p.health == old(p.health)
    ensures forall l :: l in w.locations.Values ==> old(l.paths) <= l.paths
    ensures PathMade(w, produced)
    ensures PathSpec(produced).Some? ==>
      && made.None? && p.inventory == old(p.inventory)
      && forall l :: l in w.locations.Values ==> l.State() == old(l.State()).(paths := old(l.paths) + EnsuredPaths(w, l, produced))
    ensures PathSpec(produced).None? ==>
      && made.Some?
      && (forall l :: l in w.locations.Values && l != p.location ==> l.State() == old(l.State()))
    ensures PathSpec(produced).None? && EqualsIgnoreCase("shovel", produced) ==>
      && fresh(made.value) && made.value.kind == Artefact && made.value.name == "shovel"
      && p.inventory == old(p.inventory) + [made.value] && p.location.State() == old(p.location.State())
    ensures PathSpec(produced).None? && !EqualsIgnoreCase("shovel", produced) ==>
      Produced(old(w.Candidates(produced)), old(p.inventory), old(p.location.State()), produced, made.value, template,
               p.inventory, p.location.State())
  {
    if PathSpec(produced).Some? {
      made, template := ProducePathSteps(w, p, produced);
    } else {
      made, template := ToApplyProduced(p, p.location, produced, w);
    }
  }

  /** Both steps for a "SRC->DST" production: only paths change, as the double-check says. */
  method ProducePathSteps(w: GameWorld, p: PlayerState, produced: string)
    returns (ghost made: Option<Entity>, ghost template: Option<Entity>)
    requires w.Valid() && p.Valid() && OnlyArtefacts(p.inventory) && p.location in w.locations.Values
    requires KnownPath(w, produced) && PathSpec(produced).Some?
    modifies p, w.locations.Values
    ensures w.Valid() && p.Valid() && OnlyArtefacts(p.inventory)
    ensures p.location == old(p.location) && p.health == old(p.health)
    ensures PathMade(w, produced)
    ensures made.None? && p.inventory == old(p.inventory)
    ensures forall l :: l in w.locations.Values ==> l.State() == old(l.State()).(paths := old(l.paths) + EnsuredPaths(w, l, produced))
  {
    ghost var s0 := StatesOf(w);
    made, template := ToApplyProduced(p, p.location, produced, w);
    ghost var s1 := StatesOf(w);
    EnsurePath(w, produced);
    forall l | l in w.locations.Values
      ensures l.State() == s0[l].(paths := s0[l].paths + EnsuredPaths(w, l, produced))
    {
      assert l.State() == s1[l].(paths := s1[l].paths + EnsuredPaths(w, l, produced));
      PathsAddedTwice(s0[l], s1[l], l.State(), NewPaths(w, l, produced), EnsuredPaths(w, l, produced));
      assert NewPaths(w, l, produced) + EnsuredPaths(w, l, produced) == EnsuredPaths(w, l, produced);
    }
  }

  /** The paths the double-check after a "SRC->DST" production gives location l. */
  ghost function EnsuredPaths(w: GameWorld, l: Location, produced: string): set<string>
    reads w
  {
    if PathSpec(produced).Some? then SpecPaths(w, l, PathSpec(produced).value.0, PathSpec(produced).value.1) else {}
  }

  /** The paths the double-check for source and destination gives l: the path itself, and the cellar's path to the cave. */
  ghost function SpecPaths(w: GameWorld, l: Location, source: string, destination: string): set<string>
    reads w
  {
    PathsFrom(w, l, source, destination)
    + if source in w.locations && EqualsIgnoreCase(source, "cellar") && EqualsIgnoreCase(destination, "cave")
      then PathsFrom(w, l, "cellar", "cave") else {}
  }

  /** The paths the forced door and vine paths give l. */
  ghost function ForcedPaths(w: GameWorld, l: Location, c: string): set<string>
    reads w
  {
    (if DoorCommand(c) then PathsFrom(w, l, "cellar", "cave") else {})
    + (if VinesCommand(c) then PathsFrom(w, l, "cave", "treasure") else {})
  }

  /** The double-check after producing: a path asked for is added again, and the cellar's path to the cave forced. */
  method EnsurePath(w: GameWorld, produced: string)
    requires w.Valid() && KnownPath(w, produced)
    modifies w.locations.Values
    ensures w.Valid()
    ensures forall l :: l in w.locations.Values ==> l.State() == old(l.State()).(paths := old(l.paths) + EnsuredPaths(w, l, produced))
    ensures forall l :: l in w.locations.Values ==> old(l.paths) <= l.paths
    ensures PathMade(w, produced)
  {
    var spec := PathSpec(produced);
    if spec.Some? {
      EnsureSpecPath(w, spec.value.0, spec.value.1);
    }
  }

  /** The double-check for the path from the location filed as source to destination. */
  method EnsureSpecPath(w: GameWorld, source: string, destination: string)
    requires w.Valid() && (source in w.locations ==> destination in w.locations)
    modifies w.locations.Values
    ensures w.Valid()
    ensures forall l :: l in w.locations.Values ==> l.State() == old(l.State()).(paths := old(l.paths) + SpecPaths(w, l, source, destination))
    ensures forall l :: l in w.locations.Values ==> old(l.paths) <= l.paths
    ensures HasPath(w, source, destination)
  {
    SpecPathFrame(w, source, destination);
    if source in w.locations {
      assert w.locations[source] in w.locations.Values;
    }
  }

  /** The body of the double-check, with its effect on every location. */
  method SpecPathFrame(w: GameWorld, source: string, destination: string)
    requires w.Valid() && (source in w.locations ==> destination in w.locations)
    modifies w.locations.Values
    ensures w.Valid()
    ensures forall l :: l in w.locations.Values ==> l.State() == old(l.State()).(paths := old(l.paths) + SpecPaths(w, l, source, destination))
  {
    ghost var s0 := StatesOf(w);
    var sourceLocation := w.GetLocation(source);
    if sourceLocation == null {
      forall l | l in w.locations.Values
        ensures l.State() == s0[l].(paths := s0[l].paths + SpecPaths(w, l, source, destination))
      {
        assert s0[l].(paths := s0[l].paths + {}) == s0[l];
      }
    } else {
      SpecPathAt(w, sourceLocation, source, destination);
    }
  }

  /** SpecPathFrame once the source is found: its path, then the cellar-to-cave path again if asked. */
  method SpecPathAt(w: GameWorld, sourceLocation: Location, source: string, destination: string)
    requires w.Valid() && source in w.locations && sourceLocation == w.locations[source]
    requires destination in w.locations
    modifies w.locations.Values
    ensures w.Valid()
    ensures forall l :: l in w.locations.Values ==> l.State() == old(l.State()).(paths := old(l.paths) + SpecPaths(w, l, source, destination))
  {
    AddPathAt(w, sourceLocation, destination);
    label Added:
    var cellarCase := EqualsIgnoreCase(source, "cellar") && EqualsIgnoreCase(destination, "cave");
    ForceOne(w, cellarCase, "cellar", "cave");
    forall l | l in w.locations.Values
      ensures l.State() == old(l.State()).(paths := old(l.paths) + SpecPaths(w, l, source, destination))
    {
      var later := if cellarCase then PathsFrom(w, l, "cellar", "cave") else {};
      SpecPathsOfKnown(w, l, source, destination, cellarCase);
      PathsAddedTwice(old(l.State()), old@Added(l.State()), l.State(), PathsFrom(w, l, source, destination), later);
    }
  }

  /** From a known source, the double-check gives the path itself and, in the cellar case, the cellar's path to the cave. */
  lemma SpecPathsOfKnown(w: GameWorld, l: Location, source: string, destination: string, cellarCase: bool)
    requires source in w.locations
    requires cellarCase == (EqualsIgnoreCase(source, "cellar") && EqualsIgnoreCase(destination, "cave"))
    ensures SpecPaths(w, l, source, destination) ==
      PathsFrom(w, l, source, destination) + if cellarCase then PathsFrom(w, l, "cellar", "cave") else {}
  {
  }

  /** Adds a path to one location of a valid world, towards a known location; no other location changes. */
  method AddPathAt(w: GameWorld, l: Location, destination: string)
    requires w.Valid() && l in w.locations.Values && destination in w.locations
    modifies l
    ensures w.Valid()
    ensures forall m :: m in w.locations.Values ==>
      m.State() == old(m.State()).(paths := old(m.paths) + if m == l then {destination} else {})
  {
    l.AddPath(destination);
    assert w.Valid() by {
      forall k, q | k in w.locations && q in w.locations[k].paths
        ensures q in w.locations
      {
        if w.locations[k] != l {
          assert q in old(w.locations[k].paths);
        }
      }
    }
  }

  /** The forced paths: from the cellar to the cave on a door command, from the cave to the treasure on a vine command. */
  method ForcePaths(w: GameWorld, c: string)
    requires w.Valid()
    modifies w.locations.Values
    ensures w.Valid()
    ensures forall l :: l in w.locations.Values ==> l.State() == old(l.State()).(paths := old(l.paths) + ForcedPaths(w, l, c))
    ensures forall l :: l in w.locations.Values ==> old(l.paths) <= l.paths
    ensures DoorCommand(c) && "cellar" in w.locations ==> "cave" in w.locations["cellar"].paths
    ensures VinesCommand(c) && "cave" in w.locations ==> "treasure" in w.locations["cave"].paths
    ensures Grows(old(PathsOf(w)), PathsOf(w))
  {
    ForceBoth(w, c);
    assert Grows(old(PathsOf(w)), PathsOf(w)) by {
      forall k | k in old(PathsOf(w))
        ensures old(PathsOf(w))[k] <= PathsOf(w)[k]
      {
        assert w.locations[k] in w.locations.Values;
      }
    }
  }

  /** The door path, then the vine path, each when its command asks for it. */
  method ForceBoth(w: GameWorld, c: string)
    requires w.Valid()
    modifies w.locations.Values
    ensures w.Valid()
    ensures forall l :: l in w.locations.Values ==> l.State() == old(l.State()).(paths := old(l.paths) + ForcedPaths(w, l, c))
  {
    ghost var s0 := StatesOf(w);
    ForceOne(w, DoorCommand(c), "cellar", "cave");
    ghost var s1 := StatesOf(w);
    ForceOne(w, VinesCommand(c), "cave", "treasure");
    forall l | l in w.locations.Values
      ensures l.State() == s0[l].(paths := s0[l].paths + ForcedPaths(w, l, c))
    {
      var door := if DoorCommand(c) then PathsFrom(w, l, "cellar", "cave") else {};
      var vines := if VinesCommand(c) then PathsFrom(w, l, "cave", "treasure") else {};
      assert s1[l] == s0[l].(paths := s0[l].paths + door);
      assert l.State() == s1[l].(paths := s1[l].paths + vines);
      PathsAddedTwice(s0[l], s1[l], l.State(), door, vines);
    }
  }

  /** Two path additions in a row add their union. */
  lemma PathsAddedTwice(a: Contents, b: Contents, c: Contents, first: set<string>, second: set<string>)
    requires b == a.(paths := a.paths + first) && c == b.(paths := b.paths + second)
    ensures c == a.(paths := a.paths + (first + second))
  {
  }

  /** The contents of every location of the world. */
  ghost function StatesOf(w: GameWorld): map<Location, Contents>
    reads w, w.locations.Values
  {
    map l | l in w.locations.Values :: l.State()
  }

  /** One forced path: when asked, the location filed as source, if any, gets a path to destination. */
  method ForceOne(w: GameWorld, asked: bool, source: string, destination: string)
    requires w.Valid() && (source in w.locations ==> destination in w.locations)
    modifies w.locations.Values
    ensures w.Valid()
    ensures forall l :: l in w.locations.Values ==>
      l.State() == old(l.State()).(paths := old(l.paths) + if asked then PathsFrom(w, l, source, destination) else {})
  {
    if asked {
      var l := w.GetLocation(source);
      if l != null {
        AddPathAt(w, l, destination);
      }
    }
  }

  /**
   * executeCustomAction: the reply and the effects of a command that no built-in
   * command handles. Every refusal leaves the game unchanged; an action carried out
   * only adds paths, and the paths it asks for are there afterwards.
   */
  method ExecuteCustomAction(w: GameWorld, p: PlayerState, command: string) returns (r: string, s: Selection)
    requires w.Valid() && p.Valid() && OnlyArtefacts(p.inventory) && p.location in w.locations.Values
    modifies p, w.locations.Values
    ensures w.Valid() && p.Valid() && OnlyArtefacts(p.inventory)
    ensures p.location == old(p.location) && p.health == old(p.health)
    ensures forall l :: l in w.locations.Values ==> old(l.paths) <= l.paths
    ensures SelectionRules(w.actions, NormalizeCommand(command), s)
    ensures s.NoMatch? ==> r == NotUnderstood
    ensures s.TooMany? ==> r == BeMoreSpecific
    ensures s.Chosen? ==>
      var refusal := Rejection(old(p.inventory), old(p.location.Entities()), s.action.subjects, NormalizeCommand(command));
      Outcome(w, s.action, NormalizeCommand(command), refusal, r)
    ensures (!s.Chosen? || Rejection(old(p.inventory), old(p.location.Entities()), s.action.subjects, NormalizeCommand(command)).Some?) ==>
      unchanged(p) && forall l :: l in w.locations.Values ==> unchanged(l)
  {
    r, s := Respond(w, p, NormalizeCommand(command));
  }

  /** The reply to the normalised command c, and its effects. */
  method Respond(w: GameWorld, p: PlayerState, c: string) returns (r: string, s: Selection)
    requires w.Valid() && p.Valid() && OnlyArtefacts(p.inventory) && p.location in w.locations.Values
    modifies p, w.locations.Values
    ensures w.Valid() && p.Valid() && OnlyArtefacts(p.inventory)
    ensures p.location == old(p.location) && p.health == old(p.health)
    ensures forall l :: l in w.locations.Values ==> old(l.paths) <= l.paths
    ensures SelectionRules(w.actions, c, s)
    ensures s.NoMatch? ==> r == NotUnderstood
    ensures s.TooMany? ==> r == BeMoreSpecific
    ensures s.Chosen? ==>
      var refusal := Rejection(old(p.inventory), old(p.location.Entities()), s.action.subjects, c);
      Outcome(w, s.action, c, refusal, r)
    ensures (!s.Chosen? || Rejection(old(p.inventory), old(p.location.Entities()), s.action.subjects, c).Some?) ==>
      unchanged(p) && forall l :: l in w.locations.Values ==> unchanged(l)
  {
    s := SelectAction(w.actions, c);
    match s {
      case NoMatch => return NotUnderstood, s;
      case TooMany => return BeMoreSpecific, s;
      case Chosen(a) =>
        r := RunChosen(w, p, a, c);
    }
  }

  /**
   * What carrying out the chosen action a for command c leads to, given the refusal
   * the checks produce: the refusal, or its narration, with its paths made and the
   * forced paths there.
   */
  ghost predicate Outcome(w: GameWorld, a: CustomAction, c: string, refusal: Option<string>, r: string)
    reads w, a, w.locations.Values
  {
    && (refusal.Some? ==> r == refusal.value)
    && (refusal.None? ==>
          && r == a.narration
          && (forall i :: 0 <= i < |a.produced| ==> PathMade(w, a.produced[i]))
          && (DoorCommand(c) && "cellar" in w.locations ==> "cave" in w.locations["cellar"].paths)
          && (VinesCommand(c) && "cave" in w.locations ==> "treasure" in w.locations["cave"].paths))
  }

  /** The checks on the chosen action, then its effects and its narration. */
  method RunChosen(w: GameWorld, p: PlayerState, a: CustomAction, c: string) returns (r: string)
    requires w.Valid() && p.Valid() && OnlyArtefacts(p.inventory) && p.location in w.locations.Values
    requires a in w.actions
    modifies p, w.locations.Values
    ensures w.Valid() && p.Valid() && OnlyArtefacts(p.inventory)
    ensures p.location == old(p.location) && p.health == old(p.health)
    ensures forall l :: l in w.locations.Values ==> old(l.paths) <= l.paths
    ensures unchanged(w.actions)
    ensures Outcome(w, a, c, Rejection(old(p.inventory), old(p.location.Entities()), a.subjects, c), r)
    ensures Rejection(old(p.inventory), old(p.location.Entities()), a.subjects, c).Some? ==>
      unchanged(p) && forall l :: l in w.locations.Values ==> unchanged(l)
  {
    var refusal := CheckChosen(p, p.location, a, c);
    if refusal.Some? {
      return refusal.value;
    }
    ApplyEffects(w, p, a, c);
    return a.narration;
  }
}

=== FILE: game_controller.dfy ===
/**
 * The command dispatcher: a line "player : command" is split at its first colon, the
 * player name is checked, the command is normalised, the player is looked up (or
 * created at the start location) and the command goes to its built-in handler or,
 * failing all of them, to the custom actions.
 */
module Controller {

  import opened Wrappers
  import opened Text
  import opened Entities
  import opened Players
  import opened Registry
  import opened World
  import BasicActions
  import Executor

  const InvalidCommand := "Your command is invalid, please use like [player : command]."
  const InvalidName := "Invalid player name. Player name must contain only letters and numbers."

  // ---------------------------------------------------------------------------
  // Parsing a line
  // ---------------------------------------------------------------------------

  /** indexOf: the first position of c in s, or -1. */
  function IndexOf(s: string, c: char): (r: int)
    ensures r == -1 <==> c !in s
    ensures r != -1 ==> 0 <= r < |s| && s[r] == c && c !in s[..r]
  {
    if s == [] then -1
    else if s[0] == c then 0
    else
      var r := IndexOf(s[1..], c);
      assert r != -1 ==> s[1..][..r] == s[1..r + 1];
      if r == -1 then -1 else r + 1
  }

  /** matches("^[a-zA-Z0-9]+$"): one or more ASCII letters and digits, nothing else. */
  predicate ValidPlayerName(name: string) {
    |name| > 0 && forall i :: 0 <= i < |name| ==> IsAsciiAlphaNum(name[i])
  }

  /**
   * matches("(?i)" + prefix + ".*") for a prefix in lower case: s starts with prefix,
   * ignoring ASCII case, and no line terminator follows (`.` does not match one).
   */
  predicate MatchesPrefixLine(s: string, prefix: string) {
    |prefix| <= |s| && StartsIgnoringCase(s, prefix) && NoLineTerminator(s[|prefix|..])
  }

  /** s starts with prefix (in lower case), ignoring ASCII case. */
  predicate StartsIgnoringCase(s: string, prefix: string)
    decreases |prefix|
  {
    prefix == [] || (s != [] && LowerChar(s[0]) == prefix[0] && StartsIgnoringCase(s[1..], prefix[1..]))
  }

  predicate NoLineTerminator(s: string)
    decreases |s|
  {
    s == [] || (!IsLineTerminator(s[0]) && NoLineTerminator(s[1..]))
  }

  /** Every character is above U+0020: no whitespace and nothing trim removes. */
  predicate NoBlank(s: string)
    decreases |s|
  {
    s == [] || (s[0] > ' ' && NoBlank(s[1..]))
  }

  lemma {:induction false} NoBlankAt(s: string, i: int)
    requires NoBlank(s) && 0 <= i < |s|
    ensures s[i] > ' '
    decreases i
  {
    if i > 0 {
      NoBlankAt(s[1..], i - 1);
    }
  }

  /**
   * normalizeCommand of the dispatcher: whitespace runs become one space and the ends
   * are trimmed; anything starting with "inv" then means the inventory, and anything
   * starting with "health" or "hp" the health.
   */
  function NormalizeCommand(command: string): (r: string)
    ensures MatchesPrefixLine(NormalizeSpaces(command), "inv") ==> r == "inventory"
    ensures !MatchesPrefixLine(NormalizeSpaces(command), "inv")
      && (MatchesPrefixLine(NormalizeSpaces(command), "health") || MatchesPrefixLine(NormalizeSpaces(command), "hp"))
      ==> r == "health"
    ensures !MatchesPrefixLine(NormalizeSpaces(command), "inv")
      && !MatchesPrefixLine(NormalizeSpaces(command), "health") && !MatchesPrefixLine(NormalizeSpaces(command), "hp")
      ==> r == NormalizeSpaces(command) && Normal(r)
    ensures r != "inventory" && r != "health" && BlanksAreSpaces(command) ==> Words(r) == Words(command)
  {
    var n := NormalizeSpaces(command);
    NormalizeSpacesNormal(command);
    if MatchesPrefixLine(n, "inv") then "inventory"
    else if MatchesPrefixLine(n, "health") || MatchesPrefixLine(n, "hp") then "health"
    else n
  }

  /** A normalised command normalises to itself. */
  lemma NormalizeCommandIdempotent(command: string)
    ensures NormalizeCommand(NormalizeCommand(command)) == NormalizeCommand(command)
  {
    var n := NormalizeSpaces(command);
    assert NormalizeSpaces(n) == n by {
      NormalizeSpacesNormal(command);
    }
    if MatchesPrefixLine(n, "inv") {
      InventoryNormalized();
    } else if MatchesPrefixLine(n, "health") || MatchesPrefixLine(n, "hp") {
      HealthNormalized();
    }
  }

  /** The result is never "inv": text that normalises to "inv" is taken as "inventory". */
  lemma NormalizeCommandNeverInv(command: string)
    ensures NormalizeCommand(command) != "inv"
  {
    if NormalizeSpaces(command) == "inv" {
      InvMatchesInv();
    }
  }

  /** A command that is no shortcut, such as "look", comes back as it was typed. */
  lemma LookNormalized()
    ensures NormalizeCommand("look") == "look"
  {
    LookIsNormal();
    LookIsNoShortcut();
  }

  /** "look" starts with none of the shortcuts "inv", "health" and "hp". */
  lemma LookIsNoShortcut()
    ensures !MatchesPrefixLine("look", "inv") && !MatchesPrefixLine("look", "health") && !MatchesPrefixLine("look", "hp")
  {
    var s := "look";
    assert s[0] == 'l' && LowerChar(s[0]) == 'l';
    assert !StartsIgnoringCase(s, "inv");
    assert !StartsIgnoringCase(s, "hp");
  }

  /** "look" has no whitespace, so whitespace normalisation keeps it. */
  lemma LookIsNormal()
    ensures NormalizeSpaces("look") == "look"
  {
    assert NoBlank("look");
    NormalTextIsItsNormalForm("look");
  }

  lemma InvMatchesInv()
    ensures MatchesPrefixLine("inv", "inv")
  {
    assert "inv"[3..] == [];
    assert StartsIgnoringCase("v", "v");
  }

  lemma InventoryNormalized()
    ensures NormalizeCommand("inventory") == "inventory"
  {
    InventoryIsNormal();
    InventoryMatchesInv();
  }

  lemma HealthNormalized()
    ensures NormalizeCommand("health") == "health"
  {
    HealthIsNormal();
    HealthMatchesHealthOnly();
  }

  /** "inventory" has no whitespace, so whitespace normalisation keeps it. */
  lemma InventoryIsNormal()
    ensures NormalizeSpaces("inventory") == "inventory"
  {
    assert NoBlank("inventory");
    NormalTextIsItsNormalForm("inventory");
  }

  /** "health" has no whitespace, so whitespace normalisation keeps it. */
  lemma HealthIsNormal()
    ensures NormalizeSpaces("health") == "health"
  {
    assert NoBlank("health");
    NormalTextIsItsNormalForm("health");
  }

  /** "inventory" is matched by the "inv" shortcut. */
  lemma InventoryMatchesInv()
    ensures MatchesPrefixLine("inventory", "inv")
  {
    assert "inventory"[3..] == "entory";
    assert StartsIgnoringCase("ntory", "");
    assert StartsIgnoringCase("inventory", "inv") by {
      assert "inventory"[1..] == "nventory" && "nventory"[1..] == "ventory" && "ventory"[1..] == "entory";
      assert StartsIgnoringCase("ventory", "v");
    }
    assert NoLineTerminator("entory") by {
      assert "entory"[1..] == "ntory" && "ntory"[1..] == "tory" && "tory"[1..] == "ory";
      assert "ory"[1..] == "ry" && "ry"[1..] == "y" && "y"[1..] == "";
    }
  }

  /** "health" is matched by the "health" shortcut and not by the "inv" one. */
  lemma HealthMatchesHealthOnly()
    ensures !MatchesPrefixLine("health", "inv") && MatchesPrefixLine("health", "health")
  {
    assert "health"[6..] == "";
  }

  /** Text without whitespace and without spaces at its ends is already normal. */
  lemma NormalTextIsItsNormalForm(s: string)
    requires NoBlank(s)
    ensures NormalizeSpaces(s) == s
  {
    NoSpaceCollapses(s);
    if s != [] {
      NoBlankAt(s, |s| - 1);
    }
    TrimOfTrimmed(s);
  }

  lemma {:induction false} NoSpaceCollapses(s: string)
    requires NoBlank(s)
    ensures CollapseSpaces(s) == s
    decreases |s|
  {
    if s != [] {
      assert !IsSpace(s[0]);
      NoSpaceCollapses(s[1..]);
    }
  }

  /** The outcome of splitting a line. */
  datatype Parsed =
    | NoColon
    | BadName
    | Request(name: string, command: string)

  /**
   * The first half of handleCommand: the text before the first colon, trimmed and
   * lower-cased, is the player name; the text after it, trimmed, lower-cased and
   * normalised, is the command.
   */
  function ParseLine(input: string): (r: Parsed)
    ensures r.NoColon? <==> ':' !in input
    ensures r.Request? ==> ValidPlayerName(r.name) && NoUpper(r.name)
    ensures !r.NoColon? ==> SplitAtColon(input, IndexOf(input, ':'), r)
  {
    var colon := IndexOf(input, ':');
    if colon == -1 then NoColon
    else
      var name := Lower(Trim(input[..colon]));
      var command := Lower(Trim(input[colon + 1..]));
      var r := if !ValidPlayerName(name) then BadName else Request(name, NormalizeCommand(command));
      assert SplitAtColon(input, colon, r);
      r
  }

  /**
   * r is what the line says when split at its first colon, at i: the name before it is
   * refused or kept (trimmed, lower-cased), and the command after it is trimmed,
   * lower-cased and normalised.
   */
  ghost predicate SplitAtColon(input: string, i: int, r: Parsed) {
    && 0 <= i < |input| && input[i] == ':' && ':' !in input[..i]
    && (r.BadName? <==> !ValidPlayerName(Lower(Trim(input[..i]))))
    && (r.Request? ==> r.name == Lower(Trim(input[..i]))
                       && r.command == NormalizeCommand(Lower(Trim(input[i + 1..]))))
  }

  /**
   * A player who types "name: command" is heard as name and command when the name is
   * letters and digits in lower case and the command is already in normal form.
   */
  lemma ParseLineRoundTrip(name: string, command: string)
    requires ValidPlayerName(name) && NoUpper(name)
    requires NoUpper(command) && NormalizeCommand(command) == command
    ensures ParseLine(name + ": " + command) == Request(name, command)
  {
    RoundTripParts(name, command);
    ParseLineAt(name + ": " + command, |name|, name, command);
  }

  /** In "name: command", the first colon follows the name, and the two sides trim back to name and command. */
  lemma RoundTripParts(name: string, command: string)
    requires ValidPlayerName(name) && NoUpper(name)
    requires NoUpper(command) && NormalizeCommand(command) == command
    ensures var input := name + ": " + command;
      && IndexOf(input, ':') == |name| && |name| < |input|
      && Lower(Trim(input[..|name|])) == name
      && Lower(Trim(input[|name| + 1..])) == command
  {
    ColonOf(name, command);
    NameSide(name);
    CommandSide(command);
  }

  /** In "name: command" the first colon follows the name; before it is the name, after it " " + command. */
  lemma ColonOf(name: string, command: string)
    requires ValidPlayerName(name)
    ensures var input := name + ": " + command;
      && IndexOf(input, ':') == |name|
      && input[..|name|] == name && input[|name| + 1..] == " " + command
  {
    ColonSpace(name, command);
    FirstColonAfterName(name, " " + command);
  }

  /** A player name in lower case trims and lower-cases to itself. */
  lemma NameSide(name: string)
    requires ValidPlayerName(name) && NoUpper(name)
    ensures Lower(Trim(name)) == name
  {
    NameIsTrimmed(name);
    LowerOfNoUpper(name);
  }

  /** A normal command in lower case, after the space that follows the colon, trims and lower-cases to itself. */
  lemma CommandSide(command: string)
    requires NoUpper(command) && NormalizeCommand(command) == command
    ensures Lower(Trim(" " + command)) == command
  {
    CommandIsTrimmed(command);
    LeadingSpaceTrimmed(command);
    LowerOfNoUpper(command);
  }

  /** ParseLine once the colon, the trimmed name and the trimmed command are known. */
  lemma ParseLineAt(input: string, colon: nat, name: string, command: string)
    requires IndexOf(input, ':') == colon && colon < |input|
    requires Lower(Trim(input[..colon])) == name && ValidPlayerName(name)
    requires Lower(Trim(input[colon + 1..])) == command && NormalizeCommand(command) == command
    ensures ParseLine(input) == Request(name, command)
  {
  }

  /** The first colon of name + ":" + rest is the one after the name, when the name has none. */
  lemma FirstColonAfterName(name: string, rest: string)
    requires ValidPlayerName(name)
    ensures IndexOf(name + ":" + rest, ':') == |name|
    ensures (name + ":" + rest)[..|name|] == name && (name + ":" + rest)[|name| + 1..] == rest
  {
    var input := name + ":" + rest;
    assert input[|name|] == ':';
    assert input[..|name|] == name;
  }

  lemma ColonSpace(name: string, command: string)
    ensures name + ": " + command == name + ":" + (" " + command)
  {
  }

  /** A player name has no character up to a space, so trimming keeps it. */
  lemma NameIsTrimmed(name: string)
    requires ValidPlayerName(name)
    ensures Trim(name) == name
  {
    assert IsAsciiAlphaNum(name[0]) && IsAsciiAlphaNum(name[|name| - 1]);
    TrimOfTrimmed(name);
  }

  /** Trimming " " + s gives s, when s is already trimmed. */
  lemma LeadingSpaceTrimmed(s: string)
    requires s == [] || (s[0] > ' ' && s[|s| - 1] > ' ')
    ensures Trim(" " + s) == s
  {
    assert (" " + s)[1..] == s;
    assert TrimStart(" " + s) == TrimStart(s) == s;
    TrimOfTrimmed(s);
  }

  /** A command that normalises to itself has no spaces at its ends. */
  lemma CommandIsTrimmed(command: string)
    requires NormalizeCommand(command) == command
    ensures command == [] || (command[0] > ' ' && command[|command| - 1] > ' ')
  {
    if command != "inventory" && command != "health" {
      assert Normal(command);
    }
  }

  // ---------------------------------------------------------------------------
  // Routing
  // ---------------------------------------------------------------------------

  /** Where a normalised command goes, with the argument the handler receives. */
  datatype Route =
    | Look
    | Inventory
    | Health
    | Get(item: string)
    | Drop(item: string)
    | Goto(destination: string)
    | Drink(item: string)
    | Fight(target: string)
    | Custom(command: string)

  /** The command is one of the built-in commands. */
  predicate BuiltIn(c: string) {
    || c == "look" || c == "inventory" || c == "inv" || c == "health"
    || StartsWith(c, "get ") || StartsWith(c, "drop ") || StartsWith(c, "goto ")
    || StartsWith(c, "drink ") || StartsWith(c, "fight ") || StartsWith(c, "attack ")
  }

  /**
   * The routing of handleCommand: exact words for look, inventory and health, a prefix
   * and its trimmed remainder for the others, and the custom actions for the rest.
   */
  function RouteOf(c: string): (r: Route)
    ensures r.Custom? <==> !BuiltIn(c)
    ensures r.Custom? ==> r.command == c
  {
    if c == "look" then Look
    else if c == "inventory" || c == "inv" then Inventory
    else if c == "health" then Health
    else if StartsWith(c, "get ") then Get(Trim(c[4..]))
    else if StartsWith(c, "drop ") then Drop(Trim(c[5..]))
    else if StartsWith(c, "goto ") then Goto(Trim(c[5..]))
    else if StartsWith(c, "drink ") then Drink(Trim(c[6..]))
    else if StartsWith(c, "fight ") then Fight(Trim(c[6..]))
    else if StartsWith(c, "attack ") then Fight(Trim(c[7..]))
    else Custom(c)
  }

  /** The command a player types for a route (a fight is typed as "fight"). */
  function CommandOf(r: Route): string {
    match r
    case Look => "look"
    case Inventory => "inventory"
    case Health => "health"
    case Get(item) => "get " + item
    case Drop(item) => "drop " + item
    case Goto(destination) => "goto " + destination
    case Drink(item) => "drink " + item
    case Fight(target) => "fight " + target
    case Custom(c) => c
  }

  /** The argument of a route is trimmed text; a custom command is not a built-in one. */
  predicate Routable(r: Route) {
    match r
    case Custom(c) => !BuiltIn(c)
    case Get(a) => Trimmed(a)
    case Drop(a) => Trimmed(a)
    case Goto(a) => Trimmed(a)
    case Drink(a) => Trimmed(a)
    case Fight(a) => Trimmed(a)
    case _ => true
  }

  predicate Trimmed(a: string) {
    a == [] || (a[0] > ' ' && a[|a| - 1] > ' ')
  }

  /** Routing the command typed for a route gives the route back. */
  lemma RouteRoundTrip(r: Route)
    requires Routable(r)
    ensures RouteOf(CommandOf(r)) == r
  {
    match r
    case Get(a) => RoutedGet(a);
    case Drop(a) => RoutedDrop(a);
    case Goto(a) => RoutedGoto(a);
    case Drink(a) => RoutedDrink(a);
    case Fight(a) => RoutedFight(a);
    case Look =>
    case Inventory =>
    case Health =>
    case Custom(c) =>
  }

  lemma RoutedGet(a: string)
    requires Trimmed(a)
    ensures RouteOf("get " + a) == Get(a)
  {
    var c := "get " + a;
    assert c[..4] == "get " && c[4..] == a;
    NotAnExactWord(c);
    TrimOfTrimmed(a);
  }

  lemma RoutedDrop(a: string)
    requires Trimmed(a)
    ensures RouteOf("drop " + a) == Drop(a)
  {
    var c := "drop " + a;
    assert c[..5] == "drop " && c[5..] == a;
    assert !StartsWith(c, "get ") by { assert c[..4][0] == 'd'; }
    NotAnExactWord(c);
    TrimOfTrimmed(a);
  }

  lemma RoutedGoto(a: string)
    requires Trimmed(a)
    ensures RouteOf("goto " + a) == Goto(a)
  {
    var c := "goto " + a;
    assert c[..5] == "goto " && c[5..] == a;
    assert !StartsWith(c, "get ") by { assert c[..4][1] == 'o'; }
    assert !StartsWith(c, "drop ") by { assert c[..5][0] == 'g'; }
    NotAnExactWord(c);
    TrimOfTrimmed(a);
  }

  lemma RoutedDrink(a: string)
    requires Trimmed(a)
    ensures RouteOf("drink " + a) == Drink(a)
  {
    var c := "drink " + a;
    assert c[..6] == "drink " && c[6..] == a;
    assert !StartsWith(c, "get ") by { assert c[..4][0] == 'd'; }
    assert !StartsWith(c, "drop ") by { assert c[..5][2] == 'i'; }
    assert !StartsWith(c, "goto ") by { assert c[..5][0] == 'd'; }
    NotAnExactWord(c);
    TrimOfTrimmed(a);
  }

  lemma RoutedFight(a: string)
    requires Trimmed(a)
    ensures RouteOf("fight " + a) == Fight(a)
  {
    var c := "fight " + a;
    assert c[..6] == "fight " && c[6..] == a;
    assert !StartsWith(c, "get ") by { assert c[..4][0] == 'f'; }
    assert !StartsWith(c, "drop ") by { assert c[..5][0] == 'f'; }
    assert !StartsWith(c, "goto ") by { assert c[..5][0] == 'f'; }
    assert !StartsWith(c, "drink ") by { assert c[..6][0] == 'f'; }
    NotAnExactWord(c);
    TrimOfTrimmed(a);
  }

  /** "attack" is another word for "fight". */
  lemma AttackIsFight(a: string)
    requires Trimmed(a)
    ensures RouteOf("attack " + a) == Fight(a)
  {
    var c := "attack " + a;
    assert c[..7] == "attack " && c[7..] == a;
    assert !StartsWith(c, "get ") by { assert c[..4][0] == 'a'; }
    assert !StartsWith(c, "drop ") by { assert c[..5][0] == 'a'; }
    assert !StartsWith(c, "goto ") by { assert c[..5][0] == 'a'; }
    assert !StartsWith(c, "drink ") by { assert c[..6][0] == 'a'; }
    assert !StartsWith(c, "fight ") by { assert c[..6][0] == 'a'; }
    NotAnExactWord(c);
    TrimOfTrimmed(a);
  }

  /** Text starting with neither 'l', 'i' nor 'h' is none of the commands matched whole. */
  lemma NotAnExactWord(c: string)
    requires c != [] && c[0] != 'l' && c[0] != 'i' && c[0] != 'h'
    ensures c != "look" && c != "inventory" && c != "inv" && c != "health"
  {
    assert "look"[0] == 'l' && "inventory"[0] == 'i' && "inv"[0] == 'i' && "health"[0] == 'h';
  }

  // ---------------------------------------------------------------------------
  // The dispatcher
  // ---------------------------------------------------------------------------

  /** What every registered player satisfies: a valid inventory of artefacts, at a location of the world. */
  ghost predicate Placed(w: GameWorld, p: PlayerState)
    reads w, p
  {
    p.Valid() && OnlyArtefacts(p.inventory) && p.location in w.locations.Values
  }

  /** A player as first created: at the start location of the world, with full health and nothing carried. */
  ghost predicate Fresh(w: GameWorld, p: PlayerState)
    reads w, p
  {
    Spawn in w.locations && p.location == w.locations[Spawn] && p.health == StartHealth && p.inventory == []
  }

  /**
   * The goto reply: with a path of from matching the destination ignoring case, a move to
   * the location that path names; otherwise the refusal and no move.
   */
  ghost predicate Went(w: GameWorld, from: Location, destination: string, to: Location, r: string)
    reads w, from
  {
    && ((forall q :: q in from.paths ==> !EqualsIgnoreCase(q, destination)) ==>
          r == BasicActions.CannotGo && to == from)
    && ((exists q :: q in from.paths && EqualsIgnoreCase(q, destination)) ==>
          exists q :: q in from.paths && EqualsIgnoreCase(q, destination)
            && q in w.locations && to == w.locations[q] && r == "You moved to " + q + ".")
  }

  /**
   * The outcome the dispatcher states for a player who was at from with that inventory
   * and health: look, inventory and health leave the player as they were, the inventory
   * and health replies report them, and goto moves the player as Went says and changes
   * nothing else about them.
   */
  ghost predicate Replied(w: GameWorld, route: Route, from: Location, inventory: seq<Entity>, health: int,
                          p: PlayerState, r: string)
    reads w, from, p
  {
    && (Passive(route) ==> p.location == from && p.inventory == inventory && p.health == health)
    && (route == Inventory ==> r == BasicActions.InventoryText(inventory))
    && (route == Health ==> r == "Your health is " + IntToString(health) + ".")
    && (route.Goto? ==> p.inventory == inventory && p.health == health && Went(w, from, route.destination, p.location, r))
  }

  /** The routes whose handlers change nothing. */
  predicate Passive(route: Route) {
    route.Look? || route.Inventory? || route.Health?
  }

  ghost predicate AllPlaced(w: GameWorld, ps: set<PlayerState>)
    reads w, ps
  {
    forall q :: q in ps ==> Placed(w, q)
  }

  /** When p and everyone else in the registry are placed, the whole registry is. */
  lemma EveryonePlaced(w: GameWorld, registered: map<string, PlayerState>, p: PlayerState)
    requires Placed(w, p) && AllPlaced(w, registered.Values - {p})
    ensures forall k :: k in registered ==> Placed(w, registered[k])
  {
    forall k | k in registered
      ensures Placed(w, registered[k])
    {
      var q := registered[k];
      if q != p {
        assert q in registered.Values;
        assert q in registered.Values - {p};
      }
    }
  }

  class GameController {
    const world: GameWorld
    const state: GameState

    /** The world is well formed and every registered player is placed in it. */
    ghost predicate Valid()
      reads this, world, world.locations.Values, world.actions, state, state.playerStates.Values
    {
      && world.Valid() && state.Valid()
      && forall k :: k in state.playerStates ==> Placed(world, state.playerStates[k])
    }

    constructor (world: GameWorld, state: GameState)
      ensures this.world == world && this.state == state
    {
      this.world := world;
      this.state := state;
    }

    /**
     * handleCommand: a line without a colon or with a bad player name is refused and
     * changes nothing; otherwise the player is registered (new players start in the
     * cabin with nothing and full health) and the command goes where RouteOf sends it.
     */
    method HandleCommand(input: string) returns (r: string, ghost route: Option<Route>)
      requires Valid()
      modifies state, state.playerStates.Values, world.locations.Values
      ensures Valid()
      ensures ParseLine(input).NoColon? ==>
        r == InvalidCommand && route.None? && unchanged(state) && unchanged(state.playerStates.Values)
        && unchanged(world.locations.Values)
      ensures ParseLine(input).BadName? ==>
        r == InvalidName && route.None? && unchanged(state) && unchanged(state.playerStates.Values)
        && unchanged(world.locations.Values)
      ensures ParseLine(input).Request? ==>
        var name := ParseLine(input).name;
        && route == Some(RouteOf(ParseLine(input).command))
        && name in state.playerStates
        && state.playerStates == old(state.playerStates)[name := state.playerStates[name]]
        && (name in old(state.playerStates) ==> state.playerStates[name] == old(state.playerStates)[name])
        && (name !in old(state.playerStates) ==> fresh(state.playerStates[name]))
        && (name !in old(state.playerStates) && Passive(RouteOf(ParseLine(input).command)) ==>
              Fresh(world, state.playerStates[name]))
    {
      var parsed := ParseLine(input);
      match parsed {
        case NoColon => return InvalidCommand, None;
        case BadName => return InvalidName, None;
        case Request(name, command) =>
          route := Some(RouteOf(command));
          r := Serve(name, RouteOf(command));
      }
    }

    /** A request from a well-formed line: the player is registered, then the route is followed. */
    method Serve(name: string, route: Route) returns (r: string)
      requires Valid()
      modifies state, state.playerStates.Values, world.locations.Values
      ensures Valid()
      ensures name in state.playerStates
      ensures state.playerStates == old(state.playerStates)[name := state.playerStates[name]]
      ensures name in old(state.playerStates) ==> state.playerStates[name] == old(state.playerStates)[name]
      ensures name !in old(state.playerStates) ==> fresh(state.playerStates[name])
      ensures name !in old(state.playerStates) && Passive(route) ==> Fresh(world, state.playerStates[name])
      ensures var known := name in old(state.playerStates);
        Replied(world, route,
                if known then old(state.playerStates[name].location) else world.locations[Spawn],
                if known then old(state.playerStates[name].inventory) else [],
                if known then old(state.playerStates[name].health) else StartHealth,
                state.playerStates[name], r)
      ensures route == Look || route.Goto? ==> unchanged(world.locations.Values)
      ensures route == Look ==>
        var q := state.playerStates[name];
        exists es, exits, ps ::
        && BasicActions.Enumerates(es, q.location.Entities())
        && BasicActions.Enumerates(exits, q.location.paths)
        && BasicActions.Enumerates(ps, state.PlayersAt(q.location))
        && r == BasicActions.LookText(q.location, es, exits, ps, q.name)
    {
      var p := Register(name);
      r := Play(name, p, route);
    }

    /** The registered player p follows the route; every player stays placed. */
    method Play(name: string, p: PlayerState, route: Route) returns (r: string)
      requires Valid() && name in state.playerStates && p == state.playerStates[name]
      modifies p, world.locations.Values
      ensures Valid()
      ensures Passive(route) ==> unchanged(p)
      ensures Replied(world, route, old(p.location), old(p.inventory), old(p.health), p, r)
      ensures route == Look || route.Goto? ==> unchanged(world.locations.Values)
      ensures route == Look ==>
        exists es, exits, ps ::
        && BasicActions.Enumerates(es, p.location.Entities())
        && BasicActions.Enumerates(exits, p.location.paths)
        && BasicActions.Enumerates(ps, state.PlayersAt(p.location))
        && r == BasicActions.LookText(p.location, es, exits, ps, p.name)
    {
      ghost var registered := state.playerStates;
      ghost var others := registered.Values - {p};
      assert AllPlaced(world, others);
      r := Dispatch(p, route);
      assert AllPlaced(world, others);
      EveryonePlaced(world, registered, p);
    }

    /** getOrCreatePlayerState at the start location: the player's state, placed in the world. */
    method Register(name: string) returns (p: PlayerState)
      requires Valid()
      modifies state
      ensures Valid() && Placed(world, p)
      ensures name in state.playerStates && p == state.playerStates[name]
      ensures state.playerStates == old(state.playerStates)[name := p]
      ensures name in old(state.playerStates) ==> p == old(state.playerStates)[name]
      ensures name !in old(state.playerStates) ==> fresh(p)
      ensures name !in old(state.playerStates) ==> Fresh(world, p)
    {
      var start := world.GetLocation(Spawn);
      assert start in world.locations.Values;
      p := state.CurrentStates(name, start);
    }

    /** The second half of handleCommand: the handler the route names, for player p. */
    method Dispatch(p: PlayerState, route: Route) returns (r: string)
      requires world.Valid() && Placed(world, p)
      modifies p, world.locations.Values
      ensures world.Valid() && Placed(world, p)
      ensures route == Inventory ==> r == BasicActions.InventoryText(p.inventory) && unchanged(p)
      ensures route == Health ==> BasicActions.ReadHealth(r) == Some(p.health) && unchanged(p)
      ensures Replied(world, route, old(p.location), old(p.inventory), old(p.health), p, r)
      ensures route == Look ==> unchanged(p) && unchanged(world.locations.Values)
      ensures route == Look ==>
        exists es, exits, ps ::
        && BasicActions.Enumerates(es, p.location.Entities())
        && BasicActions.Enumerates(exits, p.location.paths)
        && BasicActions.Enumerates(ps, state.PlayersAt(p.location))
        && r == BasicActions.LookText(p.location, es, exits, ps, p.name)
      ensures route.Goto? ==> unchanged(world.locations.Values)
    {
      if Passive(route) {
        r := Observe(p, route);
      } else if route.Goto? {
        r := GotoIn(p, route.destination);
      } else {
        r := Act(p, route);
      }
    }

    /** look, inventory and health: a reply about the player, and nothing changes. */
    method Observe(p: PlayerState, route: Route) returns (r: string)
      requires Passive(route)
      ensures route == Inventory ==> r == BasicActions.InventoryText(p.inventory)
      ensures route == Health ==> BasicActions.ReadHealth(r) == Some(p.health)
      ensures Replied(world, route, p.location, p.inventory, p.health, p, r)
      ensures route == Look ==>
        exists es, exits, ps ::
        && BasicActions.Enumerates(es, p.location.Entities())
        && BasicActions.Enumerates(exits, p.location.paths)
        && BasicActions.Enumerates(ps, state.PlayersAt(p.location))
        && r == BasicActions.LookText(p.location, es, exits, ps, p.name)
    {
      match route {
        case Look =>
          r := LookIn(p);
        case Inventory =>
          r := BasicActions.HandleInventory(p);
        case Health =>
          r := BasicActions.HandleHealth(p);
      }
    }

    /** get, drop, drink, fight and the custom actions, each keeping the player placed in the world. */
    method Act(p: PlayerState, route: Route) returns (r: string)
      requires world.Valid() && Placed(world, p) && !Passive(route) && !route.Goto?
      modifies p, world.locations.Values
      ensures world.Valid() && Placed(world, p)
      ensures Replied(world, route, old(p.location), old(p.inventory), old(p.health), p, r)
    {
      match route {
        case Get(item) =>
          r := GetIn(p, item);
        case Drop(item) =>
          r := DropIn(p, item);
        case Drink(item) =>
          r := DrinkIn(p, item);
        case Fight(target) =>
          r := FightIn(p, target);
        case Custom(command) =>
          r := CustomIn(p, command);
      }
    }

    /** look: describes the player's location and changes nothing. */
    method LookIn(p: PlayerState) returns (r: string)
      ensures exists es, exits, ps ::
        && BasicActions.Enumerates(es, p.location.Entities())
        && BasicActions.Enumerates(exits, p.location.paths)
        && BasicActions.Enumerates(ps, state.PlayersAt(p.location))
        && r == BasicActions.LookText(p.location, es, exits, ps, p.name)
    {
      ghost var es, exits, ps;
      r, es, exits, ps := BasicActions.HandleLook(p, state);
    }

    /** goto: the player moves, if at all, to a location of the world. */
    method GotoIn(p: PlayerState, destination: string) returns (r: string)
      requires world.Valid() && Placed(world, p)
      modifies p
      ensures world.Valid() && Placed(world, p)
      ensures p.inventory == old(p.inventory) && p.health == old(p.health)
      ensures Went(world, old(p.location), destination, p.location, r)
    {
      r := BasicActions.HandleGoto(world, p, destination);
    }

    /** Any other command goes to the custom actions. */
    method CustomIn(p: PlayerState, command: string) returns (r: string)
      requires world.Valid() && Placed(world, p)
      modifies p, world.locations.Values
      ensures world.Valid() && Placed(world, p)
    {
      var selection;
      r, selection := Executor.ExecuteCustomAction(world, p, command);
    }

    /** get, at the player's location in the world. */
    method GetIn(p: PlayerState, item: string) returns (r: string)
      requires world.Valid() && Placed(world, p)
      modifies p, p.location
      ensures world.Valid() && Placed(world, p)
    {
      ghost var k :| k in world.locations && world.locations[k] == p.location;
      ghost var picked;
      r, picked := BasicActions.HandleGet(p, item);
    }

    /** drop, at the player's location in the world. */
    method DropIn(p: PlayerState, item: string) returns (r: string)
      requires world.Valid() && Placed(world, p)
      modifies p, p.location
      ensures world.Valid() && Placed(world, p)
    {
      ghost var k :| k in world.locations && world.locations[k] == p.location;
      r := BasicActions.HandleDrop(p, item, p.location);
      forall e | e in p.inventory
        ensures e.kind == Artefact
      {
        var j :| 0 <= j < |p.inventory| && p.inventory[j] == e;
      }
    }

    /** drink: a used potion leaves the rest of the inventory as it was. */
    method DrinkIn(p: PlayerState, item: string) returns (r: string)
      requires world.Valid() && Placed(world, p)
      modifies p
      ensures world.Valid() && Placed(world, p)
    {
      r := BasicActions.HandleDrink(p, item);
      forall e | e in p.inventory
        ensures e.kind == Artefact
      {
        var j :| 0 <= j < |p.inventory| && p.inventory[j] == e;
      }
    }

    /** fight, at the player's location in the world. */
    method FightIn(p: PlayerState, target: string) returns (r: string)
      requires world.Valid() && Placed(world, p)
      modifies p, p.location
      ensures world.Valid() && Placed(world, p)
    {
      ghost var k :| k in world.locations && world.locations[k] == p.location;
      r := BasicActions.HandleFight(p, target, world);
      assert world.locations[Spawn] in world.locations.Values;
    }
  }
}

=== FILE: game_state.dfy ===
/** The registry of player states, by player name. */
module Registry {

  import opened Entities
  import opened Players

  class GameState {
    var playerStates: map<string, PlayerState>
    /** The set getAllPlayerStatesAt fills; it lives as long as the registry. */
    var playersHere: set<PlayerState>

    /** Each state is filed under its player's name. */
    ghost predicate Valid()
      reads this, playerStates.Values
    {
      forall k :: k in playerStates ==> playerStates[k].name == k
    }

    /** The registered players whose location is loc. */
    ghost function PlayersAt(loc: Location): set<PlayerState>
      reads this, playerStates.Values
    {
      set p | p in playerStates.Values && p.location == loc
    }

    constructor ()
      ensures playerStates == map[] && playersHere == {}
      ensures Valid()
    {
      playerStates := map[];
      playersHere := {};
    }

    /**
     * currentStates: the state filed under the name, created at the start location
     * when there is none yet.
     */
    method CurrentStates(name: string, start: Location) returns (p: PlayerState)
      requires Valid()
      modifies this
      ensures Valid()
      ensures name in playerStates && p == playerStates[name]
      ensures playersHere == old(playersHere)
      ensures name in old(playerStates) ==> playerStates == old(playerStates)
      ensures name !in old(playerStates) ==>
        && fresh(p) && p.Valid() && p.location == start && p.inventory == [] && p.health == StartHealth
        && playerStates == old(playerStates)[name := p]
    {
      if name !in playerStates {
        var created := new PlayerState(name, start);
        playerStates := playerStates[name := created];
      }
      p := playerStates[name];
    }

    /** addPlayer: the state is filed under its name, replacing any earlier one. */
    method AddPlayer(p: PlayerState)
      requires Valid()
      modifies this
      ensures Valid()
      ensures playerStates == old(playerStates)[p.name := p]
      ensures playersHere == old(playersHere)
    {
      playerStates := playerStates[p.name := p];
    }

    /**
     * getAllPlayerStatesAt as written: the players at loc are added to the long-lived
     * playersHere set, which is returned, so it keeps everyone found by earlier calls.
     */
    method GetAllPlayerStatesAt(loc: Location) returns (r: set<PlayerState>)
      modifies this`playersHere
      ensures playersHere == old(playersHere) + PlayersAt(loc)
      ensures r == playersHere
    {
      var rest := playerStates.Values;
      while rest != {}
        invariant rest <= playerStates.Values
        invariant playersHere == old(playersHere) + (PlayersAt(loc) - rest)
        decreases rest
      {
        var p :| p in rest;
        if p.location == loc {
          playersHere := playersHere + {p};
        }
        rest := rest - {p};
      }
      r := playersHere;
    }

    /** getAllPlayerStatesAt as evidently intended: a fresh set holding just the players at loc. */
    method PlayerStatesAt(loc: Location) returns (r: set<PlayerState>)
      ensures r == PlayersAt(loc)
    {
      r := {};
      var rest := playerStates.Values;
      while rest != {}
        invariant rest <= playerStates.Values
        invariant r == PlayersAt(loc) - rest
        decreases rest
      {
        var p :| p in rest;
        if p.location == loc {
          r := r + {p};
        }
        rest := rest - {p};
      }
    }
  }

  /**
   * The stale-set defect of getAllPlayerStatesAt: after asking about the cabin and then
   * about the forest, the answer for the forest still holds the player in the cabin.
   */
  method StalePlayerScenario() returns (g: GameState, inCabin: PlayerState, forest: Location, seen: set<PlayerState>)
    ensures inCabin in seen && inCabin.location != forest
  {
    var cabin := new Location("cabin", "A log cabin in the woods");
    forest := new Location("forest", "A dark forest");
    g := new GameState();
    inCabin := new PlayerState("simon", cabin);
    g.AddPlayer(inCabin);
    assert g.playerStates["simon"] == inCabin;
    var first := g.GetAllPlayerStatesAt(cabin);
    assert inCabin in first;
    seen := g.GetAllPlayerStatesAt(forest);
  }

  /** With the corrected lookup the same sequence of calls reports nobody in the forest. */
  method CorrectedPlayerScenario() returns (g: GameState, inCabin: PlayerState, forest: Location, seen: set<PlayerState>)
    ensures inCabin !in seen && seen == {}
  {
    var cabin := new Location("cabin", "A log cabin in the woods");
    forest := new Location("forest", "A dark forest");
    g := new GameState();
    inCabin := new PlayerState("simon", cabin);
    g.AddPlayer(inCabin);
    var first := g.PlayerStatesAt(cabin);
    seen := g.PlayerStatesAt(forest);
  }
}

=== FILE: game_world.dfy ===
/** The game world: locations by name and the custom actions. */
module World {

  import opened Text
  import opened Entities
  import opened Actions

  /** Where new players start and where the dead are resurrected. */
  const Spawn := "cabin"
  /** The location searched last for templates of produced entities. */
  const Storeroom := "storeroom"

  class GameWorld {
    var locations: map<string, Location>
    var actions: set<CustomAction>

    /**
     * The shape of a loaded world that the engine relies on without checking for null:
     * every location is filed under its own name and keeps its sets typed, the start
     * location exists, every path leads to a known location, the locations the forced
     * door and vine paths lead to exist, and every "SRC->DST" an action produces from a
     * known source leads to a known destination.
     */
    ghost predicate Valid()
      reads this, locations.Values, actions
    {
      && (forall k :: k in locations ==> locations[k].name == k && locations[k].Valid())
      && Spawn in locations
      && (forall k, q :: k in locations && q in locations[k].paths ==> q in locations)
      && ("cellar" in locations ==> "cave" in locations)
      && ("cave" in locations ==> "treasure" in locations)
      && (forall a :: a in actions ==> ProducesKnownPaths(a))
    }

    ghost predicate ProducesKnownPaths(a: CustomAction)
      reads this, a
    {
      forall i :: 0 <= i < |a.produced| && PathSpec(a.produced[i]).Some?
        && PathSpec(a.produced[i]).value.0 in locations
        ==> PathSpec(a.produced[i]).value.1 in locations
    }

    constructor ()
      ensures locations == map[] && actions == {}
    {
      locations := map[];
      actions := {};
    }

    /** A location is filed under its name, replacing any earlier one of that name. */
    method AddLocation(location: Location)
      modifies this
      ensures locations == old(locations)[location.name := location]
      ensures actions == old(actions)
    {
      locations := locations[location.name := location];
    }

    /** Lookup is by exact, case-sensitive name; null when no location has that key. */
    function GetLocation(name: string): (r: Location?)
      reads this
      ensures r == null <==> name !in locations
      ensures r != null ==> r == locations[name]
    {
      if name in locations then locations[name] else null
    }

    /** A copy of the set of locations: exactly the locations filed under some key. */
    method GetLocations() returns (r: set<Location>)
      ensures forall l :: l in r <==> exists k :: k in locations && locations[k] == l
    {
      r := locations.Values;
    }

    method AddAction(action: CustomAction)
      modifies this
      ensures actions == old(actions) + {action}
      ensures locations == old(locations)
    {
      actions := actions + {action};
    }

    /** Some location not called "storeroom" holds an entity called n. */
    ghost predicate OutsideStoreroom(n: string)
      reads this, locations.Values
    {
      exists l :: l in locations.Values && l.name != Storeroom && Named(l.Entities(), n) != {}
    }

    /** The location filed as "storeroom" holds an entity called n. */
    ghost predicate InStoreroom(n: string)
      reads this, locations.Values
    {
      Storeroom in locations && Named(locations[Storeroom].Entities(), n) != {}
    }

    /** Some location, the storeroom or another, holds an entity called n. */
    ghost predicate FoundAnywhere(n: string)
      reads this, locations.Values
    {
      OutsideStoreroom(n) || InStoreroom(n)
    }

    /**
     * The entities findEntityByName may return for n: those called n in locations other
     * than the storeroom when there are any, otherwise those called n in the storeroom.
     */
    ghost function Candidates(n: string): set<Entity>
      reads this, locations.Values
    {
      if OutsideStoreroom(n) then
        set l, e | l in locations.Values && l.name != Storeroom && e in l.Entities() && NameIs(e, n) :: e
      else if Storeroom in locations then
        Named(locations[Storeroom].Entities(), n)
      else
        {}
    }

    /**
     * findEntityByName: an entity called n (ignoring case), looked for first in every
     * location not called "storeroom" and only then in the storeroom; null when neither
     * has one.
     */
    method FindEntityByName(n: string) returns (r: Entity?)
      ensures r == null <==> !FoundAnywhere(n)
      ensures r != null ==> NameIs(r, n)
      ensures r != null && OutsideStoreroom(n) ==>
        exists l :: l in locations.Values && l.name != Storeroom && r in l.Entities()
      ensures r != null && !OutsideStoreroom(n) ==> r in locations[Storeroom].Entities()
      ensures r == null <==> Candidates(n) == {}
      ensures r != null ==> r in Candidates(n)
    {
      var rest := locations.Values;
      while rest != {}
        invariant rest <= locations.Values
        invariant forall l :: l in locations.Values - rest && l.name != Storeroom ==> Named(l.Entities(), n) == {}
        decreases rest
      {
        var l :| l in rest;
        rest := rest - {l};
        if l.name != Storeroom && exists e :: e in l.Entities() && NameIs(e, n) {
          r :| r in l.Entities() && NameIs(r, n);
          assert r in Named(l.Entities(), n);
          return;
        }
      }
      var store := GetLocation(Storeroom);
      if store != null && exists e :: e in store.Entities() && NameIs(e, n) {
        r :| r in store.Entities() && NameIs(r, n);
        assert r in Named(store.Entities(), n);
        return;
      }
      r := null;
    }

    /** In a valid world, null means no location at all holds an entity called n. */
    lemma FindNothingMeansNowhere(n: string)
      requires Valid()
      ensures !OutsideStoreroom(n) && !InStoreroom(n) <==>
        forall l :: l in locations.Values ==> Named(l.Entities(), n) == {}
    {
      if !OutsideStoreroom(n) && !InStoreroom(n) {
        forall l | l in locations.Values
          ensures Named(l.Entities(), n) == {}
        {
          var k :| k in locations && locations[k] == l;
          if l.name == Storeroom {
            assert k == Storeroom;
          }
        }
      }
    }
  }
}

=== FILE: location.dfy ===
/**
 * Game entities (artefacts, furniture, characters) and the locations that hold them.
 * An entity's identity is its object identity, as for the Java references it models;
 * its name is only a lookup key, compared ignoring case.
 */
module Entities {

  import opened Text

  datatype Kind = Artefact | Furniture | Character

  class Entity {
    const name: string
    const description: string
    const kind: Kind

    constructor (name: string, description: string, kind: Kind)
      ensures this.name == name && this.description == description && this.kind == kind
    {
      this.name := name;
      this.description := description;
      this.kind := kind;
    }
  }

  /** Whether e is called n, ignoring case. */
  predicate NameIs(e: Entity, n: string) {
    EqualsIgnoreCase(e.name, n)
  }

  /** The members of s called n, ignoring case. */
  function Named(s: set<Entity>, n: string): set<Entity> {
    set e | e in s && NameIs(e, n)
  }

  /** The mutable fields of a location, as one value. */
  datatype Contents = Contents(
    paths: set<string>,
    artefacts: set<Entity>,
    furniture: set<Entity>,
    characters: set<Entity>,
    players: set<string>)
  {
    function Entities(): set<Entity> {
      artefacts + furniture + characters
    }
  }

  /** What addEntity does: the entity joins the set for its kind and no other. */
  function AfterAdd(c: Contents, e: Entity): Contents {
    match e.kind
    case Artefact => c.(artefacts := c.artefacts + {e})
    case Furniture => c.(furniture := c.furniture + {e})
    case Character => c.(characters := c.characters + {e})
  }

  /**
   * What removeEntity does to an entity called n. For "tree", when some furniture is a
   * tree, every furniture tree goes and nothing else; otherwise every entity called n
   * goes, from all three sets.
   */
  function AfterRemove(c: Contents, n: string): Contents {
    if Lower(n) == "tree" && Named(c.furniture, "tree") != {} then
      c.(furniture := c.furniture - Named(c.furniture, "tree"))
    else
      c.(artefacts := c.artefacts - Named(c.artefacts, n),
         furniture := c.furniture - Named(c.furniture, n),
         characters := c.characters - Named(c.characters, n))
  }

  /** Removal depends on the name only up to case. */
  lemma AfterRemoveIgnoresCase(c: Contents, n: string, m: string)
    requires Lower(n) == Lower(m)
    ensures AfterRemove(c, n) == AfterRemove(c, m)
  {
    assert forall s: set<Entity> :: Named(s, n) == Named(s, m);
  }

  /** Outside the furniture-tree case, nothing called n is left afterwards. */
  lemma AfterRemoveClearsName(c: Contents, n: string)
    requires !(Lower(n) == "tree" && Named(c.furniture, "tree") != {})
    ensures Named(AfterRemove(c, n).Entities(), n) == {}
  {
  }

  /** In the furniture-tree case, every furniture tree goes and artefacts and characters stay. */
  lemma AfterRemoveTree(c: Contents, n: string)
    requires Lower(n) == "tree" && Named(c.furniture, "tree") != {}
    ensures Named(AfterRemove(c, n).furniture, "tree") == {}
    ensures AfterRemove(c, n).artefacts == c.artefacts
    ensures AfterRemove(c, n).characters == c.characters
  {
  }

  /** Removal never touches paths or players and keeps every entity with another name. */
  lemma AfterRemoveKeepsOthers(c: Contents, n: string, e: Entity)
    requires e in c.Entities() && !NameIs(e, n)
    ensures e in AfterRemove(c, n).Entities()
    ensures AfterRemove(c, n).paths == c.paths && AfterRemove(c, n).players == c.players
  {
    if Lower(n) == "tree" {
      assert !NameIs(e, "tree");
    }
  }

  class Location {
    const name: string
    const description: string
    var paths: set<string>
    var artefacts: set<Entity>
    var furniture: set<Entity>
    var characters: set<Entity>
    /** Names of the players here (the Player class is not part of this model). */
    var players: set<string>

    /** Each typed set holds only entities of its kind. */
    ghost predicate Valid()
      reads this
    {
      && (forall e :: e in artefacts ==> e.kind == Artefact)
      && (forall e :: e in furniture ==> e.kind == Furniture)
      && (forall e :: e in characters ==> e.kind == Character)
    }

    function State(): Contents
      reads this
    {
      Contents(paths, artefacts, furniture, characters, players)
    }

    /** getEntities(): artefacts, furniture and characters together. */
    function Entities(): set<Entity>
      reads this
    {
      artefacts + furniture + characters
    }

    constructor (name: string, description: string)
      ensures this.name == name && this.description == description
      ensures State() == Contents({}, {}, {}, {}, {})
      ensures Valid()
    {
      this.name := name;
      this.description := description;
      paths := {};
      artefacts := {};
      furniture := {};
      characters := {};
      players := {};
    }

    method AddPath(destination: string)
      modifies this
      ensures State() == old(State()).(paths := old(paths) + {destination})
      ensures destination in old(paths) ==> State() == old(State())
    {
      paths := paths + {destination};
    }

    method AddArtefact(item: Entity)
      requires Valid() && item.kind == Artefact
      modifies this
      ensures Valid()
      ensures State() == old(State()).(artefacts := old(artefacts) + {item})
    {
      artefacts := artefacts + {item};
    }

    method AddFurniture(item: Entity)
      requires Valid() && item.kind == Furniture
      modifies this
      ensures Valid()
      ensures State() == old(State()).(furniture := old(furniture) + {item})
    {
      furniture := furniture + {item};
    }

    method AddCharacter(character: Entity)
      requires Valid() && character.kind == Character
      modifies this
      ensures Valid()
      ensures State() == old(State()).(characters := old(characters) + {character})
    {
      characters := characters + {character};
    }

    method AddPlayer(player: string)
      modifies this
      ensures State() == old(State()).(players := old(players) + {player})
    {
      players := players + {player};
    }

    /** addEntity: the entity goes into the set for its kind. */
    method AddEntity(entity: Entity)
      requires Valid()
      modifies this
      ensures Valid()
      ensures State() == AfterAdd(old(State()), entity)
      ensures entity in Entities()
    {
      match entity.kind {
        case Artefact => artefacts := artefacts + {entity};
        case Furniture => furniture := furniture + {entity};
        case Character => characters := characters + {entity};
      }
    }

    /** hasEntity: whether some entity here is called n, ignoring case. */
    method HasEntity(n: string) returns (found: bool)
      ensures found <==> Named(Entities(), n) != {}
    {
      var all := Entities();
      var rest := all;
      while rest != {}
        invariant rest <= all
        invariant Named(all - rest, n) == {}
        decreases rest
      {
        var e :| e in rest;
        if NameIs(e, n) {
          assert e in Named(all, n);
          return true;
        }
        rest := rest - {e};
      }
      assert all - rest == all;
      return false;
    }

    /** The collect loops of removeEntity: the members of s called n. */
    static method CollectNamed(s: set<Entity>, n: string) returns (found: set<Entity>)
      ensures found == Named(s, n)
    {
      found := {};
      var rest := s;
      while rest != {}
        invariant rest <= s
        invariant found == Named(s - rest, n)
        decreases rest
      {
        var e :| e in rest;
        if NameIs(e, n) {
          found := found + {e};
        }
        rest := rest - {e};
      }
      assert s - rest == s;
    }

    /** removeByName: the collection without its members called n. */
    static method RemoveByName(collection: set<Entity>, n: string) returns (rest: set<Entity>)
      ensures rest <= collection
      ensures forall e :: e in collection ==> (e in rest <==> !NameIs(e, n))
    {
      var toRemove := CollectNamed(collection, n);
      rest := collection - toRemove;
    }

    /**
     * removeEntity: the special tree clean-up, then removal by identity, then by name,
     * then the final sweep when something with the name is still here.
     */
    method RemoveEntity(entity: Entity)
      requires Valid()
      modifies this
      ensures Valid()
      ensures State() == AfterRemove(old(State()), entity.name)
    {
      var n := Lower(entity.name);
      LowerIdempotent(entity.name);
      AfterRemoveIgnoresCase(old(State()), n, entity.name);
      if n == "tree" {
        var toRemove := CollectNamed(furniture, "tree");
        if toRemove != {} {
          furniture := furniture - toRemove;
          return;
        }
      }
      assert NameIs(entity, n);
      ghost var before := State();
      RemoveDirectOrByName(entity, n);
      var still := HasEntity(n);
      if still {
        artefacts := set x | x in artefacts && !NameIs(x, n);
        furniture := set x | x in furniture && !NameIs(x, n);
        characters := set x | x in characters && !NameIs(x, n);
      }
      assert Named(artefacts, n) == {} && Named(furniture, n) == {} && Named(characters, n) == {};
      Swept(before.artefacts, artefacts, n);
      Swept(before.furniture, furniture, n);
      Swept(before.characters, characters, n);
    }

    /** The middle of removeEntity: removal by identity, else of everything called n. */
    method RemoveDirectOrByName(entity: Entity, n: string)
      requires Valid() && NameIs(entity, n)
      modifies this
      ensures Valid()
      ensures paths == old(paths) && players == old(players)
      ensures Kept(old(artefacts), artefacts, n)
      ensures Kept(old(furniture), furniture, n)
      ensures Kept(old(characters), characters, n)
    {
      var removedDirect := false;
      match entity.kind {
        case Artefact =>
          removedDirect := entity in artefacts;
          artefacts := artefacts - {entity};
        case Furniture =>
          removedDirect := entity in furniture;
          furniture := furniture - {entity};
        case Character =>
          removedDirect := entity in characters;
          characters := characters - {entity};
      }
      if !removedDirect {
        var a := CollectNamed(artefacts, n);
        var f := CollectNamed(furniture, n);
        var c := CollectNamed(characters, n);
        artefacts := artefacts - a;
        furniture := furniture - f;
        characters := characters - c;
      }
    }

    /** Once nothing called n is left, a kept set is exactly s without its members called n. */
    static lemma Swept(s: set<Entity>, after: set<Entity>, n: string)
      requires Kept(s, after, n) && Named(after, n) == {}
      ensures after == s - Named(s, n)
    {
      forall x | x in after
        ensures x in s - Named(s, n)
      {
        assert x !in Named(after, n);
      }
    }

    /** after lies between s without its members called n, and s. */
    static ghost predicate Kept(s: set<Entity>, after: set<Entity>, n: string) {
      s - Named(s, n) <= after <= s
    }
  }
}

=== FILE: player_state.dfy ===
/** A player's state: name, current location, inventory (in insertion order) and health. */
module Players {

  import opened Entities

  const StartHealth := 3

  ghost predicate NoDuplicates<T>(s: seq<T>) {
    forall i, j :: 0 <= i < j < |s| ==> s[i] != s[j]
  }

  /** The insertion-ordered set after adding x: unchanged when x is already there, else x at the end. */
  function Added<T(==)>(s: seq<T>, x: T): (r: seq<T>)
    ensures x in r && forall i :: 0 <= i < |s| ==> s[i] in r
    ensures forall i :: 0 <= i < |r| ==> r[i] == x || r[i] in s
    ensures NoDuplicates(s) ==> NoDuplicates(r)
    ensures x in s ==> r == s
    ensures x !in s ==> r == s + [x]
  {
    if x in s then s else s + [x]
  }

  /** The insertion-ordered set after removing x: x is gone, the rest keep their order. */
  function Without<T(==)>(s: seq<T>, x: T): (r: seq<T>)
    ensures |r| <= |s|
    ensures forall i :: 0 <= i < |r| ==> r[i] in s && r[i] != x
    ensures forall i :: 0 <= i < |s| && s[i] != x ==> s[i] in r
    ensures NoDuplicates(s) ==> NoDuplicates(r)
    ensures x !in s ==> r == s
  {
    if s == [] then []
    else if s[0] == x then Without(s[1..], x)
    else [s[0]] + Without(s[1..], x)
  }

  /** Removing an item that is there once cuts out exactly that position; the others keep their order. */
  lemma WithoutRemovesOne<T>(s: seq<T>, x: T, k: int)
    requires NoDuplicates(s) && 0 <= k < |s| && s[k] == x
    ensures Without(s, x) == s[..k] + s[k + 1..]
  {
    assert x !in s[..k];
    assert x !in s[k + 1..];
    WithoutCuts(s, x, k);
  }

  /** Removing an item found only at position k cuts out that position. */
  lemma {:induction false} WithoutCuts<T>(s: seq<T>, x: T, k: int)
    requires 0 <= k < |s| && s[k] == x && x !in s[..k] && x !in s[k + 1..]
    ensures Without(s, x) == s[..k] + s[k + 1..]
  {
    if k == 0 {
      assert s[1..] == s[k + 1..] && s[..k] == [];
      assert Without(s, x) == Without(s[1..], x);
    } else {
      assert s[0] == s[..k][0];
      assert Without(s, x) == [s[0]] + Without(s[1..], x);
      assert s[1..][..k - 1] == s[1..k] && s[1..][k..] == s[k + 1..];
      assert x !in s[1..][..k - 1];
      WithoutCuts(s[1..], x, k - 1);
      assert s[..k] == [s[0]] + s[1..][..k - 1];
      assert [s[0]] + (s[1..][..k - 1] + s[1..][k..]) == s[..k] + s[k + 1..];
    }
  }

  /** Every item carried is an artefact (only artefacts can be picked up or produced into an inventory). */
  ghost predicate OnlyArtefacts(inventory: seq<Entity>) {
    forall e :: e in inventory ==> e.kind == Artefact
  }

  class PlayerState {
    const name: string
    var location: Location
    var inventory: seq<Entity>
    var health: int

    ghost predicate Valid()
      reads this
    {
      NoDuplicates(inventory)
    }

    /** A new player has full health and carries nothing. */
    constructor (name: string, location: Location)
      ensures this.name == name && this.location == location
      ensures inventory == [] && health == StartHealth
      ensures Valid()
    {
      this.name := name;
      this.location := location;
      inventory := [];
      health := StartHealth;
    }

    method SetLocation(location: Location)
      modifies this
      ensures this.location == location
      ensures inventory == old(inventory) && health == old(health)
    {
      this.location := location;
    }

    method AddToInventory(item: Entity)
      requires Valid()
      modifies this
      ensures Valid()
      ensures inventory == Added(old(inventory), item)
      ensures location == old(location) && health == old(health)
    {
      if item !in inventory {
        inventory := inventory + [item];
      }
    }

    method RemoveFromInventory(item: Entity)
      requires Valid()
      modifies this
      ensures Valid()
      ensures inventory == Without(old(inventory), item)
      ensures location == old(location) && health == old(health)
    {
      inventory := Without(inventory, item);
    }

    /** Health is stored as given; callers do the clamping. */
    method SetHealth(health: int)
      modifies this
      ensures this.health == health
      ensures location == old(location) && inventory == old(inventory)
    {
      this.health := health;
    }
  }
}

=== FILE: text.dfy ===
/**
 * The parts of java.lang.String that the game engine relies on, over `string`
 * (a sequence of chars). Case folding is ASCII only.
 */
module Text {

  import opened Wrappers

  // ---------------------------------------------------------------------------
  // Character classes
  // ---------------------------------------------------------------------------

  /** The regular-expression class \s: space, tab, newline, vertical tab, form feed, carriage return. */
  predicate IsSpace(c: char) {
    c == ' ' || c == '\t' || c == '\n' || c == '\U{B}' || c == '\U{C}' || c == '\r'
  }

  /** The characters that `.` in a regular expression does not match. */
  predicate IsLineTerminator(c: char) {
    c == '\n' || c == '\r' || c == '\U{85}' || c == '\U{2028}' || c == '\U{2029}'
  }

  predicate IsAsciiAlphaNum(c: char) {
    'a' <= c <= 'z' || 'A' <= c <= 'Z' || '0' <= c <= '9'
  }

  // ---------------------------------------------------------------------------
  // Case
  // ---------------------------------------------------------------------------

  function LowerChar(c: char): char {
    if 'A' <= c <= 'Z' then (c as int + 32) as char else c
  }

  /** toLowerCase, restricted to ASCII letters. */
  function Lower(s: string): (r: string)
    ensures |r| == |s|
    ensures forall i :: 0 <= i < |s| ==> r[i] == LowerChar(s[i])
    ensures NoUpper(r)
  {
    seq(|s|, i requires 0 <= i < |s| => LowerChar(s[i]))
  }

  /** No ASCII capital letters. */
  predicate NoUpper(s: string) {
    forall i :: 0 <= i < |s| ==> !('A' <= s[i] <= 'Z')
  }

  /** Text without capitals is its own lower case. */
  lemma LowerOfNoUpper(s: string)
    requires NoUpper(s)
    ensures Lower(s) == s
  {
  }

  /** equalsIgnoreCase. */
  predicate EqualsIgnoreCase(a: string, b: string) {
    Lower(a) == Lower(b)
  }

  lemma LowerIdempotent(s: string)
    ensures Lower(Lower(s)) == Lower(s)
  {
  }

  // ---------------------------------------------------------------------------
  // Substrings and prefixes
  // ---------------------------------------------------------------------------

  predicate OccursAt(s: string, sub: string, i: int) {
    0 <= i && i + |sub| <= |s| && s[i..i + |sub|] == sub
  }

  /** s.contains(sub): sub starts at some position of s (the empty string is in every string). */
  predicate Contains(s: string, sub: string)
    decreases |s|
  {
    StartsWith(s, sub) || (s != [] && Contains(s[1..], sub))
  }

  /** s.startsWith(prefix). */
  predicate StartsWith(s: string, prefix: string) {
    |prefix| <= |s| && s[..|prefix|] == prefix
  }

  /** An occurrence at any position makes the string contain sub; and every containment has one. */
  lemma {:induction false} ContainsAt(s: string, sub: string, i: int)
    requires OccursAt(s, sub, i)
    ensures Contains(s, sub)
    decreases i
  {
    if i > 0 {
      assert OccursAt(s[1..], sub, i - 1) by {
        assert s[1..][i - 1..i - 1 + |sub|] == s[i..i + |sub|];
      }
      ContainsAt(s[1..], sub, i - 1);
    }
  }

  lemma {:induction false} ContainsHasOccurrence(s: string, sub: string)
    requires Contains(s, sub)
    ensures exists i :: OccursAt(s, sub, i)
    decreases |s|
  {
    if !StartsWith(s, sub) {
      ContainsHasOccurrence(s[1..], sub);
      var i :| OccursAt(s[1..], sub, i);
      assert s[i + 1..i + 1 + |sub|] == s[1..][i..i + |sub|];
      assert OccursAt(s, sub, i + 1);
    } else {
      assert OccursAt(s, sub, 0);
    }
  }

  // ---------------------------------------------------------------------------
  // trim(): drops every character up to U+0020 at both ends
  // ---------------------------------------------------------------------------

  /** Every character is at most U+0020. */
  predicate Blank(x: string) {
    forall k :: 0 <= k < |x| ==> x[k] <= ' '
  }

  function TrimStart(s: string): (r: string)
    ensures |r| <= |s| && r == s[|s| - |r|..]
    ensures r == [] || r[0] > ' '
    ensures Blank(s[..|s| - |r|])
  {
    if |s| > 0 && s[0] <= ' ' then
      var r := TrimStart(s[1..]);
      assert s[..|s| - |r|] == [s[0]] + s[1..][..|s| - 1 - |r|];
      r
    else s
  }

  function TrimEnd(s: string): (r: string)
    ensures |r| <= |s| && r == s[..|r|]
    ensures r == [] || r[|r| - 1] > ' '
    ensures Blank(s[|r|..])
  {
    if |s| > 0 && s[|s| - 1] <= ' ' then
      var r := TrimEnd(s[..|s| - 1]);
      assert s[|r|..] == s[..|s| - 1][|r|..] + [s[|s| - 1]];
      r
    else s
  }

  /**
   * s[i..j] is what is left of s once every character up to U+0020 is dropped from both
   * ends: everything outside it is such a character and its own ends are not.
   */
  ghost predicate TrimmedAt(s: string, i: int, j: int) {
    && 0 <= i <= j <= |s|
    && Blank(s[..i])
    && Blank(s[j..])
    && (i < j ==> s[i] > ' ' && s[j - 1] > ' ')
  }

  /** r is s with the characters up to U+0020 dropped from both ends. */
  ghost predicate TrimOf(s: string, r: string) {
    exists i, j :: TrimmedAt(s, i, j) && r == s[i..j]
  }

  /** trim(): s without the characters up to U+0020 at either end (TrimExact says which slice). */
  function Trim(s: string): (r: string)
    ensures |r| <= |s|
    ensures r == [] || (r[0] > ' ' && r[|r| - 1] > ' ')
    ensures NoUpper(s) ==> NoUpper(r)
  {
    var t := TrimStart(s);
    var r := TrimEnd(t);
    TrimmedSlice(s, t, r);
    r
  }

  /** Trim drops exactly the characters up to U+0020 at the two ends of s and keeps the rest. */
  lemma TrimExact(s: string)
    ensures TrimOf(s, Trim(s))
  {
    var t := TrimStart(s);
    var r := TrimEnd(t);
    TrimmedEnds(s, t, r);
  }

  /** A prefix r of the suffix t of s, with no blank at the two ends, is a slice of s with those ends. */
  lemma TrimmedSlice(s: string, t: string, r: string)
    requires |t| <= |s| && t == s[|s| - |t|..] && (t == [] || t[0] > ' ')
    requires |r| <= |t| && r == t[..|r|] && (r == [] || r[|r| - 1] > ' ')
    ensures r == [] || (r[0] > ' ' && r[|r| - 1] > ' ')
    ensures r == s[|s| - |t|..|s| - |t| + |r|]
    ensures NoUpper(s) ==> NoUpper(r)
  {
    assert r == [] || r[0] == t[0];
    PrefixOfSuffix(s, |s| - |t|, t, r);
    NoUpperSlice(s, |s| - |t|, |s| - |t| + |r|);
  }

  lemma NoUpperSlice(s: string, i: int, j: int)
    requires 0 <= i <= j <= |s|
    ensures NoUpper(s) ==> NoUpper(s[i..j])
  {
    if NoUpper(s) {
      forall k | 0 <= k < j - i
        ensures !('A' <= s[i..j][k] <= 'Z')
      {
        assert s[i..j][k] == s[i + k];
      }
    }
  }

  /** Dropping a blank prefix and then a blank suffix leaves a trimmed slice. */
  lemma TrimmedEnds(s: string, t: string, r: string)
    requires |t| <= |s| && t == s[|s| - |t|..] && Blank(s[..|s| - |t|]) && (t == [] || t[0] > ' ')
    requires |r| <= |t| && r == t[..|r|] && Blank(t[|r|..]) && (r == [] || r[|r| - 1] > ' ')
    ensures TrimmedAt(s, |s| - |t|, |s| - |t| + |r|) && r == s[|s| - |t|..|s| - |t| + |r|]
  {
    PrefixOfSuffix(s, |s| - |t|, t, r);
  }

  /** A prefix r of the suffix t = s[i..] is the slice of s at i, and what t has after r is the rest of s. */
  lemma PrefixOfSuffix(s: string, i: int, t: string, r: string)
    requires 0 <= i <= |s| && t == s[i..] && |r| <= |t| && r == t[..|r|]
    ensures r == s[i..i + |r|] && t[|r|..] == s[i + |r|..]
  {
  }

  /** Trimming twice is trimming once. */
  lemma TrimIdempotent(s: string)
    ensures Trim(Trim(s)) == Trim(s)
  {
    var t := Trim(s);
    assert t == [] || (t[0] > ' ' && t[|t| - 1] > ' ');
    TrimOfTrimmed(t);
  }

  lemma TrimOfTrimmed(s: string)
    requires s == [] || (s[0] > ' ' && s[|s| - 1] > ' ')
    ensures Trim(s) == s
  {
  }

  // ---------------------------------------------------------------------------
  // replaceAll("\\s+", " ")
  // ---------------------------------------------------------------------------

  function DropSpaces(s: string): (r: string)
    ensures |r| <= |s| && r == s[|s| - |r|..]
    ensures r == [] || !IsSpace(r[0])
  {
    if |s| > 0 && IsSpace(s[0]) then DropSpaces(s[1..]) else s
  }

  /** Every maximal run of whitespace becomes one space. */
  function CollapseSpaces(s: string): (r: string)
    ensures NoUpper(s) ==> NoUpper(r)
    ensures s == [] <==> r == []
    ensures s != [] && IsSpace(s[0]) ==> r[0] == ' '
    ensures s != [] && !IsSpace(s[0]) ==> r[0] == s[0]
    decreases |s|
  {
    if s == [] then []
    else if IsSpace(s[0]) then
      var d := DropSpaces(s[1..]);
      NoUpperTail(s, d);
      " " + CollapseSpaces(d)
    else
      NoUpperTail(s, s[1..]);
      [s[0]] + CollapseSpaces(s[1..])
  }

  /** A suffix of the tail of text without capitals has none. */
  lemma NoUpperTail(s: string, t: string)
    requires |s| > 0 && |t| <= |s| - 1 && t == s[1..][|s| - 1 - |t|..]
    ensures NoUpper(s) ==> NoUpper(t)
  {
  }

  /** No whitespace but single spaces, and never two whitespace characters side by side. */
  ghost predicate Collapsed(s: string) {
    && (forall i :: 0 <= i < |s| && IsSpace(s[i]) ==> s[i] == ' ')
    && (forall i, j :: 0 <= i && j == i + 1 && j < |s| ==> !IsSpace(s[i]) || !IsSpace(s[j]))
  }

  /** The shape of a normalised command: collapsed, and trimmed at both ends. */
  ghost predicate Normal(s: string) {
    Collapsed(s) && (s == [] || (s[0] > ' ' && s[|s| - 1] > ' '))
  }

  /** The whitespace normalisation applied to every command: collapse runs, then trim. */
  function NormalizeSpaces(s: string): string {
    Trim(CollapseSpaces(s))
  }

  lemma {:induction false} CollapseSpacesIsCollapsed(s: string)
    ensures Collapsed(CollapseSpaces(s))
    decreases |s|
  {
    if s == [] {
    } else if IsSpace(s[0]) {
      var t := DropSpaces(s[1..]);
      CollapseSpacesIsCollapsed(t);
      var c := CollapseSpaces(t);
      assert c != [] ==> !IsSpace(c[0]);
      CollapsedCons(' ', c);
      assert CollapseSpaces(s) == [' '] + c;
    } else {
      CollapseSpacesIsCollapsed(s[1..]);
      CollapsedCons(s[0], CollapseSpaces(s[1..]));
      assert CollapseSpaces(s) == [s[0]] + CollapseSpaces(s[1..]);
    }
  }

  /** A character in front of collapsed text keeps it collapsed unless it adds a second space. */
  lemma CollapsedCons(x: char, c: string)
    requires Collapsed(c)
    requires IsSpace(x) ==> x == ' ' && (c != [] ==> !IsSpace(c[0]))
    ensures Collapsed([x] + c)
  {
    var r := [x] + c;
    forall i | 0 <= i < |r| && IsSpace(r[i])
      ensures r[i] == ' '
    {
      if i > 0 {
        assert r[i] == c[i - 1];
      }
    }
    forall i, j | 0 <= i && j == i + 1 && j < |r|
      ensures !IsSpace(r[i]) || !IsSpace(r[j])
    {
      assert r[j] == c[j - 1];
      if i > 0 {
        assert r[i] == c[i - 1];
        assert !IsSpace(c[i - 1]) || !IsSpace(c[j - 1]);
      }
    }
  }

  lemma {:induction false} CollapseSpacesOfCollapsed(s: string)
    requires Collapsed(s)
    ensures CollapseSpaces(s) == s
    decreases |s|
  {
    if s != [] {
      var t := s[1..];
      assert Collapsed(t) by { CollapsedSlice(s, 1, |s|); }
      CollapseSpacesOfCollapsed(t);
      if IsSpace(s[0]) {
        assert DropSpaces(t) == t by {
          if |s| > 1 {
            assert !IsSpace(s[0]) || !IsSpace(s[1]);
            assert t[0] == s[1];
          }
          DropSpacesOfNonSpace(t);
        }
        assert s == " " + t by {
          assert s[0] == ' ';
          assert s == [s[0]] + t;
        }
      } else {
        assert s == [s[0]] + t;
      }
    }
  }

  /** Text that does not start with whitespace has nothing to drop. */
  lemma DropSpacesOfNonSpace(t: string)
    requires t != [] ==> !IsSpace(t[0])
    ensures DropSpaces(t) == t
  {
  }

  lemma CollapsedSlice(s: string, i: int, j: int)
    requires Collapsed(s) && 0 <= i <= j <= |s|
    ensures Collapsed(s[i..j])
  {
    var t := s[i..j];
    forall k | 0 <= k < |t| && IsSpace(t[k])
      ensures t[k] == ' '
    {
      assert t[k] == s[i + k];
    }
    forall k, m | 0 <= k && m == k + 1 && m < |t|
      ensures !IsSpace(t[k]) || !IsSpace(t[m])
    {
      assert t[k] == s[i + k] && t[m] == s[i + m];
      assert !IsSpace(s[i + k]) || !IsSpace(s[i + m]);
    }
  }

  /**
   * Normalised text is collapsed and trimmed, normalising it again changes nothing, and
   * it has the same words as s when every character of s up to U+0020 is whitespace.
   */
  lemma NormalizeSpacesNormal(s: string)
    ensures Normal(NormalizeSpaces(s))
    ensures NormalizeSpaces(NormalizeSpaces(s)) == NormalizeSpaces(s)
    ensures BlanksAreSpaces(s) ==> Words(NormalizeSpaces(s)) == Words(s)
  {
    if BlanksAreSpaces(s) {
      NormalizeSpacesKeepsWords(s);
    }
    NormalizeSpacesIsNormal(s);
    NormalIsNormalized(NormalizeSpaces(s));
  }

  /** Text already in normal form normalises to itself. */
  lemma NormalIsNormalized(r: string)
    requires Normal(r)
    ensures NormalizeSpaces(r) == r
  {
    CollapseSpacesOfCollapsed(r);
    TrimOfTrimmed(r);
  }

  lemma NormalizeSpacesIsNormal(s: string)
    ensures Normal(NormalizeSpaces(s))
  {
    CollapseSpacesIsCollapsed(s);
    CollapsedTrim(CollapseSpaces(s));
  }

  /** Trimming collapsed text leaves it collapsed. */
  lemma CollapsedTrim(c: string)
    requires Collapsed(c)
    ensures Collapsed(Trim(c))
  {
    var i, j := TrimIsSlice(c);
    CollapsedSlice(c, i, j);
  }

  /** What trim() keeps is one slice of its input. */
  lemma TrimIsSlice(s: string) returns (i: int, j: int)
    ensures TrimmedAt(s, i, j) && Trim(s) == s[i..j]
  {
    TrimExact(s);
    i, j :| TrimmedAt(s, i, j) && Trim(s) == s[i..j];
  }

  // ---------------------------------------------------------------------------
  // Words: split("\\s+") of text that does not start with whitespace
  // ---------------------------------------------------------------------------

  /** The longest prefix without whitespace. */
  function Word(s: string): (w: string)
    ensures |w| <= |s| && w == s[..|w|]
    ensures forall i :: 0 <= i < |w| ==> !IsSpace(w[i])
    ensures |w| < |s| ==> IsSpace(s[|w|])
    ensures s != [] && !IsSpace(s[0]) ==> |w| > 0
  {
    if s == [] || IsSpace(s[0]) then [] else [s[0]] + Word(s[1..])
  }

  function Words(s: string): seq<string>
    decreases |s|
  {
    if s == [] then []
    else if IsSpace(s[0]) then Words(s[1..])
    else var w := Word(s); [w] + Words(s[|w|..])
  }

  /** w occurs at p in x, starts with no whitespace and has whitespace or an end of x on either side. */
  ghost predicate Spaced(x: string, w: string, p: int) {
    && OccursAt(x, w, p) && |w| > 0 && !IsSpace(x[p])
    && (p == 0 || IsSpace(x[p - 1]))
    && (p + |w| == |x| || IsSpace(x[p + |w|]))
  }

  /** Each word of x stands at some position p with whitespace or an end of x on either side. */
  lemma {:induction false} WordAt(x: string, k: nat) returns (p: int)
    requires k < |Words(x)|
    ensures Spaced(x, Words(x)[k], p)
    decreases |x|, 1
  {
    if IsSpace(x[0]) {
      p := WordAtAfterSpace(x, k);
    } else if k == 0 {
      assert Words(x)[0] == Word(x);
      FirstWordSpaced(x);
      p := 0;
    } else {
      p := WordAtAfterWord(x, k);
    }
  }

  /** WordAt when x starts with whitespace: the words are those of x[1..]. */
  lemma {:induction false} WordAtAfterSpace(x: string, k: nat) returns (p: int)
    requires k < |Words(x)| && IsSpace(x[0])
    ensures Spaced(x, Words(x)[k], p)
    decreases |x|, 0
  {
    assert Words(x) == Words(x[1..]);
    var q := WordAt(x[1..], k);
    SpacedInSuffix(x, 1, Words(x)[k], q);
    p := q + 1;
  }

  /** WordAt for a later word when x starts with a word: the rest are those after the first. */
  lemma {:induction false} WordAtAfterWord(x: string, k: nat) returns (p: int)
    requires 0 < k < |Words(x)| && !IsSpace(x[0])
    ensures Spaced(x, Words(x)[k], p)
    decreases |x|, 0
  {
    var w0 := Word(x);
    assert Words(x) == [w0] + Words(x[|w0|..]);
    var q := WordAt(x[|w0|..], k - 1);
    SpacedInSuffix(x, |w0|, Words(x)[k], q);
    p := q + |w0|;
  }

  /** Text that starts with a word character has its first word at 0. */
  lemma FirstWordSpaced(x: string)
    requires x != [] && !IsSpace(x[0])
    ensures Spaced(x, Word(x), 0)
  {
    assert x[0..|Word(x)|] == Word(x);
  }

  /** A spaced occurrence in the suffix x[d..] is one in x, when x[d..] starts with whitespace or d is 0. */
  lemma SpacedInSuffix(x: string, d: nat, w: string, q: int)
    requires d <= |x| && Spaced(x[d..], w, q)
    requires d == 0 || IsSpace(x[d - 1]) || IsSpace(x[d])
    ensures Spaced(x, w, q + d)
  {
    var y := x[d..];
    assert x[q + d..q + d + |w|] == y[q..q + |w|];
    assert x[q + d] == y[q];
    assert q > 0 ==> x[q + d - 1] == y[q - 1];
    assert q + |w| < |y| ==> x[q + d + |w|] == y[q + |w|];
  }

  /** Each word of x stands at some position with a word boundary on either side. */
  lemma WordBounded(x: string, k: nat) returns (p: int)
    requires k < |Words(x)|
    ensures BoundedAt(x, Words(x)[k], p)
  {
    p := WordAt(x, k);
  }

  /** Every character up to U+0020 is whitespace in the sense of \s. */
  predicate BlanksAreSpaces(s: string) {
    forall k :: 0 <= k < |s| && s[k] <= ' ' ==> IsSpace(s[k])
  }

  /** Collapsing whitespace runs and trimming keeps the words, when the only blanks are whitespace. */
  lemma NormalizeSpacesKeepsWords(s: string)
    requires BlanksAreSpaces(s)
    ensures Words(NormalizeSpaces(s)) == Words(s)
  {
    WordsCollapseSpaces(s);
    CollapseSpacesBlanks(s);
    WordsTrim(CollapseSpaces(s));
  }

  /** Collapsing brings in no blank but the space. */
  lemma {:induction false} CollapseSpacesBlanks(s: string)
    requires BlanksAreSpaces(s)
    ensures BlanksAreSpaces(CollapseSpaces(s))
    decreases |s|
  {
    if s != [] && IsSpace(s[0]) {
      var d := DropSpaces(s[1..]);
      BlanksTail(s, d);
      CollapseSpacesBlanks(d);
      assert CollapseSpaces(s) == [' '] + CollapseSpaces(d);
      BlanksCons(' ', CollapseSpaces(d));
    } else if s != [] {
      BlanksTail(s, s[1..]);
      CollapseSpacesBlanks(s[1..]);
      assert CollapseSpaces(s) == [s[0]] + CollapseSpaces(s[1..]);
      BlanksCons(s[0], CollapseSpaces(s[1..]));
    }
  }

  /** A suffix of the tail keeps the property that every blank is whitespace. */
  lemma BlanksTail(s: string, t: string)
    requires |s| > 0 && |t| <= |s| - 1 && t == s[1..][|s| - 1 - |t|..]
    requires BlanksAreSpaces(s)
    ensures BlanksAreSpaces(t)
  {
    forall k | 0 <= k < |t| && t[k] <= ' '
      ensures IsSpace(t[k])
    {
      assert t[k] == s[|s| - |t| + k];
    }
  }

  /** A character that is whitespace if blank, in front of text whose blanks are whitespace. */
  lemma BlanksCons(x: char, c: string)
    requires (x <= ' ' ==> IsSpace(x)) && BlanksAreSpaces(c)
    ensures BlanksAreSpaces([x] + c)
  {
    forall k | 0 < k < |c| + 1
      ensures ([x] + c)[k] == c[k - 1]
    {
    }
  }

  /** Whitespace in front of a text adds no words. */
  lemma {:induction false} WordsAfterSpaces(p: string, u: string)
    requires forall k :: 0 <= k < |p| ==> IsSpace(p[k])
    ensures Words(p + u) == Words(u)
    decreases |p|
  {
    if p == [] {
      assert p + u == u;
    } else {
      assert (p + u)[1..] == p[1..] + u;
      WordsAfterSpaces(p[1..], u);
    }
  }

  /** A word ends where whitespace begins, whatever follows. */
  lemma {:induction false} WordBeforeSpace(u: string, x: string)
    requires x == [] || IsSpace(x[0])
    ensures Word(u + x) == Word(u)
    decreases |u|
  {
    if u == [] {
      assert u + x == x;
    } else if !IsSpace(u[0]) {
      assert (u + x)[1..] == u[1..] + x;
      WordBeforeSpace(u[1..], x);
    }
  }

  /** Whitespace after a text adds no words. */
  lemma {:induction false} WordsBeforeSpaces(u: string, v: string)
    requires forall k :: 0 <= k < |v| ==> IsSpace(v[k])
    ensures Words(u + v) == Words(u)
    decreases |u|
  {
    if u == [] {
      WordsAfterSpaces(v, []);
      assert u + v == v + [];
    } else if IsSpace(u[0]) {
      assert (u + v)[1..] == u[1..] + v;
      WordsBeforeSpaces(u[1..], v);
    } else {
      var w := Word(u);
      WordBeforeSpace(u, v);
      assert (u + v)[|w|..] == u[|w|..] + v;
      WordsBeforeSpaces(u[|w|..], v);
    }
  }

  /** Trimming keeps the words, when the only blanks are whitespace. */
  lemma WordsTrim(c: string)
    requires BlanksAreSpaces(c)
    ensures Words(Trim(c)) == Words(c)
  {
    var i, j := TrimIsSlice(c);
    WordsTrimmedAt(c, i, j);
  }

  /** Cutting blanks from both ends keeps the words, when the only blanks are whitespace. */
  lemma WordsTrimmedAt(c: string, i: int, j: int)
    requires BlanksAreSpaces(c) && TrimmedAt(c, i, j)
    ensures Words(c[i..j]) == Words(c)
  {
    WordsDropLeading(c, i, j);
    WordsDropTrailing(c, i, j);
  }

  /** The blanks before s[i..] carry no word. */
  lemma WordsDropLeading(c: string, i: int, j: int)
    requires BlanksAreSpaces(c) && TrimmedAt(c, i, j)
    ensures Words(c) == Words(c[i..j] + c[j..])
  {
    assert c == c[..i] + (c[i..j] + c[j..]);
    assert c[..i] == c[0..i];
    BlankSliceIsSpace(c, 0, i);
    WordsAfterSpaces(c[..i], c[i..j] + c[j..]);
  }

  /** The blanks after s[..j] carry no word. */
  lemma WordsDropTrailing(c: string, i: int, j: int)
    requires BlanksAreSpaces(c) && TrimmedAt(c, i, j)
    ensures Words(c[i..j] + c[j..]) == Words(c[i..j])
  {
    assert c[j..] == c[j..|c|];
    BlankSliceIsSpace(c, j, |c|);
    WordsBeforeSpaces(c[i..j], c[j..]);
  }

  /** A blank slice of text whose only blanks are whitespace is all whitespace. */
  lemma BlankSliceIsSpace(c: string, i: int, j: int)
    requires BlanksAreSpaces(c) && 0 <= i <= j <= |c| && Blank(c[i..j])
    ensures forall k :: 0 <= k < j - i ==> IsSpace(c[i..j][k])
  {
    forall k | 0 <= k < j - i
      ensures IsSpace(c[i..j][k])
    {
      assert c[i..j][k] == c[i + k];
    }
  }

  lemma {:induction false} WordsDropSpaces(s: string)
    ensures Words(DropSpaces(s)) == Words(s)
    decreases |s|
  {
    if |s| > 0 && IsSpace(s[0]) {
      WordsDropSpaces(s[1..]);
    }
  }

  /** Collapsing leaves text without whitespace in place. */
  lemma {:induction false} CollapseSpacesAfterWord(u: string, x: string)
    requires forall k :: 0 <= k < |u| ==> !IsSpace(u[k])
    ensures CollapseSpaces(u + x) == u + CollapseSpaces(x)
    decreases |u|
  {
    if u == [] {
      assert u + x == x;
    } else {
      var y := u + x;
      assert y[0] == u[0] && y[1..] == u[1..] + x;
      CollapseKeepsFirst(y);
      CollapseSpacesAfterWord(u[1..], x);
      assert u == [u[0]] + u[1..];
    }
  }

  /** Text that does not start with whitespace keeps its first character when collapsed. */
  lemma CollapseKeepsFirst(s: string)
    requires s != [] && !IsSpace(s[0])
    ensures CollapseSpaces(s) == [s[0]] + CollapseSpaces(s[1..])
  {
  }

  /** Text without whitespace is one word. */
  lemma {:induction false} WordOfSpaceless(w: string)
    requires forall k :: 0 <= k < |w| ==> !IsSpace(w[k])
    ensures Word(w) == w
    decreases |w|
  {
    if w != [] {
      WordOfSpaceless(w[1..]);
    }
  }

  /** Collapsing whitespace runs keeps the words. */
  lemma {:induction false} WordsCollapseSpaces(s: string)
    ensures Words(CollapseSpaces(s)) == Words(s)
    decreases |s|
  {
    if s == [] {
    } else if IsSpace(s[0]) {
      var t := DropSpaces(s[1..]);
      WordsCollapseSpaces(t);
      WordsDropSpaces(s[1..]);
      var c := CollapseSpaces(t);
      assert CollapseSpaces(s) == " " + c;
      assert (" " + c)[1..] == c;
    } else {
      var w := Word(s);
      var rest := s[|w|..];
      assert s == w + rest;
      CollapseSpacesAfterWord(w, rest);
      WordsCollapseSpaces(rest);
      var c := CollapseSpaces(rest);
      WordBeforeSpace(w, c);
      WordOfSpaceless(w);
      assert (w + c)[|w|..] == c;
    }
  }

  // ---------------------------------------------------------------------------
  // replaceAll("\\b" + w + "\\b", "") for a word w
  // ---------------------------------------------------------------------------

  /** Letters, digits and the underscore: the characters \b tells apart from the rest. */
  predicate IsWordChar(c: char) {
    IsAsciiAlphaNum(c) || c == '_'
  }

  /** w occurs at i in s with a word boundary on either side. */
  predicate BoundedAt(s: string, w: string, i: int) {
    && OccursAt(s, w, i)
    && (i == 0 || !IsWordChar(s[i - 1]))
    && (i + |w| == |s| || !IsWordChar(s[i + |w|]))
  }

  /**
   * The text from position i on, with every occurrence of w that has a word boundary on
   * either side deleted; the scan resumes after each deletion and boundaries are judged
   * on the original text, as a regular-expression replacement does.
   */
  function RemoveWordFrom(s: string, w: string, i: nat): (r: string)
    requires |w| > 0 && i <= |s|
    ensures |r| <= |s| - i
    ensures NoUpper(s) ==> NoUpper(r)
    decreases |s| - i
  {
    if i == |s| then ""
    else if BoundedAt(s, w, i) then RemoveWordFrom(s, w, i + |w|)
    else [s[i]] + RemoveWordFrom(s, w, i + 1)
  }

  /**
   * Deleting a word of word characters removes exactly the characters that its bounded
   * occurrences cover and keeps the others in order.
   */
  function RemoveWord(s: string, w: string): (r: string)
    requires |w| > 0
    ensures |r| <= |s|
    ensures NoUpper(s) ==> NoUpper(r)
    ensures WordOnly(w) ==> r == Uncovered(s, w, 0)
  {
    if WordOnly(w) then
      RemoveWordFromUncovered(s, w, 0);
      RemoveWordFrom(s, w, 0)
    else
      RemoveWordFrom(s, w, 0)
  }

  /** Letters, digits and underscores only. */
  predicate WordOnly(w: string) {
    forall k :: 0 <= k < |w| ==> IsWordChar(w[k])
  }

  /** Some bounded occurrence of w in s covers position k. */
  ghost predicate Covered(s: string, w: string, k: int) {
    exists p :: k - |w| < p <= k && BoundedAt(s, w, p)
  }

  /** The characters of s from position i on that no bounded occurrence of w covers, in order. */
  ghost function Uncovered(s: string, w: string, i: nat): string
    requires i <= |s|
    decreases |s| - i
  {
    if i == |s| then [] else (if Covered(s, w, i) then [] else [s[i]]) + Uncovered(s, w, i + 1)
  }

  /** Two bounded occurrences of a word of word characters never overlap. */
  lemma BoundedDisjoint(s: string, w: string, p: int, q: int)
    requires WordOnly(w) && |w| > 0 && BoundedAt(s, w, p) && BoundedAt(s, w, q) && p < q
    ensures p + |w| <= q
  {
    assert !IsWordChar(s[q - 1]);
    forall m | p <= m < p + |w|
      ensures IsWordChar(s[m])
    {
      assert s[m] == s[p..p + |w|][m - p];
    }
  }

  /** Positions that bounded occurrences cover contribute nothing. */
  lemma {:induction false} UncoveredSkip(s: string, w: string, i: nat, j: nat)
    requires i <= j <= |s|
    requires forall k :: i <= k < j ==> Covered(s, w, k)
    ensures Uncovered(s, w, i) == Uncovered(s, w, j)
    decreases j - i
  {
    if i < j {
      UncoveredSkip(s, w, i + 1, j);
    }
  }

  /**
   * From a position no bounded occurrence straddles, the scan deletes exactly the covered
   * characters.
   */
  lemma {:induction false} RemoveWordFromUncovered(s: string, w: string, i: nat)
    requires |w| > 0 && WordOnly(w) && i <= |s|
    requires forall p :: i - |w| < p < i ==> !BoundedAt(s, w, p)
    ensures RemoveWordFrom(s, w, i) == Uncovered(s, w, i)
    decreases |s| - i, 1
  {
    if i == |s| {
    } else if BoundedAt(s, w, i) {
      UncoveredSkipsBounded(s, w, i);
    } else {
      UncoveredKeepsChar(s, w, i);
    }
  }

  /** RemoveWordFromUncovered at a bounded occurrence: both skip it. */
  lemma {:induction false} UncoveredSkipsBounded(s: string, w: string, i: nat)
    requires |w| > 0 && WordOnly(w) && i < |s| && BoundedAt(s, w, i)
    requires forall p :: i - |w| < p < i ==> !BoundedAt(s, w, p)
    ensures RemoveWordFrom(s, w, i) == Uncovered(s, w, i)
    decreases |s| - i, 0
  {
    SkipBounded(s, w, i);
    assert RemoveWordFrom(s, w, i) == RemoveWordFrom(s, w, i + |w|);
    RemoveWordFromUncovered(s, w, i + |w|);
  }

  /** RemoveWordFromUncovered at any other character: both keep it. */
  lemma {:induction false} UncoveredKeepsChar(s: string, w: string, i: nat)
    requires |w| > 0 && WordOnly(w) && i < |s| && !BoundedAt(s, w, i)
    requires forall p :: i - |w| < p < i ==> !BoundedAt(s, w, p)
    ensures RemoveWordFrom(s, w, i) == Uncovered(s, w, i)
    decreases |s| - i, 0
  {
    NotCovered(s, w, i);
    assert RemoveWordFrom(s, w, i) == [s[i]] + RemoveWordFrom(s, w, i + 1);
    RemoveWordFromUncovered(s, w, i + 1);
  }

  /** A character that starts no bounded occurrence, and that none before it reaches, is kept. */
  lemma NotCovered(s: string, w: string, i: nat)
    requires i < |s| && !BoundedAt(s, w, i)
    requires forall p :: i - |w| < p < i ==> !BoundedAt(s, w, p)
    ensures Uncovered(s, w, i) == [s[i]] + Uncovered(s, w, i + 1)
  {
    assert !Covered(s, w, i);
  }

  /** A bounded occurrence at i covers its own characters and overlaps no other. */
  lemma SkipBounded(s: string, w: string, i: nat)
    requires |w| > 0 && WordOnly(w) && i <= |s| && BoundedAt(s, w, i)
    ensures i + |w| <= |s| && Uncovered(s, w, i) == Uncovered(s, w, i + |w|)
    ensures forall p :: i < p < i + |w| ==> !BoundedAt(s, w, p)
  {
    CoversItself(s, w, i);
    UncoveredSkip(s, w, i, i + |w|);
    NoBoundedInside(s, w, i);
  }

  /** A bounded occurrence at i covers each of its own characters. */
  lemma CoversItself(s: string, w: string, i: nat)
    requires |w| > 0 && i <= |s| && BoundedAt(s, w, i)
    ensures i + |w| <= |s|
    ensures forall k :: i <= k < i + |w| ==> Covered(s, w, k)
  {
    forall k | i <= k < i + |w|
      ensures Covered(s, w, k)
    {
      assert k - |w| < i <= k;
    }
  }

  /** No bounded occurrence starts inside another. */
  lemma NoBoundedInside(s: string, w: string, i: nat)
    requires |w| > 0 && WordOnly(w) && i <= |s| && BoundedAt(s, w, i)
    ensures forall p :: i < p < i + |w| ==> !BoundedAt(s, w, p)
  {
    forall p | i < p < i + |w|
      ensures !BoundedAt(s, w, p)
    {
      if BoundedAt(s, w, p) {
        BoundedDisjoint(s, w, i, p);
      }
    }
  }

  // ---------------------------------------------------------------------------
  // No bounded word appears that was not there before
  // ---------------------------------------------------------------------------

  /**
   * A word of word characters with boundaries on either side in the result was already
   * there, so bounded, in s; and it is not the word deleted.
   */
  lemma RemoveWordBounded(s: string, w: string, u: string, p: int) returns (q: int)
    requires |w| > 0 && |u| > 0 && WordOnly(u)
    requires BoundedAt(RemoveWord(s, w), u, p)
    ensures u != w && BoundedAt(s, u, q)
  {
    q := RemoveWordFromBounded(s, w, 0, u, p);
  }

  /** After deleting a word of word characters, no bounded occurrence of it is left. */
  lemma RemoveWordLeavesNone(s: string, w: string, p: int)
    requires |w| > 0 && WordOnly(w)
    ensures !BoundedAt(RemoveWord(s, w), w, p)
  {
    if BoundedAt(RemoveWord(s, w), w, p) {
      var q := RemoveWordBounded(s, w, w, p);
    }
  }

  /**
   * The induction behind RemoveWordBounded, from a position i that is not inside a run
   * of word characters.
   */
  lemma {:induction false} RemoveWordFromBounded(s: string, w: string, i: nat, u: string, p: int) returns (q: int)
    requires |w| > 0 && i <= |s| && |u| > 0 && WordOnly(u)
    requires i == 0 || i == |s| || !IsWordChar(s[i - 1]) || !IsWordChar(s[i])
    requires BoundedAt(RemoveWordFrom(s, w, i), u, p)
    ensures u != w && i <= q && BoundedAt(s, u, q)
    decreases |s| - i
  {
    if i == |s| {
      assert false;
    } else if BoundedAt(s, w, i) {
      q := RemoveWordFromBounded(s, w, i + |w|, u, p);
    } else if !IsWordChar(s[i]) {
      BoundedAfterKept(s, w, i, u, p);
      q := RemoveWordFromBounded(s, w, i + 1, u, p - 1);
    } else {
      var k := WordRunEnd(s, i);
      var found := BoundedAfterRun(s, w, i, k, u, p);
      if found {
        q := i;
      } else {
        q := RemoveWordFromBounded(s, w, k, u, p - (k - i));
      }
    }
  }

  /** After a kept character that is not a word character, the occurrence lies in the rest. */
  lemma BoundedAfterKept(s: string, w: string, i: nat, u: string, p: int)
    requires |w| > 0 && i < |s| && |u| > 0 && WordOnly(u)
    requires !BoundedAt(s, w, i) && !IsWordChar(s[i])
    requires BoundedAt(RemoveWordFrom(s, w, i), u, p)
    ensures p >= 1 && BoundedAt(RemoveWordFrom(s, w, i + 1), u, p - 1)
  {
    var r := RemoveWordFrom(s, w, i);
    var x := RemoveWordFrom(s, w, i + 1);
    assert r == [s[i]] + x;
    assert p != 0 by {
      assert r[p] == u[0];
    }
    BoundedInSuffix([s[i]], x, u, p);
  }

  /**
   * After a kept run of word characters from i to k, the occurrence is the run itself,
   * bounded in s at i, or lies in the rest.
   */
  lemma BoundedAfterRun(s: string, w: string, i: nat, k: nat, u: string, p: int) returns (found: bool)
    requires |w| > 0 && i < k <= |s| && |u| > 0 && WordOnly(u)
    requires i == 0 || !IsWordChar(s[i - 1])
    requires !BoundedAt(s, w, i) && (k == |s| || !IsWordChar(s[k]))
    requires forall m :: i <= m < k ==> IsWordChar(s[m])
    requires BoundedAt(RemoveWordFrom(s, w, i), u, p)
    ensures found ==> u != w && BoundedAt(s, u, i)
    ensures !found ==> p > k - i && BoundedAt(RemoveWordFrom(s, w, k), u, p - (k - i))
  {
    var r := RemoveWordFrom(s, w, i);
    var x := RemoveWordFrom(s, w, k);
    assert r == s[i..k] + x && (x == [] || !IsWordChar(x[0])) by {
      RemoveWordFromRun(s, w, i, k);
    }
    found := p < k - i;
    if found {
      assert u == s[i..k] by {
        assert forall m :: 0 <= m < k - i ==> IsWordChar(s[i..k][m]);
        BoundedInRun(s[i..k], x, u, p);
      }
    } else {
      assert p != k - i by {
        assert r[p] == u[0];
      }
      BoundedInSuffix(s[i..k], x, u, p);
    }
  }

  /** The end of the run of word characters that starts at i. */
  lemma {:induction false} WordRunEnd(s: string, i: nat) returns (k: nat)
    requires i < |s| && IsWordChar(s[i])
    ensures i < k <= |s| && (k == |s| || !IsWordChar(s[k]))
    ensures forall m :: i <= m < k ==> IsWordChar(s[m])
    decreases |s| - i
  {
    if i + 1 == |s| || !IsWordChar(s[i + 1]) {
      k := i + 1;
    } else {
      k := WordRunEnd(s, i + 1);
    }
  }

  /**
   * A run of word characters that does not start a bounded occurrence is kept whole, and
   * what follows it is not deleted at its first character.
   */
  lemma {:induction false} RemoveWordFromRun(s: string, w: string, i: nat, k: nat)
    requires |w| > 0 && i < k <= |s| && !BoundedAt(s, w, i)
    requires forall m :: i <= m < k ==> IsWordChar(s[m])
    requires k == |s| || !IsWordChar(s[k])
    ensures RemoveWordFrom(s, w, i) == s[i..k] + RemoveWordFrom(s, w, k)
    ensures k < |s| ==> RemoveWordFrom(s, w, k) == [s[k]] + RemoveWordFrom(s, w, k + 1)
    decreases k - i
  {
    assert RemoveWordFrom(s, w, i) == [s[i]] + RemoveWordFrom(s, w, i + 1);
    if i + 1 < k {
      assert !BoundedAt(s, w, i + 1);
      RemoveWordFromRun(s, w, i + 1, k);
      assert s[i..k] == [s[i]] + s[i + 1..k];
    } else if k < |s| {
      assert !BoundedAt(s, w, k);
    }
  }

  /** A bounded occurrence that starts after a prefix y lies in the rest. */
  lemma BoundedInSuffix(y: string, x: string, u: string, p: int)
    requires BoundedAt(y + x, u, p) && p >= |y|
    ensures BoundedAt(x, u, p - |y|)
  {
    var z := y + x;
    assert x[p - |y|..p - |y| + |u|] == z[p..p + |u|];
    if p > |y| {
      assert x[p - |y| - 1] == z[p - 1];
    }
    if p + |u| < |z| {
      assert x[p - |y| + |u|] == z[p + |u|];
    }
  }

  /**
   * A bounded word of word characters that starts inside a run of word characters y,
   * followed by text that does not start with one, is the whole run.
   */
  lemma BoundedInRun(y: string, x: string, u: string, p: int)
    requires WordOnly(u) && |u| > 0 && 0 <= p < |y|
    requires forall m :: 0 <= m < |y| ==> IsWordChar(y[m])
    requires x == [] || !IsWordChar(x[0])
    requires BoundedAt(y + x, u, p)
    ensures p == 0 && u == y
  {
    var z := y + x;
    assert z[..|y|] == y;
  }

  /** Without a bounded occurrence from i on, nothing is deleted. */
  lemma {:induction false} RemoveWordFromUnmatched(s: string, w: string, i: nat)
    requires |w| > 0 && i <= |s|
    requires forall j :: i <= j < |s| ==> !BoundedAt(s, w, j)
    ensures RemoveWordFrom(s, w, i) == s[i..]
    decreases |s| - i
  {
    if i < |s| {
      RemoveWordFromUnmatched(s, w, i + 1);
      assert s[i..] == [s[i]] + s[i + 1..];
    }
  }

  /** Deleting a word brings in no blank that is not whitespace. */
  lemma {:induction false} RemoveWordFromBlanks(s: string, w: string, i: nat)
    requires |w| > 0 && i <= |s| && BlanksAreSpaces(s)
    ensures BlanksAreSpaces(RemoveWordFrom(s, w, i))
    decreases |s| - i
  {
    if i < |s| {
      if BoundedAt(s, w, i) {
        RemoveWordFromBlanks(s, w, i + |w|);
      } else {
        RemoveWordFromBlanks(s, w, i + 1);
        assert s[i] <= ' ' ==> IsSpace(s[i]);
        BlanksCons(s[i], RemoveWordFrom(s, w, i + 1));
      }
    }
  }

  /** Lower-casing changes no blank. */
  lemma LowerBlanks(s: string)
    requires BlanksAreSpaces(s)
    ensures BlanksAreSpaces(Lower(s))
  {
  }

  // ---------------------------------------------------------------------------
  // Joining
  // ---------------------------------------------------------------------------

  function Join(xs: seq<string>, sep: string): string {
    if |xs| == 0 then ""
    else if |xs| == 1 then xs[0]
    else Join(xs[..|xs| - 1], sep) + sep + xs[|xs| - 1]
  }

  /** What a StringBuilder holds after appending each item followed by the separator. */
  function JoinTrailing(xs: seq<string>, sep: string): string {
    if xs == [] then "" else JoinTrailing(xs[..|xs| - 1], sep) + xs[|xs| - 1] + sep
  }

  /** Deleting the last separator of JoinTrailing leaves exactly Join. */
  lemma {:induction false} JoinTrailingIsJoin(xs: seq<string>, sep: string)
    requires |xs| > 0
    ensures JoinTrailing(xs, sep) == Join(xs, sep) + sep
  {
    if |xs| > 1 {
      JoinTrailingIsJoin(xs[..|xs| - 1], sep);
    } else {
      assert xs[..0] == [];
    }
  }

  // ---------------------------------------------------------------------------
  // Decimal integers (the %d conversion)
  // ---------------------------------------------------------------------------

  predicate IsDigit(c: char) {
    '0' <= c <= '9'
  }

  function DigitChar(d: nat): (c: char)
    requires d < 10
    ensures IsDigit(c) && c as int - '0' as int == d
  {
    ('0' as int + d) as char
  }

  function NatToString(n: nat): (r: string)
    ensures |r| > 0 && forall i :: 0 <= i < |r| ==> IsDigit(r[i])
  {
    if n < 10 then [DigitChar(n)] else NatToString(n / 10) + [DigitChar(n % 10)]
  }

  /** %d: optional minus sign, then decimal digits. */
  function IntToString(i: int): string {
    if i < 0 then "-" + NatToString(-i) else NatToString(i)
  }

  function DigitsValue(s: string): nat
    requires forall i :: 0 <= i < |s| ==> IsDigit(s[i])
  {
    if s == [] then 0
    else
      assert IsDigit(s[|s| - 1]);
      DigitsValue(s[..|s| - 1]) * 10 + (s[|s| - 1] as int - '0' as int)
  }

  /** Reads back what IntToString writes. */
  function ParseInt(s: string): Option<int> {
    if |s| > 1 && s[0] == '-' && forall i :: 1 <= i < |s| ==> IsDigit(s[i]) then
      var magnitude: int := DigitsValue(s[1..]);
      Some(-magnitude)
    else if |s| > 0 && forall i :: 0 <= i < |s| ==> IsDigit(s[i]) then
      Some(DigitsValue(s))
    else
      None
  }

  lemma {:induction false} NatToStringRoundTrip(n: nat)
    ensures DigitsValue(NatToString(n)) == n
  {
    if n >= 10 {
      NatToStringRoundTrip(n / 10);
      var s := NatToString(n);
      assert s[..|s| - 1] == NatToString(n / 10);
    }
  }

  /** Every integer written in decimal reads back as itself. */
  lemma IntToStringRoundTrip(i: int)
    ensures ParseInt(IntToString(i)) == Some(i)
  {
    if i < 0 {
      var n := NatToString(-i);
      NatToStringRoundTrip(-i);
      var s := "-" + n;
      assert s[1..] == n;
      forall k | 1 <= k < |s|
        ensures IsDigit(s[k])
      {
        assert s[k] == n[k - 1];
      }
      assert DigitsValue(s[1..]) == -i;
    } else {
      var n := NatToString(i);
      NatToStringRoundTrip(i);
      assert IsDigit(n[0]);
      assert ParseInt(n) == Some(DigitsValue(n));
    }
  }

  // ---------------------------------------------------------------------------
  // split("->")
  // ---------------------------------------------------------------------------

  /** The pieces between the occurrences of "->", scanning left to right; `cur` is the piece being read. */
  function Pieces(s: string, cur: string): (r: seq<string>)
    ensures |r| >= 1
    decreases |s|
  {
    if |s| >= 2 && s[0] == '-' && s[1] == '>' then [cur] + Pieces(s[2..], "")
    else if s == [] then [cur]
    else Pieces(s[1..], cur + [s[0]])
  }

  function StripTrailingEmpty(xs: seq<string>): (r: seq<string>)
    ensures |r| <= |xs| && r == xs[..|r|]
    ensures r == [] || r[|r| - 1] != ""
  {
    if |xs| > 0 && xs[|xs| - 1] == "" then StripTrailingEmpty(xs[..|xs| - 1]) else xs
  }

  /**
   * split("->"): without an occurrence the whole string; otherwise the pieces,
   * with trailing empty pieces removed.
   */
  function SplitArrow(s: string): seq<string> {
    if Contains(s, "->") then StripTrailingEmpty(Pieces(s, "")) else [s]
  }

  lemma {:induction false} PiecesWithoutArrow(s: string, cur: string)
    requires '-' !in s
    ensures Pieces(s, cur) == [cur + s]
    decreases |s|
  {
    if s == [] {
      assert cur + s == cur;
    } else {
      PiecesWithoutArrow(s[1..], cur + [s[0]]);
      assert cur + [s[0]] + s[1..] == cur + s;
    }
  }

  lemma {:induction false} PiecesAcrossArrow(a: string, b: string, cur: string)
    requires '-' !in a
    ensures Pieces(a + "->" + b, cur) == [cur + a] + Pieces(b, "")
    decreases |a|
  {
    var s := a + "->" + b;
    if a == [] {
      assert s[2..] == b && cur + a == cur;
    } else {
      assert s[1..] == a[1..] + "->" + b;
      PiecesAcrossArrow(a[1..], b, cur + [a[0]]);
      assert cur + [a[0]] + a[1..] == cur + a;
    }
  }

  /** Splitting "a->b" gives back a and b when neither holds a '-' and b is not empty. */
  lemma SplitArrowRoundTrip(a: string, b: string)
    requires '-' !in a && '-' !in b && b != []
    ensures SplitArrow(a + "->" + b) == [a, b]
  {
    var s := a + "->" + b;
    assert OccursAt(s, "->", |a|) by {
      assert s[|a|..|a| + 2] == "->";
    }
    ContainsAt(s, "->", |a|);
    PiecesAcrossArrow(a, b, "");
    PiecesWithoutArrow(b, "");
    assert "" + a == a && "" + b == b;
    assert Pieces(s, "") == [a, b];
  }

  /** "a->" (nothing after the arrow) splits into a single piece. */
  lemma SplitArrowDanglingArrow(a: string)
    requires '-' !in a && a != []
    ensures SplitArrow(a + "->") == [a]
  {
    var s := a + "->";
    assert s == a + "->" + "";
    assert OccursAt(s, "->", |a|) by {
      assert s[|a|..|a| + 2] == "->";
    }
    ContainsAt(s, "->", |a|);
    PiecesAcrossArrow(a, "", "");
    assert "" + a == a;
    assert Pieces(s, "") == [a, ""];
    assert StripTrailingEmpty([a, ""]) == StripTrailingEmpty([a]);
  }
}

=== FILE: wrappers.dfy ===
/** Optional values, standing in for Java's nullable results. */
module Wrappers {

  datatype Option<+T> = None | Some(value: T)
}
